=== FILE: README.md ===
# Gantry in Dafny

Gantry turns a spoken or typed build request into a running web
application. An architect asks a language model for a *manifest*: a
project name, a stack, the files and an audit command. A policy gate
checks the manifest. A foundry builds it in a throw-away container and
records an evidence folder (the "black box"). A publisher pushes only
green builds to GitHub. Fleet managers run these phases for one mission
and write its status after each step. A web front end, an auth layer, a
skill registry and a small stand-alone server sit around that core.

This project models that core as pure functions over immutable data and
proves what each part promises. Collaborators that talk to the outside
world become parameters: the model endpoint, Docker, git, the GitHub
API, Vercel, regex search, `json.loads`, SHA-256, the clock and the
WebSocket send. One module follows each source file:

- `wrappers.dfy`: Option and Result.
- `text.dfy`: the `str` methods the source relies on.
- `mission.dfy`: mission statuses and status traces.
- `manifest.dfy`: the manifest and its validation.
- `policy.dfy`: the policy gate.
- `evidence.dfy`: the black box.
- `foundry.dfy`: the build.
- `deployer.dfy`: the Vercel deploy.
- `git_client.dfy`: the git provider and the GitHub API.
- `publisher.dfy`: the green-only publisher.
- `fleet_v1.dfy`: the threaded fleet manager.
- `fleet_v2.dfy`: the async fleet manager with self-healing.
- `architect.dfy`: the architect.
- `consultant.dfy`: the CTO consultant.
- `auth.dfy`: rate limiting, guardrails and passwords.
- `skills.dfy`: the skill registry.
- `api.dfy`: the FastAPI front end.
- `gantry_cli.dfy`: the stand-alone `gantry.py` server.

## Model

| member | source | states |
|---|---|---|
| Manifest.ParseStack | src/domain/models.py:30-41 | exactly "python", "node" and "rust" parse, and each parses back to its own value |
| Manifest.NameFieldAcceptsIff | src/domain/models.py:79-85 | the left-to-right field check accepts a name exactly when it is 1 to 64 characters, starts with a letter and continues with letters, digits, `_` or `-` |
| Manifest.Validate | src/domain/models.py:61-103 | a raw manifest validates exactly when every field is present, the stripped name is valid, the stack is known, there is at least one file and both commands are non-blank after stripping; the valid manifest carries the stripped name and commands, the parsed stack and the raw file list, and a rejection names at least one field |
| Manifest.DumpValidateRoundTrip | src/domain/models.py:61-103 | validating a dumped valid manifest gives the same manifest back |
| Manifest.WhitespaceOnlyRejected | src/domain/models.py:99-103 | a name or command made only of whitespace is rejected, because it is stripped before the length check |
| Manifest.DuplicatePathsAccepted | src/domain/models.py:87-89 | nothing forbids two files with the same path: a manifest with a duplicated file is still valid |
| Policy.LoadPolicy | src/core/policy.py:69-87 | without a policy file the defaults are the three stacks, the three patterns and 10 files; with one, its values are used and a missing `max_files` is 10 |
| Policy.CheckStack | src/core/policy.py:116-126 | passes exactly when the stack appears in the allow-list ignoring case, else an `allowed_stacks` violation naming the stack |
| Policy.CheckFileCount | src/core/policy.py:128-136 | passes exactly when there are at most `max_files` files, else a `max_files` violation with both numbers |
| Policy.FirstHit | src/core/policy.py:138-148 | the first (file, pattern) pair that matches, with files in manifest order and patterns in configuration order; none when nothing matches |
| Policy.ScanFiles | src/core/policy.py:138-148 | reports a violation exactly when some pattern matches some file's content |
| Policy.Validate | src/core/policy.py:89-114 | succeeds exactly when all three rules pass; otherwise the violated rule is the first failing one in the order stack, file count, patterns |
| Policy.ViolationNamesFirstMatchingFile | src/core/policy.py:138-148 | the forbidden-pattern violation names the first matching file and that file's first matching pattern |
| Policy.DefaultConfigAllowsEveryStack | src/core/policy.py:76-82 | under the defaults, only the file count and the patterns can reject a manifest |
| Evidence.Log | src/core/foundry.py:105-110 | appends exactly one entry and keeps the earlier entries and the folder |
| Evidence.SaveManifest | src/core/foundry.py:112-117 | writes the manifest file and logs MANIFEST_SAVED |
| Evidence.SaveAuditPass | src/core/foundry.py:119-125 | writes the pass verdict file and logs AUDIT_PASSED |
| Evidence.SaveAuditFail | src/core/foundry.py:127-138 | writes the fail verdict with its exit code and logs AUDIT_FAILED with the code |
| Evidence.Finalize | src/core/foundry.py:140-152 | saves the whole log as the flight recorder and changes nothing else |
| Evidence.LogAllAppends | src/core/foundry.py:105-110 | logging several events appends them in order |
| Foundry.GetImage | src/core/foundry.py:187-191 | the builder image when it is available, else the stack's own image |
| Foundry.VerifyStructure | src/core/foundry.py:193-252 | Rust always passes; Node and Python pass exactly when the check exits 0 and prints STRUCTURE_VALID |
| Foundry.Leave | src/core/foundry.py:472-476 | the flight recorder receives the log, then the container is removed; a removal that raises replaces the intended exit with its error |
| Foundry.DeployStep | src/core/foundry.py:506-523 | skipped when `deploy` is off and not attempted without a Vercel token or the builder image; unless the deployer or the container's removal raises, the step returns, with a URL exactly when a deployment was made and succeeded; a raising removal is always reached without a deployer crash and becomes the step's exception; a deployment error logs DEPLOY_STARTED then DEPLOY_FAILED with its message and is swallowed; verdict files are untouched |
| Foundry.InstallDeps | src/core/foundry.py:414-452 | installs only for Python with requirements.txt or Node with package.json, logging DEPS_INSTALL_STARTED first when it does, and never touches the folder |
| Foundry.Body | src/core/foundry.py:345-531 | a timeout exit happens exactly when the switch fires; a container exists unless the pull or the spawn raises; a fault before the verdict (including a raising dependency install, when one runs) leaves the folder untouched and raises its own error; otherwise the verdict facts hold, including the exit a raising removal causes |
| Foundry.Handle | src/core/foundry.py:533-552 | every exit path writes the flight recorder; a pass or audit failure has removed the container, and every other exit removes a created container unless Docker refuses the forced removal; for a timeout this is the intended behaviour, not the source's (see Findings) |
| Foundry.HandleAsWritten | src/core/foundry.py:533-537 | as written, the handlers differ from the intended ones only after a timeout, when the container is removed only if the switch found one as it fired |
| Foundry.Build | src/core/foundry.py:302-555 | the log starts with BUILD_STARTED and MANIFEST_SAVED, the manifest is saved, the recorder holds the full log, a container exists exactly when the pull and the spawn succeed, none is left behind unless Docker refuses the forced removal, and the build times out exactly when the switch fires |
| Foundry.BuildAsWritten | src/core/foundry.py:302-555 | the build as written equals the intended build except after a timeout, where the container is removed only if the switch found one as it fired |
| Foundry.TimeoutBeforeSpawnLeaks | src/core/foundry.py:329-393 | as written, a switch that fires before the container exists leaves the container created meanwhile behind after the timeout; the intended build removes it |
| Foundry.TimeoutPath | src/core/foundry.py:533-537 | a timeout records exit code -1 with the timeout text, logs TIMEOUT_TRIGGERED, leaves the pass file alone and, as intended, removes the container unless Docker refuses |
| Foundry.CrashPath | src/core/foundry.py:542-552 | any other exception records exit code -1 with its message and logs BUILD_ERROR; the swallowed forced removal removes a created container unless Docker refuses |
| Foundry.AuditExitFailurePath | src/core/foundry.py:461-481 | a non-zero audit exit records that code and output as the fail verdict and leaves the pass file; the build then fails its audit with the container removed, or, when the removal raises, crashes with that error and a -1 verdict |
| Foundry.AuditFailedRecordsCode | src/core/foundry.py:470-501 | every audit failure removes the container and writes a fail verdict carrying the reported exit code |
| Foundry.RemovalFailureCrashes | src/core/foundry.py:470-552 | a removal that raises after any verdict turns the build into a crash with its message and a -1 fail verdict; a pass file already written stays |
| Foundry.PassedPath | src/core/foundry.py:483-531 | a passing build had exit 0 and a valid structure, wrote the pass verdict, removed the container, and reports a URL only if the deployer produced it |
| Foundry.VerdictReturns | src/core/foundry.py:483-523 | after an audit exit of 0 and a valid structure, without a crash in the check or the deployer, the verdict stage returns exactly when the container's removal succeeds, and otherwise raises the removal's error; it has a URL exactly when a deployment was made and succeeded, and a deployment error is logged as DEPLOY_FAILED |
| Foundry.FaultFreeBuildPasses | src/core/foundry.py:459-531 | a build without faults (no timeout, no raising Docker call) whose audit exits 0 with a valid structure passes, with a URL exactly when a deployment was made and succeeded; a deployment error is logged as DEPLOY_FAILED and the build still passes |
| Foundry.FaultFreeBodyReachesVerdict | src/core/foundry.py:345-459 | without faults the build reaches the verdict with the log of the set-up steps and AUDIT_STARTED |
| Foundry.StructureFailurePath | src/core/foundry.py:487-501 | a bad serverless structure after a passing audit is an audit failure with code -1, leaving both the pass and the fail verdict in the folder |
| Foundry.FaultFreeBuildEnds | src/core/foundry.py:470-531 | without faults (no timeout, no raising Docker call) a build either passes or fails its audit |
| Deployer.RunLength | src/core/deployer.py:70 | the maximal run of characters from a position that satisfy a class |
| Deployer.ProductionUrl | src/core/deployer.py:70 | the URL after "Production: " starts with https:// and has no whitespace |
| Deployer.VercelUrl | src/core/deployer.py:71 | a vercel.app URL match starts with https:// and has no whitespace |
| Deployer.Leftmost | src/core/deployer.py:75 | the leftmost position at which a pattern matches, as `re.search` finds it |
| Deployer.ParseVercelUrl | src/core/deployer.py:54-80 | a URL is found exactly when either pattern matches somewhere, and it is a whitespace-free https:// substring of the output |
| Deployer.ProductionLineParsed | src/core/deployer.py:69-78 | a "Production: https://host" line yields exactly that URL |
| Deployer.ProductionFirst | src/core/deployer.py:69-76 | when a "Production: " URL occurs anywhere, the result is the URL of the leftmost such match |
| Deployer.VercelFallback | src/core/deployer.py:69-78 | when no "Production: " URL occurs but a vercel.app URL does, the result is the leftmost vercel.app URL |
| Deployer.SanitizeChar | src/core/deployer.py:109 | letters are lower-cased, digits and `-` kept, anything else becomes `-` |
| Deployer.SanitizeName | src/core/deployer.py:109 | the safe name has the same length and only lower-case letters, digits and `-` |
| Deployer.SanitizeFixesSafeNames | src/core/deployer.py:109 | sanitizing is idempotent and leaves an already safe name unchanged |
| Deployer.DeployMission | src/core/deployer.py:82-148 | no token is an error; a non-zero deploy exit reports the first 500 characters; a zero exit returns the parsed URL or fails with "URL not found" |
| Deployer.LinkOutcomeIgnored | src/core/deployer.py:111-121 | the link step's result never changes the outcome |
| GitClient.Sanitize | src/infra/git_client.py:263-267 | with a token longer than 8 characters and free of brackets set, the token no longer occurs in the result; with any token set, the marker [REDACTED] occurs wherever the token did; text that does not show the token is returned as it is |
| GitClient.RedactionHides | src/infra/git_client.py:266 | replacing every occurrence of a non-empty token by the marker shows the marker when the token occurred, and leaves no token behind when the token is longer than 8 characters and free of brackets (a shorter one, such as "DACT", can re-form inside the marker) |
| GitClient.RedactionRemovesToken | src/infra/git_client.py:266 | replacing every occurrence leaves none behind, even where a replacement meets the following text |
| GitClient.RepoUrl | src/infra/git_client.py:388-392 | the public URL of the user's repository, or https://github.com when either part is unset |
| GitClient.Credential | src/infra/git_client.py:313 | the credential part of an https URL contains no `@` |
| GitClient.RemoteAndSafeUrls | src/infra/git_client.py:313-322 | the remote URL carries the token, the logged URL carries [REDACTED], and the two agree after the credential |
| GitClient.Run | src/infra/git_client.py:225-261 | a command succeeds exactly when it completed and, if checked, exited 0 |
| GitClient.Then | src/infra/git_client.py:251-256 | a failing command ends the session with its error; otherwise the session continues |
| GitClient.Push | src/infra/git_client.py:379-386 | a successful push runs exactly the force-push and returns the public URL |
| GitClient.CommitThenPush | src/infra/git_client.py:376-386 | a successful run commits, then pushes, then returns the public URL |
| GitClient.CommitAndPush | src/infra/git_client.py:325-386 | success returns the public URL; a feature branch runs five commands ending in commit and push; another branch stops after the status check or commits and pushes |
| GitClient.FeatureBranchPush | src/infra/git_client.py:343-386 | a successful `feat/` run issues five commands, the last two the commit and the push, and returns the public URL |
| GitClient.DefaultBranchPush | src/infra/git_client.py:365-386 | a successful run on another branch stages and reads the status, then stops or commits and pushes, and returns the public URL |
| GitClient.NothingToCommitSkipsPush | src/infra/git_client.py:370-374 | on a non-feature branch the push is skipped exactly when the status output is blank |
| GitClient.CreateRepo | src/infra/git_client.py:41-107 | 201 returns the clone URL; 422 with "name already exists" returns the existing repository's URL; 401 and 403 give their own errors |
| GitClient.CreatePullRequest | src/infra/git_client.py:116-195 | 201 returns the PR URL; 422 "already exists" returns the pulls page; 404 and 401 give their own errors |
| Publisher.CheckAuditStatus | src/core/publisher.py:67-114 | a PASS verdict in audit_pass.json wins; otherwise any audit_fail.json means false; otherwise the legacy report decides by its upper-cased status; no evidence is an error |
| Publisher.NonPassVerdictFallsThrough | src/core/publisher.py:82-90 | an audit_pass.json whose verdict is not PASS counts as if it were absent |
| Publisher.ViewOf | src/core/foundry.py:119-138 | the publisher sees a PASS verdict exactly when the build wrote a pass file |
| Publisher.GateOnBuildEvidence | src/core/publisher.py:80-114 | on a build's folder the gate is true iff a pass file exists, false iff only a fail file exists, and an error iff neither exists |
| Publisher.StructureFailureLooksGreen | src/core/foundry.py:483-501 | a build that fails only the structure check still passes the publisher's gate, because its pass file was written first |
| Publisher.TargetRepo | src/core/publisher.py:200 | the given repository name when set, else the project name |
| Publisher.PublishMission | src/core/publisher.py:145-217 | nothing is pushed and nothing succeeds unless the audit passed and credentials are set; a failed audit is a security block; past both checks the commands are exactly the git session's, and the publish succeeds exactly when the session does, with its URL, or fails with "Git operation failed: " and the session's error |
| Publisher.PublishedToTarget | src/core/publisher.py:199-211 | a successful publish adds the authenticated remote for the target repository and then commits and pushes, or finds nothing to commit |
| FleetV1.StatusFor | src/core/fleet.py:167-221 | each exception maps to its terminal status: architect and audit failures are FAILED, policy violations and security blocks are BLOCKED, timeouts TIMEOUT, publish errors PUBLISH_FAILED, anything else CRITICAL_FAILURE |
| FleetV1.SuccessStatus | src/core/fleet.py:141-165 | DEPLOYED when there is a deploy URL or a repository URL, else SUCCESS |
| FleetV1.RunPipeline | src/core/fleet.py:93-165 | the phases follow ARCHITECTING, VALIDATING, BUILDING, PUBLISHING and stop at the first raised exception; exactly one build; publishing only when configured; each outcome matches the collaborator result that caused it |
| FleetV1.MissionStatuses | src/core/fleet.py:93-221 | the statuses written are a prefix of the phase order followed by one final status |
| FleetV1.RunEndsInOneTerminal | src/core/fleet.py:93-221 | every run writes exactly one terminal status, and it is the last |
| FleetV1.MissionOutcome | src/core/fleet.py:167-221 | the final status is FAILED, BLOCKED, TIMEOUT, PUBLISH_FAILED or CRITICAL_FAILURE exactly in the situations that raise the matching exception |
| FleetV1.MissionSucceeds | src/core/fleet.py:141-165 | a passing build that publishes when configured ends DEPLOYED iff it has a deploy or repository URL, else SUCCESS |
| FleetV1.PublishingOnlyWhenConfigured | src/core/fleet.py:128-139 | PUBLISHING is written exactly when the build passed and the publisher is configured |
| FleetV1.SingleBuild | src/core/fleet.py:115-123 | the foundry is called once if the policy passed, else never |
| FleetV1.DispatchMission | src/core/fleet.py:53-80 | dispatch adds a PENDING record under the fresh id and leaves every other record alone |
| FleetV1.HistoryStartsPending | src/core/fleet.py:53-103 | a mission's history starts PENDING, ARCHITECTING and ends in exactly one terminal status |
| FleetV2.SkipPublishSetting | src/core/fleet_v2.py:39 | the skip switch is on exactly when the variable is set to "true" in any mix of upper and lower case |
| FleetV2.PublishPhase | src/core/fleet_v2.py:297-332 | PUBLISHING and a publish call happen exactly when publishing is wanted, not skipped and configured; a crash of the call aborts the mission, and a PR URL exists exactly when the call published |
| FleetV2.FinalStatus | src/core/fleet_v2.py:338-365 | DEPLOYED iff a deploy URL is set, else PR_OPENED iff a PR URL is set, else SUCCESS |
| FleetV2.RunMission | src/core/fleet_v2.py:119-158 | the corrected run (see Findings): starts with ARCHITECTING and the draft call |
| FleetV2.LoopCounts | src/core/fleet_v2.py:213-262 | from attempt `a` the loop builds at most 4 - a times and heals at most 3 - a times |
| FleetV2.LoopStatuses | src/core/fleet_v2.py:213-262 | a loop that stops ends in exactly one terminal status; one that hands over writes none |
| FleetV2.LoopOwnStatuses | src/core/fleet_v2.py:213-295 | the loop writes only BUILDING, HEALING, FAILED and TIMEOUT |
| FleetV2.BuiltOnlyAfterPass | src/core/fleet_v2.py:231-235 | the loop hands over a build result only right after a passing build |
| FleetV2.HealsFollowEarlyFailures | src/core/fleet_v2.py:237-248 | every heal follows an audit failure of an attempt before the last, on the same manifest and with that build's output as the error log |
| FleetV2.AfterBuildFacts | src/core/fleet_v2.py:142-150 | after the build, the run ends in one terminal status and publishes once exactly when wanted and configured |
| FleetV2.AfterDraftFacts | src/core/fleet_v2.py:133-150 | after a draft the run validates once, builds at most 3 times, heals at most twice and publishes at most once |
| FleetV2.RunEndsInOneTerminal | src/core/fleet_v2.py:119-158 | every run writes exactly one terminal status, and it is the last |
| FleetV2.ArchitectFailureStops | src/core/fleet_v2.py:164-189 | an architect error writes ARCHITECTING then FAILED, and nothing is validated or built |
| FleetV2.PolicyViolationBlocks | src/core/fleet_v2.py:191-211 | a policy violation ends BLOCKED right after VALIDATING, with no build or publish |
| FleetV2.RetryBounds | src/core/fleet_v2.py:213-262 | at most 3 builds, 2 heals, 1 policy check and 1 publish per mission |
| FleetV2.AfterBuildLast | src/core/fleet_v2.py:297-365 | after the build the last status is DEPLOYED, PR_OPENED, SUCCESS or CRITICAL_FAILURE, each in exactly its own situation |
| FleetV2.PublishOnlyWhenAttempted | src/core/fleet_v2.py:305-318 | exactly one publish call, and PUBLISHING, when the build passed and publishing is on and configured; otherwise none |
| FleetV2.PublishOnlyAfterPass | src/core/fleet_v2.py:137-147 | a publish call happens only after a passing build in the same trace |
| FleetV2.PublishesDraftedManifest | src/core/fleet_v2.py:129-147 | every publish call carries the manifest the architect drafted |
| FleetV2.TimeoutEndsMission | src/core/fleet_v2.py:250-255 | a TIMEOUT is the last status and nothing is published |
| FleetV2.PrOpenedOnlyWhenPublished | src/core/fleet_v2.py:338-365 | PR_OPENED is written exactly when a publish returned a non-empty PR URL and there was no deploy URL |
| FleetV2.PublishedMissionEnds | src/core/fleet_v2.py:338-365 | with the corrected publish call, a published mission ends PR_OPENED without a deploy URL and DEPLOYED with one |
| FleetV2.HealRefusalFails | src/core/fleet_v2.py:243-248 | a heal the architect rejects (an ArchitectError) ends the loop FAILED after BUILDING, HEALING and one build |
| FleetV2.PublishAsWritten | src/core/fleet_v2.py:322-324 | the call as written never publishes |
| FleetV2.AsWrittenPublishAborts | src/core/fleet_v2.py:320-324 | as written, PR_OPENED is never reached and every attempted publish ends CRITICAL_FAILURE |
| Architect.FirstTargetFrom | src/core/architect.py:312-316 | the first keyword group, from a position on, whose keywords occur in the prompt |
| Architect.DetectDesignTarget | src/core/architect.py:289-316 | a target is found exactly when some keyword occurs in the lower-cased prompt, and it is the first such target in table order |
| Architect.ThemePrompt | src/core/architect.py:239-286 | empty exactly when the upper-cased target has no theme, else it starts with the clone header of that theme |
| Architect.DetectedTargetsHaveThemes | src/core/architect.py:289-316 | every detectable target has a theme, so a detected target always extends the prompt |
| Architect.ThemeLookupIgnoresCase | src/core/architect.py:249 | the theme lookup gives the same text for any casing of the target |
| Architect.DropKeepsContent | src/core/architect.py:650-652 | removing trailing commas changes nothing but commas and whitespace |
| Architect.DropUnchanged | src/core/architect.py:650-652 | text without a trailing comma is left as it is |
| Architect.EscapeChar | src/core/architect.py:665-682 | a raw newline, carriage return or tab inside a string becomes a two-character escape; every other character is copied |
| Architect.EscapeIdempotent | src/core/architect.py:661-684 | escaping twice gives the same text as escaping once |
| Architect.EscapeUnchangedIff | src/core/architect.py:661-684 | escaping leaves text unchanged exactly when it has no raw control character inside a string |
| Architect.EscapedIsRawControlFree | src/core/architect.py:661-684 | escaped text has no raw control character inside a string |
| Architect.Candidate | src/core/architect.py:642-648 | no candidate exactly when a brace is missing or the first `{` is not before the last `}`; else the text from the first `{` to the last `}` |
| Architect.CleanJson | src/core/architect.py:634-684 | an error exactly in the no-candidate case; otherwise the repaired candidate when it parses, and the escaped text when it does not |
| Architect.PlainJsonUnchanged | src/core/architect.py:634-657 | a bare JSON object that parses and has no trailing comma is returned unchanged |
| Architect.SearchAround | src/core/architect.py:642-643 | `find` and `rfind` through text without the character on either side land in the middle part |
| Architect.CandidateAround | src/core/architect.py:642-648 | text without braces around the object does not change the extracted candidate |
| Architect.FencedJsonIsBare | src/core/architect.py:641-648 | text around the object that has no braces (a markdown fence, commentary) does not change the result |
| Architect.SetupDraft | src/core/architect.py:702-714 | a given target wins over detection, and the system prompt is the base prompt extended only when there is a target |
| Architect.DetectedThemeExtendsPrompt | src/core/architect.py:710-714 | a detected target always makes the system prompt longer |
| Architect.ReadReply | src/core/architect.py:732-767 | a request error, a non-200 status, a missing content block, text without a JSON object, JSON that does not parse and a manifest that does not validate each give their own error; a 200 reply whose object parses is the validated manifest exactly when it validates |
| Architect.DraftBlueprint | src/core/architect.py:686-767 | a drafted manifest is valid and was produced by the call with the prepared system prompt; a failed call is a request error with its reason |
| Architect.HealSeesOnlyLogHead | src/core/architect.py:789-801 | the heal request depends only on the first 2000 characters of the error log |
| Architect.ShortLogKept | src/core/architect.py:798 | a log of at most 2000 characters reaches the heal request whole |
| Architect.HealRequest | src/core/architect.py:789-801 | the heal request's length is bounded by the manifest and 2000 characters of log |
| Architect.HealBlueprint | src/core/architect.py:769-855 | a healed manifest is valid and was produced by the heal call on that request; a failed call is a request error with its reason |
| Consultant.LatestUserMessage | src/core/consultant.py:162-167 | the content of the last user message, or "" when there is none |
| Consultant.FirstTargetIndex | src/core/consultant.py:201-206 | the first message, in order, whose content names a design target |
| Consultant.FirstTarget | src/core/consultant.py:310-325 | none exactly when no message names a target, else the target of the first that does |
| Consultant.CleanJson | src/core/consultant.py:136-148 | an error exactly when a brace is missing; a last `}` before the first `{` gives the empty string |
| Consultant.CleanJsonAgrees | src/core/consultant.py:136-148 | when the architect's version finds a candidate that parses after repair, both versions agree |
| Consultant.CleanJsonDisagrees | src/core/consultant.py:141-142 | on "}{" the consultant returns an empty string where the architect raises |
| Consultant.NeedsInput | src/core/consultant.py:267-282 | the fallback answers ask for input with zero confidence |
| Consultant.FromFields | src/core/consultant.py:36-49 | pydantic builds the response exactly when no required key is null and no value is ill-typed (a falsy ill-typed target that the detected one replaces excepted), and raises ValidationError otherwise; absent keys take their defaults, the model's truthy design target wins, and the detected one fills in a falsy one |
| Consultant.Analyze | src/core/consultant.py:150-282 | a confirmation in a longer conversation is READY_TO_BUILD with next.js and full confidence without calling the model; otherwise a failed request or a 200 body that is not JSON answers "Connection failed", a non-200 status asks for input with zero confidence, a missing key or an unreadable cleaned reply answers "I couldn't understand", and the call raises exactly when the reply has no content, has no JSON object, or has keys pydantic refuses |
| Consultant.AnswerReply | src/core/consultant.py:237-282 | the same verdicts for one reply: non-200 is a connection issue, a non-JSON body is a connection failure, a missing key or unreadable JSON is a rephrase request, loaded keys give the response pydantic builds from them, and an empty content list, a text without braces or a refused key raises |
| Consultant.ConfirmationSkipsModel | src/core/consultant.py:197-216 | a confirmed conversation gets the same answer whatever the model would say |
| Consultant.ConfirmationTargetIsFirst | src/core/consultant.py:200-216 | a confirmed build carries the first target named anywhere in the conversation |
| Consultant.ModelTargetWins | src/core/consultant.py:246-265 | a parsed reply is answered exactly when pydantic validates its keys, and otherwise raises ValidationError; its own truthy target is kept, else the target detected in the latest user message is used |
| Consultant.PromptMessages | src/core/consultant.py:296-306 | the user messages kept for the build prompt, none of them a bare confirmation |
| Consultant.BuildPromptGrows | src/core/consultant.py:284-308 | adding a non-confirmation user message appends it after a space; any other message leaves the prompt unchanged |
| Auth.DefaultLimiter | src/core/auth.py:69-98 | a new limiter has a 60 second window and no clients |
| Auth.Prune | src/core/auth.py:113 | only timestamps after the cut-off are kept |
| Auth.PruneKeepsRecent | src/core/auth.py:113 | a timestamp survives pruning exactly when it was recorded after the cut-off |
| Auth.IsAllowed | src/core/auth.py:100-125 | a blocked client is refused and unchanged; at capacity it is refused and blocked for a window; otherwise the request is recorded and the remaining count returned; other clients are untouched |
| Auth.IsAllowedKeepsBound | src/core/auth.py:113-125 | no client ever holds more than `max_requests` timestamps |
| Auth.BlockLastsAWindow | src/core/auth.py:109-120 | once blocked, every request within the next window is refused and changes nothing |
| Auth.BurstFrom | src/core/auth.py:100-125 | a burst at one instant is allowed exactly while the used count stays below the maximum |
| Auth.NewClientBurst | src/core/auth.py:100-125 | a new client's first `max_requests` requests at one instant are allowed and the rest refused |
| Auth.BurstBlocked | src/core/auth.py:109-110 | a blocked client is refused for the whole burst |
| Auth.CheckGuardrails | src/core/auth.py:252-313 | the message is rejected as too short, short of context, invalid or without build intent, each exactly in its own case and in that order, and passes otherwise |
| Auth.EarlyRejectionIgnoresPatterns | src/core/auth.py:257-277 | a message rejected for length or word count never reaches the pattern search |
| Auth.LeadingSpaceIgnored | src/core/auth.py:258 | leading whitespace does not change the verdict |
| Auth.StoredHash | src/core/auth.py:31-63 | a 64-character hex hash is used as it is; otherwise the hash of the plain password, of the invalid hash text, or of "password", in that order |
| Auth.PlainPasswordIsTheOne | src/core/auth.py:47-53 | assuming SHA-256 has no collision, with a plain password configured exactly that password verifies |
| Auth.DefaultPasswordIsPassword | src/core/auth.py:61-63 | assuming SHA-256 has no collision, with nothing configured exactly "password" verifies |
| Skills.EmptyValid | src/skills/__init__.py:50-51 | the empty registry is well formed |
| Skills.Register | src/skills/__init__.py:53-56 | registering keeps the registry well formed, maps the name to the skill, and appends a new name or keeps a known name's place |
| Skills.Get | src/skills/__init__.py:58-60 | returns a skill exactly when the name is registered |
| Skills.GetAfterRegister | src/skills/__init__.py:53-60 | after registering, the name returns that skill and every other name is unaffected |
| Skills.ReRegisterReplaces | src/skills/__init__.py:53-64 | re-registering a name keeps the later skill and lists the name once, in its first place |
| Skills.LoadSkill | src/skills/__init__.py:72-94 | loading one folder keeps the registry well formed |
| Skills.LoadAll | src/skills/__init__.py:66-70 | scanning all folders keeps the registry well formed |
| Skills.LoadAllNames | src/skills/__init__.py:66-94 | after the scan a name is registered exactly when it was before or some non-underscore folder's handler exports a skill of that name |
| Api.Connect | src/main_fastapi.py:70-75 | the socket is appended to the mission's list, which is created when absent; other missions are untouched |
| Api.RemoveFirst | src/main_fastapi.py:79-80 | removes one occurrence of the socket, or nothing when it is absent |
| Api.FirstIndex | src/main_fastapi.py:79-80 | the position of the socket with no earlier occurrence before it |
| Api.RemoveFirstDropsFirst | src/main_fastapi.py:79-80 | removal takes out exactly the first occurrence and keeps every other socket in its order |
| Api.Disconnect | src/main_fastapi.py:77-82 | removes the socket and drops the mission once its list is empty; other missions are untouched |
| Api.SubscribersStayNonEmpty | src/main_fastapi.py:70-82 | no mission is ever left with an empty subscriber list |
| Api.DisconnectUndoesConnect | src/main_fastapi.py:70-82 | disconnecting a socket right after connecting it restores the table |
| Api.FailureDoesNotStopOthers | src/main_fastapi.py:87-91 | every socket whose send succeeds is delivered to, whatever failed before it |
| Api.BroadcastTo | src/main_fastapi.py:84-91 | a broadcast tries exactly the mission's sockets and delivers to exactly those whose send succeeds |
| Api.FirstFinished | src/main_fastapi.py:321-324 | the first of the 40 polls that finds a finished status |
| Api.WaitFor | src/main_fastapi.py:315-335 | the reply carries the status and speech of the first finished read, after that many polls; "queued" with the control speech only when none of the 40 polls was finished |
| Api.WaitAnswersFirstFinished | src/main_fastapi.py:321-329 | whenever the k-th read is the first finished one, the reply is that mission's status and speech after k + 1 polls |
| Api.QueuedResponse | src/main_fastapi.py:331-335 | the immediate answer is "queued" with "Copy. Gantry assumes control." |
| Api.ArchitectEndpoint | src/main_fastapi.py:297-335 | a blank voice memo is a 400 and nothing is dispatched; otherwise the mission is dispatched with the request's prompt, deploy and publish flags, and the reply is "queued" at once, or comes after the wait loop |
| Api.ReadBuildRequest | src/main_fastapi.py:179-182 | deploy and publish are true unless the body sets them to false |
| Api.WaitRecognisesTerminal | src/main_fastapi.py:317-320 | the wait loop stops at every terminal status except PUBLISH_FAILED |
| Api.Preview | src/main_fastapi.py:379 | a prompt of up to 50 characters is shown whole; a longer one as its first 50 characters and "..." |
| Api.PreviewBounded | src/main_fastapi.py:379 | a preview is at most 53 characters and starts like the prompt |
| GantryCli.DetectStack | gantry.py:159-163 | Rust exactly when "rust" occurs; else Node exactly when "node" or "react" occurs; else Python |
| GantryCli.SelectImage | gantry.py:92-97 | python:3.11-slim exactly when the stack mentions python, else node:20-alpine exactly when it mentions node, else ubuntu:latest |
| GantryCli.BuildCommands | gantry.py:119-123 | two version commands for Python and for Node, and none exactly when the fallback image is used |
| GantryCli.DetectedStackImage | gantry.py:92-163 | a detected Python or Node stack gets its own image and two commands; Rust gets Ubuntu and no command |
| GantryCli.RunCommands | gantry.py:125-132 | the commands run are a prefix of the list; a failure is the last command run, and every earlier one exited 0 with output that decoded |
| GantryCli.StopsAtFirstFailure | gantry.py:125-132 | a run stops at exactly the first command that does not pass |
| GantryCli.OkSteps | gantry.py:125-132 | each successful command reports an exec step and an ok step |
| GantryCli.FactoryPipeline | gantry.py:85-143 | the pipeline completes exactly when the image lookup answers, the image is present or pulls, the container starts, every command exits 0 with output that decodes and the container stops; a lookup that raises anything but ImageNotFound ends it right after INIT with that error, and a failed pull or start raises its own error before any command runs; once the sandbox is up, the first command that does not pass ends it with the exec error, the decode error, the stop error or "Build Failed: <cmd>", in that order of precedence, and a stop error after the last command ends it after the verify step |
| GantryCli.InSandbox | gantry.py:119-143 | after the sandbox is up the pipeline completes exactly when every command passes and the container stops, and a failing command ends it before the verify step with that command's error |
| GantryCli.HandleRequest | gantry.py:146-190 | a body `request.json` cannot read is a 500 with its error; a null or empty JSON body is a 400; otherwise "deployed" with the project and detected stack, or a 500 carrying the text of whatever the pipeline raised |
| GantryCli.RustDeploysUnlessDockerFails | gantry.py:99-190 | a request read as Rust deploys exactly when Docker provides the sandbox and stops it, because its pipeline runs no command that could fail |

## Left out

- Docker, git, the GitHub API, Vercel and the model endpoint are not called. Each appears as a parameter that gives its outcome. In the foundry every Docker call that can raise is a crash point of the build (`Foundry.CrashPoint`); the forced removals whose errors are swallowed share one flag.
- Regex search is a parameter (`matches`, `search`) wherever the pattern is not a fixed literal. So are `json.loads`, pydantic parsing of model replies, and SHA-256 with its hex test.
- Case mapping is ASCII-only. Python's Unicode-aware `lower`/`upper` on other scripts is not modelled. `Text.Strip` uses Python's `str.isspace` set, including the separators U+001C to U+001F.
- Manifest.Validate strips with Python's whitespace set. Pydantic's `str_strip_whitespace` trims Unicode White_Space instead, which leaves out U+001C to U+001F, so a name or command that begins or ends with one of those separators is stripped by the model but kept by pydantic.
- Time is an integer parameter for the rate limiter's clock. The foundry's duration is not modelled: BUILD_COMPLETE is logged without its duration text and the result has no `duration_seconds`. Log and verdict timestamps are not modelled either. The dead man's switch timer thread is read as the first checkpoint at which the timeout flag is set.
- Threads, asyncio and WebSocket accept/receive loops are not modelled. The mission runner is a sequential function; `asyncio.sleep` in the wait loop is a poll index.
- Foundry.Build reads the dead man's switch only at the three checkpoints. A switch that fires after the last one (during the audit, say) is seen only through what it breaks: the audit's exit code (137 for a killed process) or a crash at the next Docker call, both inputs of the model.
- Evidence.SaveManifest logs MANIFEST_SAVED with the file name `manifest.json`, where the source logs the full path of the file in the mission folder. The folder's location on disk is not modelled.
- Foundry.Build does not model the retry after a container-name conflict or the tar creation. These only change which Docker calls are made. The design-image injection is reduced to its DESIGN_IMAGE_INJECTED log entry for an image found in the folder; packing and copying the image are not modelled.
- Publisher.PublishMission does not model writing the publish folder or the `.gitignore`. They are filesystem writes with no effect on the outcome.
- Architect.ThemePrompt does not reproduce the full theme and system-prompt texts. Only the header that identifies the theme is modelled.
- Auth.CheckGuardrails does not model the suggestion texts, only the reasons.
- Consultant.Analyze follows requests 2.27 or later, where `response.json()` on a body that is not JSON raises an error that is also a `RequestException`; the first handler catches it and the answer is "Connection failed". Older requests raise the standard `json.JSONDecodeError`, which would answer "I couldn't understand" instead.
- Consultant.FromFields does not model pydantic's coercion rules. Each key's value is given as either accepted, with the value pydantic makes of it, or rejected, with only its Python truthiness kept. The ValidationError's message is not modelled.
- The consultant's `consult` call on the architect, and the architect's `consult`, are not modelled: they only forward a conversation to the model.
- FleetV1.DispatchMission takes the fresh mission id as a parameter: uuid generation is not modelled.
- GitClient.Run turns a `subprocess.SubprocessError` into `SubprocessFailed`. An `OSError` from `subprocess.run` (git not installed, a missing working directory) is not a `SubprocessError`; it escapes the wrapper and is not modelled.
- The database layer (`src/core/db.py`) is not part of this model. The status store is the trace of updates.
- `src/core/auth_v2.py`, imported by the FastAPI app for its rate limits and token checks, is not part of this model. The limiter modelled is the one in `src/core/auth.py`.
- Session handling and decorators (`is_authenticated`, `authenticate_session`, `require_auth`, `require_rate_limit`, `require_guardrails`) and `get_client_id` depend on Flask request state and are not modelled.
- The `/gantry/chat`, `/gantry/status`, `/gantry/latest`, `/gantry/auth` and WebSocket endpoints are not modelled beyond the connection table, the build endpoint and the mission-list preview. The others only read or forward stored data.
- Skill `execute` and the dynamic import of `handler.py` are not modelled. Each folder's import is an abstract outcome.
- GantryCli.HandleRequest assumes every text the route renders through rich markup parses: the `status.update`, `console.log` and tree texts built from the project name and the reported steps (gantry.py:170-176). A project name such as `Foo[/x]` has a closing tag with no open tag. Rich raises MarkupError on the first step, before Docker is called, and the route answers 500 where the model answers "deployed". If the error's own text then breaks the handler's console print (gantry.py:188), Flask's default 500 page replaces the JSON reply.
- GantryCli.RustDeploysUnlessDockerFails inherits that assumption: with a project name that is not valid markup, the 200 it promises is a 500.
- GantryCli.HandleRequest does not model the Docker auto-wake in `get_docker_client` or the `sys.exit` when Docker stays down.
- GantryCli.HandleRequest takes what `request.json` gives as its input. With Flask 2.1 or later, a body not sent as JSON or not valid JSON makes `request.json` raise, and the route's handler turns that into a 500 (`Unreadable`). With older Flask, a body not sent as JSON reads as None, which is a 400.
- GantryCli.HandleRequest reads the JSON body as a map from strings to strings. A body that is a JSON array or scalar, or a `text` that is not a string, makes `.get` or `.lower()` raise AttributeError, which the route turns into a 500; this is not modelled.

## Findings

| source | as written | input that shows it | evidently intended | confidence | as-written member | corrected member |
|---|---|---|---|---|---|---|
| src/core/fleet_v2.py:322-324 | `publish_mission(manifest, path, mission_id=mission_id)`, but `Publisher.publish_mission` takes no `mission_id` parameter, so the call raises TypeError. That error is not caught by the `(SecurityBlock, PublishError)` handler, so `_run_mission` records CRITICAL_FAILURE | any mission whose build passes with publishing on and the publisher configured | publish the manifest and end PR_OPENED or DEPLOYED | not executed | FleetV2.AsWrittenPublishAborts | FleetV2.PublishedMissionEnds |
| src/core/foundry.py:329-337, 533-537 | the timeout handler logs, saves the audit failure and finalizes, but never removes the container. Only the dead man's switch removes it, and only when `container` was already set as the switch fired | a pull or a spawn that outlasts the 180-second limit: the switch fires while `container` is still None, `containers.run` then creates the pod, the first checkpoint raises BuildTimeoutError, and the pod is left running | a timed-out build removes the container it created, like the generic error handler does | medium, not executed | Foundry.TimeoutBeforeSpawnLeaks | Foundry.Build |

=== FILE: api.dfy ===
/**
 * The web front end's own logic: the WebSocket subscriber table kept per
 * mission, the input check and optional wait loop of the build endpoint,
 * and the prompt preview of the mission list. Sockets are opaque numbers;
 * sending, sleeping and reading the status store are parameters.
 */
module Api {
  import opened Wrappers
  import opened Text
  import opened Mission

  // ---------------------------------------------------------------------
  // Subscribers

  type Socket = nat

  /** `ConnectionManager.active_connections`: mission id to its sockets, in connection order. */
  type Connections = map<string, seq<Socket>>

  /** No mission is mapped to an empty list. */
  predicate NoEmptyLists(conns: Connections) {
    forall id | id in conns :: conns[id] != []
  }

  /** `connect`: the socket is appended to the mission's list, which is created when absent. */
  function Connect(conns: Connections, w: Socket, id: string): (r: Connections)
    ensures r.Keys == conns.Keys + {id}
    ensures r[id] == (if id in conns then conns[id] else []) + [w]
    ensures forall other | other in conns && other != id :: r[other] == conns[other]
  {
    conns[id := (if id in conns then conns[id] else []) + [w]]
  }

  /** The position of the first occurrence of `x` in `s`. */
  function FirstIndex(s: seq<Socket>, x: Socket): (i: nat)
    requires x in s
    ensures i < |s| && s[i] == x && x !in s[..i]
  {
    if s[0] == x then 0
    else
      var j := FirstIndex(s[1..], x);
      assert s[..j + 1] == [s[0]] + s[1..][..j];
      j + 1
  }

  /** `list.remove(x)`: drops the first occurrence of `x`, or leaves the list alone when it has none. */
  function RemoveFirst(s: seq<Socket>, x: Socket): (r: seq<Socket>)
    ensures x !in s ==> r == s
    ensures multiset(r) == multiset(s) - multiset{x}
  {
    if s == [] then []
    else
      assert s == [s[0]] + s[1..];
      if s[0] == x then s[1..] else [s[0]] + RemoveFirst(s[1..], x)
  }

  /** Removal takes out exactly the first occurrence and keeps every other socket in its order. */
  lemma {:induction false} RemoveFirstDropsFirst(s: seq<Socket>, x: Socket)
    requires x in s
    ensures RemoveFirst(s, x) == s[..FirstIndex(s, x)] + s[FirstIndex(s, x) + 1..]
  {
    if s[0] == x {
      assert s[..0] == [];
    } else {
      RemoveFirstDropsFirst(s[1..], x);
      TailIndexShifts(s, x);
    }
  }

  /** The first occurrence of `x` after a different head sits one place further on. */
  lemma TailIndexShifts(s: seq<Socket>, x: Socket)
    requires s != [] && s[0] != x && x in s[1..]
    ensures FirstIndex(s, x) == FirstIndex(s[1..], x) + 1
    ensures s[..FirstIndex(s, x)] + s[FirstIndex(s, x) + 1..]
            == [s[0]] + (s[1..][..FirstIndex(s[1..], x)] + s[1..][FirstIndex(s[1..], x) + 1..])
  {
    var j := FirstIndex(s[1..], x);
    assert s[..j + 1] == [s[0]] + s[1..][..j];
    assert s[j + 2..] == s[1..][j + 1..];
  }

  /** Removing a socket that was appended to a list without it gives back the list. */
  lemma {:induction false} RemoveAppended(s: seq<Socket>, x: Socket)
    requires x !in s
    ensures RemoveFirst(s + [x], x) == s
  {
    if s == [] {
      assert [] + [x] == [x];
      assert [x][1..] == [];
    } else {
      assert (s + [x])[0] == s[0];
      assert (s + [x])[1..] == s[1..] + [x];
      RemoveAppended(s[1..], x);
      assert [s[0]] + s[1..] == s;
    }
  }

  /** `disconnect`: removes the socket if present and drops the mission once its list is empty. */
  function Disconnect(conns: Connections, w: Socket, id: string): (r: Connections)
    ensures id !in conns ==> r == conns
    ensures forall other | other in conns && other != id :: other in r && r[other] == conns[other]
    ensures r.Keys <= conns.Keys
    ensures id in r <==> id in conns && RemoveFirst(conns[id], w) != []
    ensures id in r ==> r[id] == RemoveFirst(conns[id], w)
  {
    if id !in conns then conns
    else
      var rest := RemoveFirst(conns[id], w);
      if rest == [] then conns - {id} else conns[id := rest]
  }

  /** Neither operation ever leaves a mission mapped to an empty list. */
  lemma {:induction false} SubscribersStayNonEmpty(conns: Connections, w: Socket, id: string)
    requires NoEmptyLists(conns)
    ensures NoEmptyLists(Connect(conns, w, id))
    ensures NoEmptyLists(Disconnect(conns, w, id))
  {
  }

  /** Disconnecting a socket right after connecting it, when it was not already subscribed, restores the table. */
  lemma {:induction false} DisconnectUndoesConnect(conns: Connections, w: Socket, id: string)
    requires NoEmptyLists(conns)
    requires id in conns ==> w !in conns[id]
    ensures Disconnect(Connect(conns, w, id), w, id) == conns
  {
    if id in conns {
      UndoOnKnownMission(conns, w, id);
    } else {
      UndoOnNewMission(conns, w, id);
    }
  }

  /** The known-mission case: the socket comes off the end of a list that stays non-empty. */
  lemma {:induction false} UndoOnKnownMission(conns: Connections, w: Socket, id: string)
    requires id in conns && conns[id] != [] && w !in conns[id]
    ensures Disconnect(Connect(conns, w, id), w, id) == conns
  {
    var c1 := conns[id := conns[id] + [w]];
    assert Connect(conns, w, id) == c1;
    assert RemoveFirst(c1[id], w) == conns[id] by {
      RemoveAppended(conns[id], w);
    }
    assert c1[id := conns[id]] == conns;
  }

  /** The new-mission case: the list created for the socket is dropped again. */
  lemma {:induction false} UndoOnNewMission(conns: Connections, w: Socket, id: string)
    requires id !in conns
    ensures Disconnect(Connect(conns, w, id), w, id) == conns
  {
    var c1 := conns[id := [w]];
    assert [] + [w] == [w];
    assert Connect(conns, w, id) == c1;
    assert RemoveFirst([w], w) == [];
    assert c1 - {id} == conns;
  }

  /** What a broadcast did: the sockets it tried, in order, and those whose send succeeded. */
  datatype Broadcast = Broadcast(attempted: seq<Socket>, delivered: seq<Socket>)

  /** The sockets, in order, on which `send` succeeds. */
  function Delivered(sockets: seq<Socket>, send: Socket -> bool): (r: seq<Socket>)
    ensures |r| <= |sockets|
    ensures forall k | 0 <= k < |r| :: r[k] in sockets && send(r[k])
  {
    if sockets == [] then []
    else (if send(sockets[0]) then [sockets[0]] else []) + Delivered(sockets[1..], send)
  }

  /** Every socket of the list whose send succeeds is delivered to, whatever failed before it. */
  lemma {:induction false} FailureDoesNotStopOthers(sockets: seq<Socket>, send: Socket -> bool, w: Socket)
    ensures w in Delivered(sockets, send) <==> w in sockets && send(w)
  {
    if sockets != [] {
      FailureDoesNotStopOthers(sockets[1..], send, w);
      assert sockets == [sockets[0]] + sockets[1..];
    }
  }

  /**
   * `broadcast(mission_id, message)`: every socket subscribed to that
   * mission is tried, a failing send is ignored, and the table is not
   * changed (the source never removes a failed socket here).
   */
  function BroadcastTo(conns: Connections, id: string, send: Socket -> bool): (b: Broadcast)
    ensures b.attempted == (if id in conns then conns[id] else [])
    ensures forall w :: w in b.delivered <==> w in b.attempted && send(w)
  {
    var sockets := if id in conns then conns[id] else [];
    assert forall w :: w in Delivered(sockets, send) <==> w in sockets && send(w) by {
      forall w ensures w in Delivered(sockets, send) <==> w in sockets && send(w) {
        FailureDoesNotStopOthers(sockets, send, w);
      }
    }
    Broadcast(sockets, Delivered(sockets, send))
  }

  // ---------------------------------------------------------------------
  // The build endpoint

  const MaxPolls := 40

  /** The statuses the wait loop recognises as finished. */
  const WaitTerminal: seq<string> := ["SUCCESS", "DEPLOYED", "PR_OPENED", "FAILED", "BLOCKED", "TIMEOUT", "CRITICAL_FAILURE"]

  /** A mission row as the wait loop reads it. */
  datatype MissionView = MissionView(status: string, speech: Option<string>)

  /** The endpoint's answer: a status, the mission id and the speech text. */
  datatype BuildResponse = BuildResponse(status: string, missionId: string, speech: string)

  /** The body of a build request. */
  datatype BuildRequest = BuildRequest(voiceMemo: string, deploy: bool, publish: bool)

  /** Reading the body: `deploy` and `publish` default to true when absent. */
  function ReadBuildRequest(voiceMemo: string, deploy: Option<bool>, publish: Option<bool>): (r: BuildRequest)
    ensures r.voiceMemo == voiceMemo
    ensures r.deploy <==> deploy != Some(false)
    ensures r.publish <==> publish != Some(false)
  {
    BuildRequest(voiceMemo, deploy.None? || deploy.value, publish.None? || publish.value)
  }

  /** The endpoint's outcome: an HTTP error before dispatch, or the mission
      dispatched with its prompt and flags, and the reply. */
  datatype Outcome =
    | HttpError(code: int, detail: string)
    | Dispatched(prompt: string, deploy: bool, publish: bool, response: BuildResponse, polls: nat)

  /** The k-th read found the mission with a status the loop recognises as finished. */
  predicate Finished(v: Option<MissionView>) {
    v.Some? && v.value.status in WaitTerminal
  }

  /** The poll at which the loop stops: the first of the 40 whose mission has a finished status. */
  function FirstFinished(poll: nat -> Option<MissionView>, k: nat): (r: Option<nat>)
    requires k <= MaxPolls
    ensures r.Some? ==> k <= r.value < MaxPolls && Finished(poll(r.value))
    ensures forall j | k <= j < (if r.Some? then r.value else MaxPolls) :: !Finished(poll(j))
    decreases MaxPolls - k
  {
    if k == MaxPolls then None
    else if Finished(poll(k)) then Some(k)
    else FirstFinished(poll, k + 1)
  }

  /**
   * The optional wait: up to 40 reads of the store (`poll(k)` is what the
   * k-th read returns). The reply carries the status of the first finished
   * read, and polling stops there; when none of the 40 reads is finished, it
   * says "queued" after all 40. The speech is the mission's own, or
   * "Mission <status>." when it has none.
   */
  function WaitFor(poll: nat -> Option<MissionView>, missionId: string): (r: (BuildResponse, nat))
    ensures r.0.missionId == missionId && r.1 <= MaxPolls
    // a reply other than "queued" is the first finished read's status and speech
    ensures r.0.status != "queued" ==>
              && 1 <= r.1
              && Finished(poll(r.1 - 1)) && poll(r.1 - 1).value.status == r.0.status
              && r.0.speech == Speech(poll(r.1 - 1).value)
              && forall j | 0 <= j < r.1 - 1 :: !Finished(poll(j))
    ensures r.0.status == "queued" ==>
              && r.1 == MaxPolls && r.0.speech == QueuedSpeech
              && forall j | 0 <= j < MaxPolls :: !Finished(poll(j))
  {
    var f := FirstFinished(poll, 0);
    if f.None? then
      (QueuedResponse(missionId), MaxPolls)
    else
      var m := poll(f.value).value;
      QueuedIsNotFinished(m.status);
      (BuildResponse(m.status, missionId, Speech(m)), f.value + 1)
  }

  const QueuedSpeech := "Copy. Gantry assumes control."

  /** The immediate answer: the mission is queued. */
  function QueuedResponse(missionId: string): (r: BuildResponse)
    ensures r.status == "queued" && r.missionId == missionId && r.speech == QueuedSpeech
  {
    BuildResponse("queued", missionId, QueuedSpeech)
  }

  /** The mission's own speech, or "Mission <status>." when it has none. */
  function Speech(m: MissionView): string {
    if IsSet(m.speech) then m.speech.value else "Mission " + Lower(m.status) + "."
  }

  /** Whenever the k-th read is the first finished one, the wait answers with
      that mission's status and speech after k + 1 reads; when no read is
      finished it answers "queued". */
  lemma {:induction false} WaitAnswersFirstFinished(poll: nat -> Option<MissionView>, missionId: string, k: nat)
    requires k < MaxPolls && Finished(poll(k))
    requires forall j | 0 <= j < k :: !Finished(poll(j))
    ensures WaitFor(poll, missionId) ==
              (BuildResponse(poll(k).value.status, missionId, Speech(poll(k).value)), k + 1)
  {
    var r := WaitFor(poll, missionId);
    QueuedIsNotFinished(poll(k).value.status);
    assert r.0.status != "queued";
  }

  /** "queued" is not a status the wait loop stops at. */
  lemma {:induction false} QueuedIsNotFinished(status: string)
    requires status in WaitTerminal
    ensures status != "queued"
  {
  }

  /**
   * `POST /gantry/architect`: a blank voice memo is a 400 and nothing is
   * dispatched; otherwise the mission is dispatched under `missionId` with
   * the request's prompt, `deploy` and `publish`, and answered at once with
   * "queued", or, with `wait`, after the wait loop.
   */
  function ArchitectEndpoint(req: BuildRequest, wait: bool, missionId: string,
                             poll: nat -> Option<MissionView>): (o: Outcome)
    ensures o.HttpError? <==> Strip(req.voiceMemo) == ""
    ensures o.HttpError? ==> o.code == 400
    ensures o.Dispatched? ==>
              && o.prompt == req.voiceMemo && o.deploy == req.deploy && o.publish == req.publish
              && o.response.missionId == missionId && o.polls <= MaxPolls
    ensures o.Dispatched? && !wait ==> o.polls == 0 && o.response == QueuedResponse(missionId)
    ensures o.Dispatched? && wait ==> (o.response, o.polls) == WaitFor(poll, missionId)
  {
    if Strip(req.voiceMemo) == "" then HttpError(400, "voice_memo is required")
    else if !wait then
      Dispatched(req.voiceMemo, req.deploy, req.publish, QueuedResponse(missionId), 0)
    else
      var (response, polls) := WaitFor(poll, missionId);
      Dispatched(req.voiceMemo, req.deploy, req.publish, response, polls)
  }

  /**
   * The wait loop treats every terminal mission status as finished except
   * PUBLISH_FAILED, which only the first-generation orchestrator writes.
   */
  lemma {:induction false} WaitRecognisesTerminal(s: Status)
    ensures Name(s) in WaitTerminal <==> IsTerminal(s) && s != PublishFailed
  {
  }

  // ---------------------------------------------------------------------
  // Mission list

  const PreviewLength := 50

  /** The mission list's prompt preview: the first 50 characters and "..." when longer, else the prompt. */
  function Preview(prompt: string): (r: string)
    ensures |prompt| <= PreviewLength ==> r == prompt
    ensures |prompt| > PreviewLength ==>
              |r| == PreviewLength + 3 && r[..PreviewLength] == prompt[..PreviewLength] && r[PreviewLength..] == "..."
  {
    if |prompt| > PreviewLength then prompt[..PreviewLength] + "..." else prompt
  }

  /** A preview is never longer than 53 characters and always starts like the prompt. */
  lemma {:induction false} PreviewBounded(prompt: string)
    ensures |Preview(prompt)| <= PreviewLength + 3
    ensures StartsWith(Preview(prompt), Prefix(prompt, PreviewLength))
  {
  }
}

=== FILE: architect.dfy ===
/**
 * The architect's text logic: which famous app a prompt asks to clone, the
 * theme text that request adds to the system prompt, the extraction and
 * repair of the JSON object in a model reply, and the draft and heal
 * requests built around them. The model endpoint and `json.loads` are
 * parameters.
 */
module Architect {
  import opened Wrappers
  import opened Text
  import Manifest

  // ---------------------------------------------------------------------
  // Design targets

  /** The clone targets and their detection keywords, in the order they are tried. */
  const KeywordMap: seq<(string, seq<string>)> := [
    ("LINKEDIN", ["linkedin", "professional network", "job network"]),
    ("TWITTER", ["twitter", "x.com", "tweet", "microblog"]),
    ("INSTAGRAM", ["instagram", "insta", "photo sharing"]),
    ("FACEBOOK", ["facebook", "fb", "social network"]),
    ("SLACK", ["slack", "team chat", "workspace chat"]),
    ("SPOTIFY", ["spotify", "music streaming", "music player"]),
    ("NOTION", ["notion", "note taking", "workspace"]),
    ("AIRBNB", ["airbnb", "vacation rental", "booking"])
  ]

  /** The themes the clone protocol knows: key to display name. */
  const Themes: map<string, string> := map[
    "LINKEDIN" := "LinkedIn",
    "TWITTER" := "Twitter/X",
    "INSTAGRAM" := "Instagram",
    "FACEBOOK" := "Facebook",
    "SLACK" := "Slack",
    "SPOTIFY" := "Spotify",
    "NOTION" := "Notion",
    "AIRBNB" := "Airbnb"
  ]

  /** The first entry of the keyword map, from `k` on, with a keyword in `lowered`. */
  function FirstTargetFrom(lowered: string, k: nat): (r: Option<nat>)
    requires k <= |KeywordMap|
    ensures r.Some? ==> k <= r.value < |KeywordMap| && ContainsAny(lowered, KeywordMap[r.value].1)
    ensures forall j | k <= j < (if r.Some? then r.value else |KeywordMap|) ::
              !ContainsAny(lowered, KeywordMap[j].1)
    decreases |KeywordMap| - k
  {
    if k == |KeywordMap| then None
    else if ContainsAny(lowered, KeywordMap[k].1) then Some(k)
    else FirstTargetFrom(lowered, k + 1)
  }

  /**
   * `detect_design_target`: the first target, in map order, one of whose
   * keywords occurs in the lower-cased prompt, or None.
   */
  function DetectDesignTarget(prompt: string): (r: Option<string>)
    ensures r.Some? <==> exists k | 0 <= k < |KeywordMap| :: ContainsAny(Lower(prompt), KeywordMap[k].1)
    ensures r.Some? ==>
              exists k | 0 <= k < |KeywordMap| ::
                && r.value == KeywordMap[k].0
                && ContainsAny(Lower(prompt), KeywordMap[k].1)
                && forall j | 0 <= j < k :: !ContainsAny(Lower(prompt), KeywordMap[j].1)
  {
    match FirstTargetFrom(Lower(prompt), 0)
    case None => None
    case Some(k) => Some(KeywordMap[k].0)
  }

  /** The opening line of the clone protocol for a theme. */
  function CloneHeader(name: string): string {
    "\n=== CLONE PROTOCOL: " + name + " ===\n"
  }

  /**
   * `get_theme_prompt`: the clone protocol of the theme named by the
   * upper-cased target, or "" for a target without a theme.
   */
  function ThemePrompt(target: string): (r: string)
    ensures r == "" <==> Upper(target) !in Themes
    ensures Upper(target) in Themes ==> StartsWith(r, CloneHeader(Themes[Upper(target)]))
  {
    var key := Upper(target);
    if key in Themes then CloneHeader(Themes[key]) else ""
  }

  /** Every target the detector can name has a theme, so its clone protocol is never empty. */
  lemma {:induction false} DetectedTargetsHaveThemes(prompt: string)
    ensures DetectDesignTarget(prompt).Some? ==> ThemePrompt(DetectDesignTarget(prompt).value) != ""
  {
    if DetectDesignTarget(prompt).Some? {
      var key := DetectDesignTarget(prompt).value;
      UpperOfKeys();
      assert Upper(key) == key;
    }
  }

  /** Each detector key is already upper case and is a theme key. */
  lemma {:induction false} UpperOfKeys()
    ensures forall k | 0 <= k < |KeywordMap| :: Upper(KeywordMap[k].0) == KeywordMap[k].0
    ensures forall k | 0 <= k < |KeywordMap| :: KeywordMap[k].0 in Themes
  {
    forall k | 0 <= k < |KeywordMap| ensures Upper(KeywordMap[k].0) == KeywordMap[k].0 {
      UpperFixed(KeywordMap[k].0);
    }
  }

  /** A string without lower-case letters is its own upper case. */
  lemma {:induction false} UpperFixed(s: string)
    requires forall i | 0 <= i < |s| :: !IsLower(s[i])
    ensures Upper(s) == s
  {
  }

  /** The theme lookup ignores case: "linkedin" finds the LinkedIn theme. */
  lemma {:induction false} ThemeLookupIgnoresCase(target: string)
    ensures ThemePrompt(Lower(target)) == ThemePrompt(target)
  {
    assert Upper(Lower(target)) == Upper(target);
  }

  // ---------------------------------------------------------------------
  // JSON extraction and repair

  /** The characters the trailing-comma repair may delete. */
  predicate Deletable(c: char) { c == ',' || IsSpace(c) }

  /** `s` with commas and whitespace dropped: what the repair must preserve. */
  function Kept(s: string): (r: string)
    ensures |r| <= |s|
  {
    if s == [] then [] else (if Deletable(s[0]) then [] else [s[0]]) + Kept(s[1..])
  }

  /** A comma at `i` followed, after optional whitespace, by `close`. */
  predicate TrailingCommaAt(s: string, i: int, close: char)
    requires 0 <= i < |s|
  {
    s[i] == ',' && TrimLeft(s[i + 1..]) != [] && TrimLeft(s[i + 1..])[0] == close
  }

  /**
   * `re.sub(r",\s*<close>", "<close>", s)`: a left-to-right scan that
   * replaces each comma followed by whitespace and `close` with `close`.
   */
  function DropTrailingCommas(s: string, close: char): (r: string)
    ensures |r| <= |s|
    decreases |s|
  {
    if s == [] then []
    else
      var rest := TrimLeft(s[1..]);
      if s[0] == ',' && rest != [] && rest[0] == close then [close] + DropTrailingCommas(rest[1..], close)
      else [s[0]] + DropTrailingCommas(s[1..], close)
  }

  lemma {:induction false} KeptAppend(a: string, b: string)
    ensures Kept(a + b) == Kept(a) + Kept(b)
  {
    if a == [] {
      assert a + b == b;
    } else {
      assert (a + b)[0] == a[0];
      assert (a + b)[1..] == a[1..] + b;
      KeptAppend(a[1..], b);
    }
  }

  lemma {:induction false} KeptTrimLeft(s: string)
    ensures Kept(TrimLeft(s)) == Kept(s)
    decreases |s|
  {
    if s != [] && IsSpace(s[0]) {
      KeptTrimLeft(s[1..]);
    }
  }

  /** The repair deletes only commas and whitespace: every other character survives, in order. */
  lemma {:induction false} DropKeepsContent(s: string, close: char)
    requires !Deletable(close)
    ensures Kept(DropTrailingCommas(s, close)) == Kept(s)
    decreases |s|
  {
    if s != [] {
      var rest := TrimLeft(s[1..]);
      if s[0] == ',' && rest != [] && rest[0] == close {
        DropKeepsContent(rest[1..], close);
        KeptAppend([close], DropTrailingCommas(rest[1..], close));
        KeptTrimLeft(s[1..]);
        assert rest == [close] + rest[1..];
        KeptAppend([close], rest[1..]);
      } else {
        DropKeepsContent(s[1..], close);
        KeptAppend([s[0]], DropTrailingCommas(s[1..], close));
      }
    }
  }

  /** Text without a trailing comma before `close` passes the repair unchanged. */
  lemma {:induction false} DropUnchanged(s: string, close: char)
    requires forall i | 0 <= i < |s| :: !TrailingCommaAt(s, i, close)
    ensures DropTrailingCommas(s, close) == s
    decreases |s|
  {
    if s != [] {
      assert !TrailingCommaAt(s, 0, close);
      forall i | 0 <= i < |s[1..]| ensures !TrailingCommaAt(s[1..], i, close) {
        assert s[1..][i + 1..] == s[i + 2..];
        assert !TrailingCommaAt(s, i + 1, close);
      }
      DropUnchanged(s[1..], close);
    }
  }

  /** Whether the escape pass is inside a string, and whether the previous character was a backslash. */
  datatype Scan = Scan(inString: bool, escapeNext: bool)

  const Start := Scan(false, false)

  /** What the escape pass writes for one character, and its state afterwards. */
  datatype Emit = Emit(out: string, next: Scan)

  /** A raw newline, carriage return or tab met inside a string and not after a backslash. */
  predicate RawControl(st: Scan, c: char) {
    st.inString && !st.escapeNext && (c == '\n' || c == '\r' || c == '\t')
  }

  /** One step of the escape pass. */
  function EscapeChar(st: Scan, c: char): (e: Emit)
    ensures RawControl(st, c) ==> |e.out| == 2 && e.out[0] == '\\' && e.next == st
    ensures !RawControl(st, c) ==> e.out == [c]
  {
    if st.escapeNext then Emit([c], Scan(st.inString, false))
    else if c == '\\' then Emit([c], Scan(st.inString, true))
    else if c == '"' then Emit([c], Scan(!st.inString, false))
    else if st.inString && c == '\n' then Emit("\\n", st)
    else if st.inString && c == '\r' then Emit("\\r", st)
    else if st.inString && c == '\t' then Emit("\\t", st)
    else Emit([c], st)
  }

  /** The escape pass from state `st`. */
  function EscapeFrom(s: string, st: Scan): (r: string)
    ensures |r| >= |s|
  {
    if s == [] then [] else EscapeChar(st, s[0]).out + EscapeFrom(s[1..], EscapeChar(st, s[0]).next)
  }

  /** The pass's state after reading `s` from `st`. */
  function After(s: string, st: Scan): Scan {
    if s == [] then st else After(s[1..], EscapeChar(st, s[0]).next)
  }

  /** No raw control character occurs inside a string, scanning as the pass does. */
  predicate RawControlFree(s: string, st: Scan) {
    s == [] || (!RawControl(st, s[0]) && RawControlFree(s[1..], EscapeChar(st, s[0]).next))
  }

  /**
   * The control-character pass: raw newlines, carriage returns and tabs
   * inside strings become two-character escapes, as section 7 of RFC 8259
   * requires; everything else is copied.
   */
  function EscapeControls(s: string): string {
    EscapeFrom(s, Start)
  }

  lemma {:induction false} EscapeAppend(a: string, b: string, st: Scan)
    ensures EscapeFrom(a + b, st) == EscapeFrom(a, st) + EscapeFrom(b, After(a, st))
    ensures After(a + b, st) == After(b, After(a, st))
  {
    if a == [] {
      assert a + b == b;
    } else {
      assert (a + b)[0] == a[0];
      assert (a + b)[1..] == a[1..] + b;
      EscapeAppend(a[1..], b, EscapeChar(st, a[0]).next);
    }
  }

  /** What the pass writes for one character passes through it again unchanged, ending in the same state. */
  lemma {:induction false} EmitStable(st: Scan, c: char)
    ensures var e := EscapeChar(st, c);
            EscapeFrom(e.out, st) == e.out && After(e.out, st) == e.next
  {
    var e := EscapeChar(st, c);
    if RawControl(st, c) {
      assert e.out == ['\\'] + e.out[1..];
      assert e.out[1..][1..] == [];
    } else {
      assert e.out[1..] == [];
    }
  }

  /** The escape pass is idempotent. */
  lemma {:induction false} EscapeIdempotent(s: string, st: Scan)
    ensures EscapeFrom(EscapeFrom(s, st), st) == EscapeFrom(s, st)
    ensures After(EscapeFrom(s, st), st) == After(s, st)
  {
    if s != [] {
      var e := EscapeChar(st, s[0]);
      EscapeIdempotent(s[1..], e.next);
      EmitStable(st, s[0]);
      EscapeAppend(e.out, EscapeFrom(s[1..], e.next), st);
    }
  }

  /** The pass changes text exactly when it holds a raw control character inside a string. */
  lemma {:induction false} EscapeUnchangedIff(s: string, st: Scan)
    ensures RawControlFree(s, st) <==> EscapeFrom(s, st) == s
  {
    if s != [] {
      var e := EscapeChar(st, s[0]);
      EscapeUnchangedIff(s[1..], e.next);
      if RawControl(st, s[0]) {
        assert |EscapeFrom(s, st)| > |s|;
      } else {
        assert EscapeFrom(s, st) == [s[0]] + EscapeFrom(s[1..], e.next);
        assert s == [s[0]] + s[1..];
      }
    }
  }

  /** After the pass, no raw control character is left inside a string. */
  lemma {:induction false} EscapedIsRawControlFree(s: string)
    ensures RawControlFree(EscapeControls(s), Start)
  {
    EscapeIdempotent(s, Start);
    EscapeUnchangedIff(EscapeControls(s), Start);
  }

  /** The text from the first '{' to the last '}', when the first comes strictly before the last. */
  function Candidate(text: string): (r: Option<string>)
    ensures r.None? <==> Find(text, '{').None? || RFind(text, '}').None?
                         || Find(text, '{').value >= RFind(text, '}').value
    ensures r.Some? ==> |r.value| >= 2 && r.value[0] == '{' && r.value[|r.value| - 1] == '}'
  {
    match (Find(text, '{'), RFind(text, '}'))
    case (Some(first), Some(last)) =>
      if first < last then Some(text[first..last + 1]) else None
    case _ => None
  }

  /** Both trailing-comma passes, objects first. */
  function Repair(s: string): string {
    DropTrailingCommas(DropTrailingCommas(s, '}'), ']')
  }

  /**
   * `_clean_json`: the repaired candidate if it parses, otherwise the
   * candidate after the control-character pass; an error when the text has
   * no '{' before a '}'.
   */
  function CleanJson(text: string, parses: string -> bool): (r: Result<string, string>)
    ensures r.Err? <==> Find(text, '{').None? || RFind(text, '}').None?
                        || Find(text, '{').value >= RFind(text, '}').value
    ensures r.Ok? ==> Kept(r.value) == Kept(Candidate(text).value) || !parses(Repair(Candidate(text).value))
    ensures r.Ok? && !parses(Repair(Candidate(text).value)) ==> RawControlFree(r.value, Start)
  {
    match Candidate(text)
    case None => Err("No valid JSON in response: " + Prefix(text, 200) + "...")
    case Some(candidate) =>
      var fixed := Repair(candidate);
      DropKeepsContent(candidate, '}');
      DropKeepsContent(DropTrailingCommas(candidate, '}'), ']');
      if parses(fixed) then Ok(fixed)
      else
        EscapedIsRawControlFree(fixed);
        Ok(EscapeControls(fixed))
  }

  /** A bare object with no trailing commas that parses comes back unchanged. */
  lemma {:induction false} PlainJsonUnchanged(text: string, parses: string -> bool)
    requires |text| >= 2 && text[0] == '{' && text[|text| - 1] == '}'
    requires forall i | 0 <= i < |text| :: !TrailingCommaAt(text, i, '}') && !TrailingCommaAt(text, i, ']')
    requires parses(text)
    ensures CleanJson(text, parses) == Ok(text)
  {
    assert Find(text, '{') == Some(0);
    assert RFind(text, '}') == Some(|text| - 1);
    assert text[0..|text|] == text;
    DropUnchanged(text, '}');
    DropUnchanged(text, ']');
  }

  /** `Find` is pinned down by its answer's defining property. */
  lemma {:induction false} FindIs(s: string, c: char, k: Option<nat>)
    requires k.Some? ==> k.value < |s| && s[k.value] == c && forall i | 0 <= i < k.value :: s[i] != c
    requires k.None? ==> forall i | 0 <= i < |s| :: s[i] != c
    ensures Find(s, c) == k
  {
  }

  /** `RFind` is pinned down by its answer's defining property. */
  lemma {:induction false} RFindIs(s: string, c: char, k: Option<nat>)
    requires k.Some? ==> k.value < |s| && s[k.value] == c && forall i | k.value < i < |s| :: s[i] != c
    requires k.None? ==> forall i | 0 <= i < |s| :: s[i] != c
    ensures RFind(s, c) == k
  {
  }

  /** An index into `body` as an index into `before + body + after`. */
  function Shift(k: Option<nat>, n: nat): Option<nat> {
    if k.Some? then Some(k.value + n) else None
  }

  /** Searching text that wraps `body` in brace-free text finds what searching `body` finds, shifted. */
  lemma {:induction false} SearchAround(before: string, body: string, after: string, c: char)
    requires forall i | 0 <= i < |before| :: before[i] != c
    requires forall i | 0 <= i < |after| :: after[i] != c
    ensures Find(before + body + after, c) == Shift(Find(body, c), |before|)
    ensures RFind(before + body + after, c) == Shift(RFind(body, c), |before|)
  {
    var text := before + body + after;
    assert forall i | 0 <= i < |before| :: text[i] == before[i];
    assert forall i | 0 <= i < |body| :: text[|before| + i] == body[i];
    assert forall i | 0 <= i < |after| :: text[|before| + |body| + i] == after[i];
    FindIs(text, c, Shift(Find(body, c), |before|));
    RFindIs(text, c, Shift(RFind(body, c), |before|));
  }

  /** Brace-free text around `body` does not change the candidate. */
  lemma {:induction false} CandidateAround(before: string, body: string, after: string)
    requires forall i | 0 <= i < |before| :: before[i] != '{' && before[i] != '}'
    requires forall i | 0 <= i < |after| :: after[i] != '{' && after[i] != '}'
    ensures Candidate(before + body + after) == Candidate(body)
  {
    var text := before + body + after;
    var n := |before|;
    SearchAround(before, body, after, '{');
    SearchAround(before, body, after, '}');
    assert forall k | 0 <= k < |body| :: text[n + k] == body[k];
    CandidateOfShifted(text, body, n);
  }

  /**
   * When `body` sits at offset `n` of `text` and both searches in `text`
   * land on the same characters shifted by `n`, the candidates agree.
   */
  lemma {:induction false} CandidateOfShifted(text: string, body: string, n: nat)
    requires n + |body| <= |text|
    requires forall k | 0 <= k < |body| :: text[n + k] == body[k]
    requires Find(text, '{') == Shift(Find(body, '{'), n)
    requires RFind(text, '}') == Shift(RFind(body, '}'), n)
    ensures Candidate(text) == Candidate(body)
  {
    var f := Find(body, '{');
    var l := RFind(body, '}');
    if f.Some? && l.Some? && f.value < l.value {
      var first, last := n + f.value, n + l.value;
      CandidateIs(body, f.value, l.value);
      CandidateIs(text, first, last);
      SliceShift(text, body, n, f.value, l.value + 1);
    } else if f.None? {
      assert Find(text, '{').None?;
    } else if l.None? {
      assert RFind(text, '}').None?;
    } else {
      assert Find(text, '{').value >= RFind(text, '}').value;
    }
  }

  /** A slice of `body` read at offset `n` of a text that holds `body` there. */
  lemma {:induction false} SliceShift(text: string, body: string, n: nat, i: nat, j: nat)
    requires n + |body| <= |text| && i <= j <= |body|
    requires forall k | 0 <= k < |body| :: text[n + k] == body[k]
    ensures text[n + i..n + j] == body[i..j]
  {
    forall k | 0 <= k < j - i ensures text[n + i..n + j][k] == body[i..j][k] {
      assert text[n + i..n + j][k] == text[n + (i + k)];
    }
  }

  /** With the first '{' before the last '}', the candidate is the text between them. */
  lemma {:induction false} CandidateIs(text: string, first: nat, last: nat)
    requires Find(text, '{') == Some(first) && RFind(text, '}') == Some(last) && first < last
    ensures last < |text| && Candidate(text) == Some(text[first..last + 1])
  {
  }

  /** Text around the object that holds no braces (a markdown fence, a remark) is cut away. */
  lemma {:induction false} FencedJsonIsBare(before: string, body: string, after: string, parses: string -> bool)
    requires forall i | 0 <= i < |before| :: before[i] != '{' && before[i] != '}'
    requires forall i | 0 <= i < |after| :: after[i] != '{' && after[i] != '}'
    ensures CleanJson(before + body + after, parses).Ok? ==> CleanJson(before + body + after, parses) == CleanJson(body, parses)
  {
    CandidateAround(before, body, after);
  }

  // ---------------------------------------------------------------------
  // Draft and heal requests

  /** Why the architect gives up on a reply. */
  datatype ArchitectError =
    | RequestFailed(reason: string)
    | ApiError(statusCode: int)
    | UnexpectedResponse
    | NoJson(message: string)
    | InvalidJson
    | ManifestInvalid(errors: seq<Manifest.FieldError>)

  /** The endpoint's answer: its status code and the text of its first content block, if present. */
  datatype Reply = Reply(statusCode: int, text: Option<string>)

  /** The endpoint, given the system prompt and the user message; `Err` is a failed request. */
  type Endpoint = (string, string) -> Result<Reply, string>

  /** `json.loads` followed by reading the manifest keys; None when the text is not JSON. */
  type JsonReader = string -> Option<Manifest.RawManifest>

  /** The target a draft uses and the system prompt it sends. */
  datatype DraftSetup = DraftSetup(target: Option<string>, system: string)

  /**
   * Target and prompt selection: a given non-empty target is used as it is,
   * otherwise the prompt is searched; the theme text is appended to the
   * system prompt exactly when a target is set.
   */
  function SetupDraft(prompt: string, given: Option<string>, base: string): (d: DraftSetup)
    ensures IsSet(given) ==> d.target == given
    ensures !IsSet(given) ==> d.target == DetectDesignTarget(prompt)
    ensures StartsWith(d.system, base)
    ensures !IsSet(d.target) ==> d.system == base
  {
    var target := if IsSet(given) then given else DetectDesignTarget(prompt);
    if IsSet(target) then DraftSetup(target, base + ThemePrompt(target.value))
    else DraftSetup(target, base)
  }

  /** A prompt naming a known app, with no target given, gets the app's clone protocol appended. */
  lemma {:induction false} DetectedThemeExtendsPrompt(prompt: string, base: string)
    requires DetectDesignTarget(prompt).Some?
    ensures |SetupDraft(prompt, None, base).system| > |base|
  {
    var target := DetectDesignTarget(prompt);
    DetectedTargetsHaveThemes(prompt);
    assert target.value != "" by {
      if target.value == "" { UpperFixed(""); }
    }
  }

  /** A request that came back with status 200 and a first content block. */
  predicate Answered(reply: Result<Reply, string>) {
    reply.Ok? && reply.value.statusCode == 200 && reply.value.text.Some?
  }

  /** Turning an endpoint reply into a manifest: status, content, JSON, then
      validation; each stage that fails gives its own error. */
  function ReadReply(reply: Result<Reply, string>, parses: string -> bool, read: JsonReader): (r: Result<Manifest.GantryManifest, ArchitectError>)
    ensures r.Ok? ==> Manifest.ValidManifest(r.value)
    ensures r.Ok? ==> Answered(reply)
    ensures reply.Err? ==> r == Err(RequestFailed(reply.error))
    ensures reply.Ok? && reply.value.statusCode != 200 ==> r == Err(ApiError(reply.value.statusCode))
    // a 200 reply without a first content block is an unexpected response
    ensures reply.Ok? && reply.value.statusCode == 200 && reply.value.text.None? ==> r == Err(UnexpectedResponse)
    // a reply holding no braced object is NoJson with the cleaner's message
    ensures Answered(reply) && CleanJson(reply.value.text.value, parses).Err? ==>
              r == Err(NoJson(CleanJson(reply.value.text.value, parses).error))
    // an object that does not parse is InvalidJson
    ensures Answered(reply) && CleanJson(reply.value.text.value, parses).Ok?
            && read(CleanJson(reply.value.text.value, parses).value).None?
            ==> r == Err(InvalidJson)
    // a parsed object is the manifest exactly when it validates, else the validation errors
    ensures Answered(reply) && CleanJson(reply.value.text.value, parses).Ok?
            && read(CleanJson(reply.value.text.value, parses).value).Some?
            ==> var raw := read(CleanJson(reply.value.text.value, parses).value).value;
              && (Manifest.Validate(raw).Ok? ==> r == Ok(Manifest.Validate(raw).value))
              && (Manifest.Validate(raw).Err? ==> r == Err(ManifestInvalid(Manifest.Validate(raw).error)))
  {
    match reply
    case Err(reason) => Err(RequestFailed(reason))
    case Ok(Reply(code, text)) =>
      if code != 200 then Err(ApiError(code))
      else if text.None? then Err(UnexpectedResponse)
      else match CleanJson(text.value, parses)
        case Err(message) => Err(NoJson(message))
        case Ok(json) =>
          match read(json)
          case None => Err(InvalidJson)
          case Some(raw) =>
            match Manifest.Validate(raw)
            case Ok(m) => Ok(m)
            case Err(errors) => Err(ManifestInvalid(errors))
  }

  /** `draft_blueprint`: one request with the selected system prompt and the user's prompt. */
  function DraftBlueprint(prompt: string, given: Option<string>, base: string, call: Endpoint,
                          parses: string -> bool, read: JsonReader): (r: Result<Manifest.GantryManifest, ArchitectError>)
    ensures r.Ok? ==> Manifest.ValidManifest(r.value)
    ensures r.Ok? ==> call(SetupDraft(prompt, given, base).system, prompt).Ok?
    ensures call(SetupDraft(prompt, given, base).system, prompt).Err? ==>
              r == Err(RequestFailed(call(SetupDraft(prompt, given, base).system, prompt).error))
  {
    ReadReply(call(SetupDraft(prompt, given, base).system, prompt), parses, read)
  }

  /** The most of an error log a heal request carries. */
  const HealLogLimit: nat := 2000

  /** The user message of a heal request: the failed manifest as JSON and the head of the error log. */
  function HealRequest(manifestJson: string, errorLog: string): (r: string)
    ensures |r| <= |HealOpening| + |manifestJson| + |HealMiddle| + HealLogLimit + |HealClosing|
  {
    HealOpening + manifestJson + HealMiddle + Prefix(errorLog, HealLogLimit) + HealClosing
  }

  const HealOpening := "## FAILED BUILD - NEEDS FIX\n\n### Original Manifest:\n```json\n"
  const HealMiddle := "\n```\n\n### Error Log:\n```\n"
  const HealClosing := "\n```\n\nAnalyze the error and return a CORRECTED GantryManifest that fixes this issue."

  /** Only the first 2000 characters of an error log reach the heal request. */
  lemma {:induction false} HealSeesOnlyLogHead(manifestJson: string, a: string, b: string)
    requires Prefix(a, HealLogLimit) == Prefix(b, HealLogLimit)
    ensures HealRequest(manifestJson, a) == HealRequest(manifestJson, b)
  {
  }

  /** A log within the limit reaches the heal request whole. */
  lemma {:induction false} ShortLogKept(log: string)
    requires |log| <= HealLogLimit
    ensures Prefix(log, HealLogLimit) == log
  {
  }

  /** `heal_blueprint`: one request with the heal prompt, read like a draft. */
  function HealBlueprint(m: Manifest.GantryManifest, errorLog: string, healPrompt: string,
                         dump: Manifest.GantryManifest -> string, call: Endpoint,
                         parses: string -> bool, read: JsonReader): (r: Result<Manifest.GantryManifest, ArchitectError>)
    ensures r.Ok? ==> Manifest.ValidManifest(r.value)
    ensures r.Ok? ==> call(healPrompt, HealRequest(dump(m), errorLog)).Ok?
    ensures call(healPrompt, HealRequest(dump(m), errorLog)).Err? ==>
              r == Err(RequestFailed(call(healPrompt, HealRequest(dump(m), errorLog)).error))
  {
    ReadReply(call(healPrompt, HealRequest(dump(m), errorLog)), parses, read)
  }
}

=== FILE: auth.dfy ===
/**
 * Request admission: the per-client sliding-window rate limiter, the
 * content guardrails applied to a build request, and the password check.
 * The clock becomes an integer `now` argument, SHA-256 and the hex test of
 * `int(s, 16)` are parameters, and regular-expression search with
 * IGNORECASE is the abstract predicate `search(pattern, text)`.
 */
module Auth {
  import opened Wrappers
  import opened Text

  // ---------------------------------------------------------------------
  // Rate limiting

  const RateLimitWindow := 60
  const DefaultMaxRequests := 30

  /** One client's state: the times of its counted requests and the end of its block. */
  datatype Entry = Entry(requests: seq<int>, blockedUntil: int)

  /** What `defaultdict(RateLimitEntry)` supplies for a client never seen before. */
  const NewEntry := Entry([], 0)

  datatype Limiter = Limiter(window: int, maxRequests: int, clients: map<string, Entry>)

  /** A limiter with the source's defaults and no clients. */
  function DefaultLimiter(maxRequests: int): (l: Limiter)
    ensures l.window == 60 && l.clients == map[]
  {
    Limiter(RateLimitWindow, maxRequests, map[])
  }

  /** `self._clients[client_id]`. */
  function EntryOf(l: Limiter, id: string): Entry {
    if id in l.clients then l.clients[id] else NewEntry
  }

  /** `[t for t in requests if t > cutoff]`. */
  function Prune(requests: seq<int>, cutoff: int): (kept: seq<int>)
    ensures |kept| <= |requests|
    ensures forall k | 0 <= k < |kept| :: kept[k] > cutoff
  {
    if requests == [] then []
    else (if requests[0] > cutoff then [requests[0]] else []) + Prune(requests[1..], cutoff)
  }

  /** Pruning keeps exactly the timestamps newer than the cutoff. */
  lemma {:induction false} PruneKeepsRecent(requests: seq<int>, cutoff: int, t: int)
    ensures t in Prune(requests, cutoff) <==> t in requests && t > cutoff
  {
    if requests != [] {
      PruneKeepsRecent(requests[1..], cutoff, t);
      assert requests == [requests[0]] + requests[1..];
    }
  }

  /** The answer of `is_allowed` together with the limiter it leaves behind. */
  datatype Decision = Decision(limiter: Limiter, allowed: bool, remaining: int)

  /** `RateLimiter.is_allowed(client_id)` at time `now`. */
  function IsAllowed(l: Limiter, id: string, now: int): (d: Decision)
    ensures d.limiter.window == l.window && d.limiter.maxRequests == l.maxRequests
    ensures d.limiter.clients.Keys == l.clients.Keys + {id}
    ensures forall other | other in l.clients && other != id :: d.limiter.clients[other] == l.clients[other]
    ensures d.remaining >= 0
    ensures EntryOf(l, id).blockedUntil > now ==>
              !d.allowed && d.remaining == 0 && EntryOf(d.limiter, id) == EntryOf(l, id)
    ensures EntryOf(l, id).blockedUntil <= now ==>
              var kept := Prune(EntryOf(l, id).requests, now - l.window);
              if |kept| >= l.maxRequests then
                && !d.allowed && d.remaining == 0
                && EntryOf(d.limiter, id) == Entry(kept, now + l.window)
              else
                && d.allowed
                && EntryOf(d.limiter, id) == Entry(kept + [now], EntryOf(l, id).blockedUntil)
                && d.remaining == l.maxRequests - (|kept| + 1)
  {
    var e := EntryOf(l, id);
    if e.blockedUntil > now then
      Decision(l.(clients := l.clients[id := e]), false, 0)
    else
      var kept := Prune(e.requests, now - l.window);
      if |kept| >= l.maxRequests then
        Decision(l.(clients := l.clients[id := Entry(kept, now + l.window)]), false, 0)
      else
        Decision(l.(clients := l.clients[id := Entry(kept + [now], e.blockedUntil)]), true,
                 l.maxRequests - (|kept| + 1))
  }

  /** No client holds more request times than the limit. */
  predicate Bounded(l: Limiter) {
    forall id | id in l.clients :: |l.clients[id].requests| <= l.maxRequests
  }

  /** `is_allowed` never lets a client's stored count exceed the limit. */
  lemma {:induction false} IsAllowedKeepsBound(l: Limiter, id: string, now: int)
    requires l.maxRequests >= 0 && Bounded(l)
    ensures Bounded(IsAllowed(l, id, now).limiter)
  {
    var d := IsAllowed(l, id, now);
    forall c | c in d.limiter.clients ensures |d.limiter.clients[c].requests| <= l.maxRequests {
      if c == id {
        assert d.limiter.clients[c] == EntryOf(d.limiter, id);
        if id !in l.clients {
          assert EntryOf(l, id).requests == [];
        }
      } else {
        assert c in l.clients;
      }
    }
  }

  /** A client refused at capacity stays refused, with nothing recorded, for a whole window. */
  lemma {:induction false} BlockLastsAWindow(l: Limiter, id: string, now: int, later: int)
    requires EntryOf(l, id).blockedUntil <= now
    requires |Prune(EntryOf(l, id).requests, now - l.window)| >= l.maxRequests
    requires now <= later < now + l.window
    ensures var first := IsAllowed(l, id, now);
            var second := IsAllowed(first.limiter, id, later);
            !first.allowed && !second.allowed && second.remaining == 0
            && EntryOf(second.limiter, id) == EntryOf(first.limiter, id)
  {
  }

  /** The answers to a run of requests from one client, in order. */
  function Answers(l: Limiter, id: string, times: seq<int>): (r: seq<bool>)
    ensures |r| == |times|
    decreases |times|
  {
    if times == [] then []
    else
      var d := IsAllowed(l, id, times[0]);
      [d.allowed] + Answers(d.limiter, id, times[1..])
  }

  /** `n` copies of `x`. */
  function Repeat(x: int, n: nat): (s: seq<int>)
    ensures |s| == n && forall k | 0 <= k < n :: s[k] == x
  {
    if n == 0 then [] else [x] + Repeat(x, n - 1)
  }

  /**
   * One request of a burst at one instant from an unblocked client with
   * `used` requests already counted at that instant: it is allowed exactly
   * when `used` is below the limit, and the client is then left with one
   * more request counted, or else blocked past that instant.
   */
  lemma {:induction false} BurstStep(l: Limiter, id: string, now: int, used: nat, count: nat)
    requires 0 < l.window && used <= l.maxRequests && count > 0
    requires EntryOf(l, id) == Entry(Repeat(now, used), EntryOf(l, id).blockedUntil)
    requires EntryOf(l, id).blockedUntil <= now
    ensures var d := IsAllowed(l, id, now);
            && Answers(l, id, Repeat(now, count)) == [used < l.maxRequests] + Answers(d.limiter, id, Repeat(now, count - 1))
            && (used < l.maxRequests ==>
                  && EntryOf(d.limiter, id) == Entry(Repeat(now, used + 1), EntryOf(d.limiter, id).blockedUntil)
                  && EntryOf(d.limiter, id).blockedUntil <= now)
            && (used >= l.maxRequests ==> EntryOf(d.limiter, id).blockedUntil > now)
  {
    var e := EntryOf(l, id);
    PruneRecentIsIdentity(e.requests, now - l.window);
    assert Repeat(now, count)[1..] == Repeat(now, count - 1);
    assert e.requests + [now] == Repeat(now, used + 1);
  }

  /**
   * A burst at one instant from an unblocked client with `used` requests
   * already counted at that instant: exactly the first `maxRequests - used`
   * are allowed, every later one is refused.
   */
  lemma {:induction false} BurstFrom(l: Limiter, id: string, now: int, used: nat, count: nat)
    requires 0 < l.window && used <= l.maxRequests
    requires EntryOf(l, id) == Entry(Repeat(now, used), EntryOf(l, id).blockedUntil)
    requires EntryOf(l, id).blockedUntil <= now
    ensures forall k | 0 <= k < count :: Answers(l, id, Repeat(now, count))[k] <==> used + k < l.maxRequests
    decreases count
  {
    if count > 0 {
      BurstStep(l, id, now, used, count);
      var d := IsAllowed(l, id, now);
      var r := Answers(l, id, Repeat(now, count));
      var rest := Answers(d.limiter, id, Repeat(now, count - 1));
      if used < l.maxRequests {
        BurstFrom(d.limiter, id, now, used + 1, count - 1);
        forall k | 1 <= k < count ensures r[k] <==> used + k < l.maxRequests {
          assert r[k] == rest[k - 1];
        }
      } else {
        BurstBlocked(d.limiter, id, now, count - 1);
        forall k | 1 <= k < count ensures !r[k] {
          assert r[k] == rest[k - 1];
        }
      }
    }
  }

  /** Timestamps all after the cutoff survive pruning unchanged. */
  lemma {:induction false} PruneRecentIsIdentity(requests: seq<int>, cutoff: int)
    requires forall k | 0 <= k < |requests| :: requests[k] > cutoff
    ensures Prune(requests, cutoff) == requests
  {
    if requests != [] {
      PruneRecentIsIdentity(requests[1..], cutoff);
      assert [requests[0]] + requests[1..] == requests;
    }
  }

  /** While a client's block lasts, every request at that instant is refused. */
  lemma {:induction false} BurstBlocked(l: Limiter, id: string, now: int, count: nat)
    requires EntryOf(l, id).blockedUntil > now
    ensures forall k | 0 <= k < count :: !Answers(l, id, Repeat(now, count))[k]
    decreases count
  {
    if count > 0 {
      var d := IsAllowed(l, id, now);
      var times := Repeat(now, count);
      assert times[1..] == Repeat(now, count - 1);
      BurstBlocked(d.limiter, id, now, count - 1);
      assert Answers(l, id, times) == [d.allowed] + Answers(d.limiter, id, times[1..]);
    }
  }

  /** A new client gets exactly `maxRequests` requests through in one instant. */
  lemma {:induction false} NewClientBurst(l: Limiter, id: string, now: int, count: nat)
    requires 0 < l.window && 0 <= l.maxRequests && 0 <= now
    requires id !in l.clients
    ensures var r := Answers(l, id, Repeat(now, count));
            forall k | 0 <= k < count :: r[k] <==> k < l.maxRequests
  {
    assert Repeat(now, 0) == [];
    BurstFrom(l, id, now, 0, count);
  }

  // ---------------------------------------------------------------------
  // Content guardrails

  const MinMessageLength := 10
  const MinWordCount := 3

  /** The abuse patterns, tried in this order. */
  const BlockedPatterns: seq<string> := [
    "\\b(fuck|shit|damn|ass|bitch|crap)\\b",
    "\\btest\\s*\\d+\\b",
    "^(hi|hello|hey|yo|sup)$",
    "^.{1,5}$",
    "^[a-z]{20,}$",
    "(asdf|qwerty|zxcv)"
  ]

  /** The words whose presence shows an intent to build something. */
  const AppKeywords: seq<string> := [
    "build", "create", "make", "app", "website", "api", "service", "dashboard", "page", "tool",
    "system", "platform"
  ]

  /** The verdict of `check_guardrails`; the suggestion texts are not modelled. */
  datatype Guardrail = Passed | Rejected(reason: string)

  /** `message.strip().lower()`. */
  function Normalize(message: string): string {
    Lower(Strip(message))
  }

  /** Some blocked pattern is found in the text. */
  predicate AnyBlocked(search: (string, string) -> bool, clean: string) {
    exists k | 0 <= k < |BlockedPatterns| :: search(BlockedPatterns[k], clean)
  }

  /** `check_guardrails`: length, then word count, then abuse patterns, then build intent. */
  function CheckGuardrails(message: string, search: (string, string) -> bool): (g: Guardrail)
    ensures var clean := Normalize(message);
            g == Passed <==>
              && |clean| >= MinMessageLength
              && |Split(clean)| >= MinWordCount
              && !AnyBlocked(search, clean)
              && ContainsAny(clean, AppKeywords)
    ensures var clean := Normalize(message);
            g == Rejected("Message too short") <==> |clean| < MinMessageLength
    ensures var clean := Normalize(message);
            g == Rejected("Not enough context") <==>
              |clean| >= MinMessageLength && |Split(clean)| < MinWordCount
    ensures var clean := Normalize(message);
            g == Rejected("Invalid request") <==>
              |clean| >= MinMessageLength && |Split(clean)| >= MinWordCount && AnyBlocked(search, clean)
    ensures var clean := Normalize(message);
            g == Rejected("No clear build intent") <==>
              && |clean| >= MinMessageLength && |Split(clean)| >= MinWordCount
              && !AnyBlocked(search, clean) && !ContainsAny(clean, AppKeywords)
  {
    var clean := Normalize(message);
    if |clean| < MinMessageLength then Rejected("Message too short")
    else if |Split(clean)| < MinWordCount then Rejected("Not enough context")
    else if AnyBlocked(search, clean) then Rejected("Invalid request")
    else if !ContainsAny(clean, AppKeywords) then Rejected("No clear build intent")
    else Passed
  }

  /** A message too short or too thin never reaches the patterns: any regex engine gives the same verdict. */
  lemma {:induction false} EarlyRejectionIgnoresPatterns(message: string, search1: (string, string) -> bool,
                                                         search2: (string, string) -> bool)
    requires |Normalize(message)| < MinMessageLength || |Split(Normalize(message))| < MinWordCount
    ensures CheckGuardrails(message, search1) == CheckGuardrails(message, search2)
    ensures CheckGuardrails(message, search1).Rejected?
  {
  }

  /** Leading whitespace does not change the verdict: the checks see the stripped message. */
  lemma {:induction false} LeadingSpaceIgnored(c: char, message: string, search: (string, string) -> bool)
    requires IsSpace(c)
    ensures CheckGuardrails([c] + message, search) == CheckGuardrails(message, search)
  {
    assert ([c] + message)[1..] == message;
    assert TrimLeft([c] + message) == TrimLeft(message);
  }

  // ---------------------------------------------------------------------
  // Passwords

  /**
   * `_get_password_hash`: a 64-character hex GANTRY_PASSWORD_HASH is used
   * as it is; otherwise a non-empty GANTRY_PASSWORD is hashed; otherwise a
   * non-empty GANTRY_PASSWORD_HASH is hashed as plain text; otherwise the
   * hash of "password". An unset variable is "".
   */
  function StoredHash(envHash: string, envPlain: string, sha: string -> string, isHex: string -> bool): (h: string)
    ensures envHash != "" && |envHash| == 64 && isHex(envHash) ==> h == envHash
    ensures !(envHash != "" && |envHash| == 64 && isHex(envHash)) ==>
              h == sha(if envPlain != "" then envPlain else if envHash != "" then envHash else "password")
  {
    if envHash != "" && |envHash| == 64 && isHex(envHash) then envHash
    else if envPlain != "" then sha(envPlain)
    else if envHash != "" then sha(envHash)
    else sha("password")
  }

  /** `verify_password`. */
  predicate VerifyPassword(password: string, stored: string, sha: string -> string) {
    sha(password) == stored
  }

  /**
   * With only GANTRY_PASSWORD set, that password is accepted; when the hash
   * is injective it is the only one.
   */
  lemma {:induction false} PlainPasswordIsTheOne(envPlain: string, sha: string -> string, isHex: string -> bool,
                                                  attempt: string)
    requires envPlain != ""
    requires forall a, b :: sha(a) == sha(b) ==> a == b
    ensures VerifyPassword(attempt, StoredHash("", envPlain, sha, isHex), sha) <==> attempt == envPlain
  {
  }

  /** With nothing configured, the development password "password" is the one accepted. */
  lemma {:induction false} DefaultPasswordIsPassword(sha: string -> string, isHex: string -> bool, attempt: string)
    requires forall a, b :: sha(a) == sha(b) ==> a == b
    ensures VerifyPassword(attempt, StoredHash("", "", sha, isHex), sha) <==> attempt == "password"
  {
  }
}

=== FILE: consultant.dfy ===
/**
 * The consultant reviews a conversation before a build: it short-circuits
 * to READY_TO_BUILD when the latest user message confirms, otherwise asks
 * the model and reads its JSON reply; it also turns a conversation into the
 * build prompt and the clone target. The model endpoint and `json.loads`
 * are parameters.
 */
module Consultant {
  import opened Wrappers
  import opened Text
  import Architect

  /** One conversation entry; a missing key is None. */
  datatype Message = Message(role: Option<string>, content: Option<string>)

  /** `msg.get("content", "")`. */
  function Content(m: Message): string {
    m.content.GetOr("")
  }

  predicate IsUser(m: Message) {
    m.role == Some("user")
  }

  /** The content of the last user entry, or "" when there is none. */
  function LatestUserMessage(conv: seq<Message>): (r: string)
    ensures (forall i | 0 <= i < |conv| :: !IsUser(conv[i])) ==> r == ""
    ensures (exists i | 0 <= i < |conv| :: IsUser(conv[i])) ==>
              exists i | 0 <= i < |conv| ::
                IsUser(conv[i]) && r == Content(conv[i]) && forall j | i < j < |conv| :: !IsUser(conv[j])
  {
    if conv == [] then ""
    else if IsUser(conv[|conv| - 1]) then Content(conv[|conv| - 1])
    else LatestUserMessage(conv[..|conv| - 1])
  }

  /** The words that, anywhere in the latest user message, count as a go-ahead. */
  const ConfirmationKeywords: seq<string> := [
    "yes", "yeah", "yep", "ok", "okay", "sure", "go", "proceed", "build", "build it",
    "do it", "make it", "sounds good", "let's go", "approved", "confirmed", "go ahead"
  ]

  predicate IsConfirmation(message: string) {
    ContainsAny(Lower(message), ConfirmationKeywords)
  }

  /** The clone target an entry names, if any. */
  function TargetOf(m: Message): Option<string> {
    Architect.DetectDesignTarget(Content(m))
  }

  /** The index of the first entry, of any role, that names a target. */
  function FirstTargetIndex(conv: seq<Message>): (r: Option<nat>)
    ensures r.Some? ==> r.value < |conv| && TargetOf(conv[r.value]).Some?
    ensures forall j | 0 <= j < (if r.Some? then r.value else |conv|) :: TargetOf(conv[j]).None?
  {
    if conv == [] then None
    else if TargetOf(conv[0]).Some? then Some(0)
    else
      var r := FirstTargetIndex(conv[1..]);
      assert forall i | 1 <= i < |conv| :: conv[i] == conv[1..][i - 1];
      if r.Some? then Some(r.value + 1) else None
  }

  /** `get_design_target`: the target of the first entry, of any role, that names one. */
  function FirstTarget(conv: seq<Message>): (r: Option<string>)
    ensures r.None? <==> forall i | 0 <= i < |conv| :: TargetOf(conv[i]).None?
    ensures r.Some? ==>
              exists i | 0 <= i < |conv| :: r == TargetOf(conv[i]) && forall j | 0 <= j < i :: TargetOf(conv[j]).None?
  {
    match FirstTargetIndex(conv)
    case None => None
    case Some(i) => TargetOf(conv[i])
  }

  // ---------------------------------------------------------------------
  // JSON extraction

  /**
   * The consultant's `_clean_json`: an error only when a brace is missing
   * altogether; when the last '}' comes before the first '{' the slice is
   * empty, and the trailing-comma passes run on whatever was cut.
   */
  function CleanJson(text: string): (r: Result<string, string>)
    ensures r.Err? <==> Find(text, '{').None? || RFind(text, '}').None?
    ensures r.Ok? && Find(text, '{').value > RFind(text, '}').value ==> r.value == ""
  {
    match (Find(text, '{'), RFind(text, '}'))
    case (Some(first), Some(last)) =>
      if first <= last then Ok(Architect.Repair(text[first..last + 1]))
      else Ok(Architect.Repair(""))
    case _ => Err("No JSON in response: " + Prefix(text, 200))
  }

  /** Where the architect finds an object that parses after repair, the consultant cuts out the same text. */
  lemma {:induction false} CleanJsonAgrees(text: string, parses: string -> bool)
    requires Architect.Candidate(text).Some?
    requires parses(Architect.Repair(Architect.Candidate(text).value))
    ensures CleanJson(text) == Architect.CleanJson(text, parses)
  {
  }

  /** A reply whose only braces are in the wrong order is an error for the architect but the empty string here. */
  lemma {:induction false} CleanJsonDisagrees(parses: string -> bool)
    ensures CleanJson("}{") == Ok("")
    ensures Architect.CleanJson("}{", parses).Err?
  {
    assert Find("}{", '{') == Some(1);
    assert RFind("}{", '}') == Some(0);
  }

  // ---------------------------------------------------------------------
  // Analysis

  datatype ConsultantResponse = ConsultantResponse(
    status: string,
    question: Option<string>,
    proposedStack: Option<string>,
    designTarget: Option<string>,
    speech: string,
    features: seq<string>,
    confidence: real)

  /**
   * One key of the model's JSON object as `result.get` finds it and as
   * pydantic judges it: absent, JSON null, a value the field accepts (after
   * pydantic's coercion), or a value it rejects, with whether Python finds
   * that value falsy.
   */
  datatype Field<T> = Absent | Null | Given(value: T) | IllTyped(falsy: bool)

  /** The keys the consultant reads from the model's JSON object. */
  datatype ReplyFields = ReplyFields(
    status: Field<string>,
    question: Field<string>,
    proposedStack: Field<string>,
    designTarget: Field<string>,
    speech: Field<string>,
    features: Field<seq<string>>,
    confidence: Field<real>)

  /** The model's HTTP answer, by how far its body can be read. */
  datatype Body = Text(text: string) | NotJson | MissingKey | EmptyContent

  datatype Reply = Reply(statusCode: int, body: Body)

  /** What escapes `analyze` instead of a response: the parser's own error,
      an index error on an empty content list, or pydantic's ValidationError
      on a key's value. */
  datatype Escaped = NoJson(message: string) | IndexError | ValidationError

  /** A response asking the user to try again. */
  function NeedsInput(question: string, speech: string): (r: ConsultantResponse)
    ensures r.status == "NEEDS_INPUT" && r.confidence == 0.0
  {
    ConsultantResponse("NEEDS_INPUT", Some(question), None, None, speech, [], 0.0)
  }

  /** The go-ahead response: build a Next.js app, with full confidence. */
  function ReadyToBuild(target: Option<string>): ConsultantResponse {
    ConsultantResponse("READY_TO_BUILD", None, Some("next.js"), target, "Copy. Building now.", [], 1.0)
  }

  /** `result.get(key, default)` for a key that is given or absent. */
  function ValueOr<T>(f: Field<T>, default: T): T {
    if f.Given? then f.value else default
  }

  /** `result.get(key)` for a field declared `str | None`. */
  function OptionOf<T>(f: Field<T>): Option<T> {
    if f.Given? then Some(f.value) else None
  }

  /** Whether pydantic takes what `result.get` handed it: never a value of
      the wrong type, and JSON null only for a field declared `| None`. */
  predicate Accepts<T>(f: Field<T>, nullable: bool) {
    !f.IllTyped? && (nullable || !f.Null?)
  }

  /** Whether `result.get("design_target")` is truthy. */
  predicate TargetGiven(f: Field<string>) {
    (f.Given? && f.value != "") || (f.IllTyped? && !f.falsy)
  }

  /** The design_target key after the local override: a detected target replaces a falsy one. */
  function TargetAfterOverride(f: Field<string>, detected: Option<string>): Field<string> {
    if IsSet(detected) && !TargetGiven(f) then Given(detected.value) else f
  }

  /**
   * The replies `ConsultantResponse` validates: `status`, `speech`,
   * `features` and `confidence` absent (their defaults apply) or well typed,
   * `question` and `proposed_stack` anything but ill-typed, and a design
   * target that is not ill-typed unless it is falsy and a detected target
   * replaces it.
   */
  predicate Validates(f: ReplyFields, detected: Option<string>) {
    && (f.status.Absent? || f.status.Given?)
    && (f.speech.Absent? || f.speech.Given?)
    && (f.features.Absent? || f.features.Given?)
    && (f.confidence.Absent? || f.confidence.Given?)
    && !f.question.IllTyped? && !f.proposedStack.IllTyped?
    && (f.designTarget.IllTyped? ==> f.designTarget.falsy && IsSet(detected))
  }

  /** The response built from the model's keys, with the locally detected
      target filling a falsy one; pydantic refuses a null required key and
      an ill-typed value. */
  function FromFields(f: ReplyFields, detected: Option<string>): (r: Result<ConsultantResponse, Escaped>)
    ensures r.Ok? <==> Validates(f, detected)
    ensures r.Err? ==> r.error == ValidationError
    ensures r.Ok? ==>
              && r.value.status == ValueOr(f.status, "NEEDS_INPUT")
              && r.value.question == OptionOf(f.question)
              && r.value.proposedStack == OptionOf(f.proposedStack)
              && r.value.speech == ValueOr(f.speech, "Please provide more details.")
              && r.value.features == ValueOr(f.features, [])
              && r.value.confidence == ValueOr(f.confidence, 0.5)
    ensures r.Ok? && f.designTarget.Given? && f.designTarget.value != "" ==> r.value.designTarget == Some(f.designTarget.value)
    ensures r.Ok? && !TargetGiven(f.designTarget) && IsSet(detected) ==> r.value.designTarget == detected
    ensures r.Ok? && !TargetGiven(f.designTarget) && !IsSet(detected) ==> r.value.designTarget == OptionOf(f.designTarget)
  {
    var target := TargetAfterOverride(f.designTarget, detected);
    if && Accepts(f.status, false) && Accepts(f.question, true) && Accepts(f.proposedStack, true)
       && Accepts(target, true) && Accepts(f.speech, false) && Accepts(f.features, false)
       && Accepts(f.confidence, false)
    then
      Ok(ConsultantResponse(
        ValueOr(f.status, "NEEDS_INPUT"), OptionOf(f.question), OptionOf(f.proposedStack), OptionOf(target),
        ValueOr(f.speech, "Please provide more details."), ValueOr(f.features, []), ValueOr(f.confidence, 0.5)))
    else Err(ValidationError)
  }

  /** The answer to a request that failed, including a 200 reply whose body
      is not JSON: `response.json()` raises `requests`' own JSON error, which
      is a `RequestException` and meets that handler first. */
  function ConnectionFailed(): ConsultantResponse {
    NeedsInput("Connection failed. Please try again.", "Connection error.")
  }

  /** The answer to a reply without the expected keys or whose JSON does not load. */
  function Unreadable(): ConsultantResponse {
    NeedsInput("I couldn't understand. Please rephrase.", "Please rephrase your request.")
  }

  /** `analyze` asks the model: the conversation is not a go-ahead. */
  predicate Consults(conv: seq<Message>) {
    !(IsConfirmation(LatestUserMessage(conv)) && |conv| > 1)
  }

  /**
   * `analyze`: a confirming latest message in a conversation of more than
   * one entry short-circuits without calling the model; otherwise the
   * model's reply is read, and every failure the code catches becomes a
   * NEEDS_INPUT response.
   */
  function Analyze(conv: seq<Message>, call: seq<Message> -> Result<Reply, string>,
                   read: string -> Option<ReplyFields>): (r: Result<ConsultantResponse, Escaped>)
    ensures !Consults(conv) ==>
              r.Ok? && r.value.status == "READY_TO_BUILD" && r.value.confidence == 1.0
              && r.value.proposedStack == Some("next.js")
    ensures r.Ok? && r.value.status == "READY_TO_BUILD" && r.value.confidence == 1.0 && r.value.speech == "Copy. Building now." ==>
              !Consults(conv) || call(conv).Ok?
    // a failed request, and a 200 reply that is not JSON, ask to try again
    ensures Consults(conv) && (call(conv).Err? || (call(conv).value.statusCode == 200 && call(conv).value.body.NotJson?)) ==>
              r == Ok(ConnectionFailed())
    // any other status asks to rephrase, with zero confidence
    ensures Consults(conv) && call(conv).Ok? && call(conv).value.statusCode != 200 ==>
              r.Ok? && r.value.status == "NEEDS_INPUT" && r.value.confidence == 0.0
              && r.value.speech == "Connection issue. Please try again."
    // missing keys, and JSON that does not load, ask to rephrase
    ensures Consults(conv) && call(conv).Ok? && call(conv).value.statusCode == 200 &&
            (|| call(conv).value.body.MissingKey?
             || (&& call(conv).value.body.Text? && CleanJson(call(conv).value.body.text).Ok?
                 && read(CleanJson(call(conv).value.body.text).value).None?)) ==>
              r == Ok(Unreadable())
    // a reply whose keys load is answered from them, or escapes with pydantic's error
    ensures Consults(conv) && call(conv).Ok? && call(conv).value.statusCode == 200
            && call(conv).value.body.Text? && CleanJson(call(conv).value.body.text).Ok?
            && read(CleanJson(call(conv).value.body.text).value).Some?
            ==> r == FromFields(read(CleanJson(call(conv).value.body.text).value).value,
                                Architect.DetectDesignTarget(LatestUserMessage(conv)))
    // only an empty content list, a reply without braces and keys pydantic refuses escape
    ensures r.Err? <==>
              && Consults(conv) && call(conv).Ok? && call(conv).value.statusCode == 200
              && (|| call(conv).value.body.EmptyContent?
                  || (call(conv).value.body.Text? && CleanJson(call(conv).value.body.text).Err?)
                  || (&& call(conv).value.body.Text? && CleanJson(call(conv).value.body.text).Ok?
                      && read(CleanJson(call(conv).value.body.text).value).Some?
                      && !Validates(read(CleanJson(call(conv).value.body.text).value).value,
                                    Architect.DetectDesignTarget(LatestUserMessage(conv)))))
  {
    var latest := LatestUserMessage(conv);
    var detected := Architect.DetectDesignTarget(latest);
    if IsConfirmation(latest) && |conv| > 1 then
      var first := FirstTarget(conv);
      Ok(ReadyToBuild(if first.Some? then first else detected))
    else
      match call(conv)
      case Err(_) => Ok(ConnectionFailed())
      case Ok(reply) => AnswerReply(reply, read, detected)
  }

  /** The `try` block after the request returned: the status check, the body
      read, the JSON clean-up and the model's keys. */
  function AnswerReply(reply: Reply, read: string -> Option<ReplyFields>, detected: Option<string>)
    : (r: Result<ConsultantResponse, Escaped>)
    ensures reply.statusCode == 200 && reply.body.NotJson? ==> r == Ok(ConnectionFailed())
    ensures reply.statusCode != 200 ==>
              r.Ok? && r.value.status == "NEEDS_INPUT" && r.value.confidence == 0.0
              && r.value.speech == "Connection issue. Please try again."
    ensures reply.statusCode == 200 &&
            (|| reply.body.MissingKey?
             || (reply.body.Text? && CleanJson(reply.body.text).Ok? && read(CleanJson(reply.body.text).value).None?)) ==>
              r == Ok(Unreadable())
    ensures reply.statusCode == 200 && reply.body.Text? && CleanJson(reply.body.text).Ok?
            && read(CleanJson(reply.body.text).value).Some?
            ==> r == FromFields(read(CleanJson(reply.body.text).value).value, detected)
    ensures r.Err? <==>
              reply.statusCode == 200
              && (|| reply.body.EmptyContent?
                  || (reply.body.Text? && CleanJson(reply.body.text).Err?)
                  || (&& reply.body.Text? && CleanJson(reply.body.text).Ok?
                      && read(CleanJson(reply.body.text).value).Some?
                      && !Validates(read(CleanJson(reply.body.text).value).value, detected)))
  {
    if reply.statusCode != 200 then
      Ok(ConsultantResponse("NEEDS_INPUT", Some("I'm having trouble. Please rephrase your request."),
                            None, None, "Connection issue. Please try again.", [], 0.0))
    else match reply.body
      case NotJson => Ok(ConnectionFailed())
      case MissingKey => Ok(Unreadable())
      case EmptyContent => Err(IndexError)
      case Text(text) =>
        match CleanJson(text)
        case Err(message) => Err(NoJson(message))
        case Ok(json) =>
          match read(json)
          case None => Ok(Unreadable())
          case Some(fields) => FromFields(fields, detected)
  }

  /** A go-ahead never reaches the model: any two endpoints give the same answer. */
  lemma {:induction false} ConfirmationSkipsModel(conv: seq<Message>, call1: seq<Message> -> Result<Reply, string>,
                               call2: seq<Message> -> Result<Reply, string>, read: string -> Option<ReplyFields>)
    requires IsConfirmation(LatestUserMessage(conv)) && |conv| > 1
    ensures Analyze(conv, call1, read) == Analyze(conv, call2, read)
  {
  }

  /** No keyword occurs in the empty string. */
  lemma {:induction false} NothingInEmpty()
    ensures Architect.DetectDesignTarget("").None?
  {
    assert Lower("") == "";
    forall k | 0 <= k < |Architect.KeywordMap| ensures !ContainsAny("", Architect.KeywordMap[k].1) {
      forall j | 0 <= j < |Architect.KeywordMap[k].1| ensures !Contains("", Architect.KeywordMap[k].1[j]) {
        assert |Architect.KeywordMap[k].1[j]| > 0;
      }
    }
  }

  /** The go-ahead's design target is the conversation's first named target, as `get_design_target` reports it. */
  lemma {:induction false} ConfirmationTargetIsFirst(conv: seq<Message>, call: seq<Message> -> Result<Reply, string>,
                                  read: string -> Option<ReplyFields>)
    requires IsConfirmation(LatestUserMessage(conv)) && |conv| > 1
    ensures Analyze(conv, call, read) == Ok(ReadyToBuild(FirstTarget(conv)))
  {
    if FirstTarget(conv).None? {
      var latest := LatestUserMessage(conv);
      if exists i | 0 <= i < |conv| :: IsUser(conv[i]) {
        var i :| 0 <= i < |conv| && IsUser(conv[i]) && latest == Content(conv[i]);
      } else {
        NothingInEmpty();
      }
    }
  }

  /** A reply whose keys load is answered exactly when pydantic validates
      them; a design target in it is kept, and the locally detected one only
      fills a falsy one. */
  lemma {:induction false} ModelTargetWins(conv: seq<Message>, call: seq<Message> -> Result<Reply, string>,
                        read: string -> Option<ReplyFields>, text: string, fields: ReplyFields)
    requires !(IsConfirmation(LatestUserMessage(conv)) && |conv| > 1)
    requires call(conv) == Ok(Reply(200, Text(text)))
    requires CleanJson(text).Ok? && read(CleanJson(text).value) == Some(fields)
    ensures Analyze(conv, call, read).Ok? <==> Validates(fields, Architect.DetectDesignTarget(LatestUserMessage(conv)))
    ensures Analyze(conv, call, read).Err? ==> Analyze(conv, call, read).error == ValidationError
    ensures Analyze(conv, call, read).Ok? && fields.designTarget.Given? && fields.designTarget.value != "" ==>
              Analyze(conv, call, read).value.designTarget == Some(fields.designTarget.value)
    ensures Analyze(conv, call, read).Ok? && !TargetGiven(fields.designTarget)
            && IsSet(Architect.DetectDesignTarget(LatestUserMessage(conv))) ==>
              Analyze(conv, call, read).value.designTarget == Architect.DetectDesignTarget(LatestUserMessage(conv))
  {
  }

  // ---------------------------------------------------------------------
  // Build prompt

  /** The bare go-ahead words `get_build_prompt` leaves out. */
  const BareConfirmations: seq<string> := ["yes", "ok", "proceed", "go", "sure", "build"]

  predicate IsBareConfirmation(message: string) {
    Strip(Lower(message)) in BareConfirmations
  }

  /** The user messages that go into the build prompt, in order. */
  function PromptMessages(conv: seq<Message>): (r: seq<string>)
    ensures |r| <= |conv|
    ensures forall k | 0 <= k < |r| :: !IsBareConfirmation(r[k])
  {
    if conv == [] then []
    else
      (if IsUser(conv[0]) && !IsBareConfirmation(Content(conv[0])) then [Content(conv[0])] else [])
        + PromptMessages(conv[1..])
  }

  /** `get_build_prompt`: the kept user messages joined by single spaces. */
  function GetBuildPrompt(conv: seq<Message>): string {
    Join(" ", PromptMessages(conv))
  }

  lemma {:induction false} PromptMessagesAppend(a: seq<Message>, b: seq<Message>)
    ensures PromptMessages(a + b) == PromptMessages(a) + PromptMessages(b)
  {
    if a == [] {
      assert a + b == b;
    } else {
      assert (a + b)[0] == a[0];
      assert (a + b)[1..] == a[1..] + b;
      PromptMessagesAppend(a[1..], b);
    }
  }

  lemma {:induction false} JoinSnoc(sep: string, parts: seq<string>, x: string)
    ensures Join(sep, parts + [x]) == if parts == [] then x else Join(sep, parts) + sep + x
  {
    if parts != [] && |parts| > 1 {
      assert (parts + [x])[1..] == parts[1..] + [x];
      JoinSnoc(sep, parts[1..], x);
    } else if |parts| == 1 {
      assert parts + [x] == [parts[0], x];
      assert [parts[0], x][1..] == [x];
    }
  }

  /** A one-entry conversation contributes its content exactly when it is kept. */
  lemma {:induction false} PromptMessagesOfOne(m: Message)
    ensures PromptMessages([m]) == if IsUser(m) && !IsBareConfirmation(Content(m)) then [Content(m)] else []
  {
    assert [m][0] == m;
    assert [m][1..] == [];
  }

  /**
   * Each further entry changes the build prompt only if it is a user message
   * that is not a bare go-ahead, and then appends it after one space.
   */
  lemma {:induction false} BuildPromptGrows(conv: seq<Message>, m: Message)
    ensures IsUser(m) && !IsBareConfirmation(Content(m)) ==>
              GetBuildPrompt(conv + [m]) ==
                (if PromptMessages(conv) == [] then Content(m) else GetBuildPrompt(conv) + " " + Content(m))
    ensures !(IsUser(m) && !IsBareConfirmation(Content(m))) ==> GetBuildPrompt(conv + [m]) == GetBuildPrompt(conv)
  {
    var before := PromptMessages(conv);
    PromptMessagesAppend(conv, [m]);
    PromptMessagesOfOne(m);
    if IsUser(m) && !IsBareConfirmation(Content(m)) {
      JoinSnoc(" ", before, Content(m));
    } else {
      assert PromptMessages(conv + [m]) == before + [];
      assert before + [] == before;
    }
  }
}

=== FILE: deployer.dfy ===
/** The Vercel deployer: configuration check, production-URL extraction from
    the CLI output, project-name sanitising and the error exits of a
    deployment. The container's command execution is the collaborator
    `exec`, mapping a shell command to its exit code and output. */
module Deployer {
  import opened Wrappers
  import opened Text

  /** `is_configured`: a Vercel token is set and non-empty. */
  predicate IsConfigured(token: Option<string>) {
    IsSet(token)
  }

  const ProductionMarker := "Production: https://"
  const HttpsPrefix := "https://"
  const VercelSuffix := ".vercel.app"

  /** A character of the class `[a-zA-Z0-9-]`. */
  predicate IsHostChar(c: char) {
    IsLetter(c) || IsDigit(c) || c == '-'
  }

  /** Length of the maximal run of characters satisfying `p` at `from`. */
  function RunLength(s: string, from: nat, p: char -> bool): (n: nat)
    requires from <= |s|
    ensures from + n <= |s|
    ensures forall i :: from <= i < from + n ==> p(s[i])
    ensures from + n < |s| ==> !p(s[from + n])
    decreases |s| - from
  {
    if from == |s| || !p(s[from]) then 0 else 1 + RunLength(s, from + 1, p)
  }

  predicate NotSpace(c: char) { !IsSpace(c) }

  /** `Production: (https://[^\s]+)` matches at `i`. */
  predicate ProductionAt(s: string, i: nat) {
    OccursAt(s, ProductionMarker, i) && i + |ProductionMarker| < |s|
    && NotSpace(s[i + |ProductionMarker|])
  }

  /** The URL captured by a production match at `i`. */
  function ProductionUrl(s: string, i: nat): (url: string)
    requires ProductionAt(s, i)
    ensures StartsWith(url, HttpsPrefix) && OccursAt(s, url, i + |"Production: "|)
    ensures forall k :: 0 <= k < |url| ==> !IsSpace(url[k])
  {
    var start := i + |"Production: "|;
    var n := RunLength(s, i + |ProductionMarker|, NotSpace);
    var url := s[start..i + |ProductionMarker| + n];
    assert s[i..i + |ProductionMarker|] == ProductionMarker;
    assert ProductionMarker[12..] == HttpsPrefix;
    assert s[start..i + |ProductionMarker|] == ProductionMarker[12..];
    assert url[..|HttpsPrefix|] == s[start..i + |ProductionMarker|];
    forall k | 0 <= k < |url| ensures !IsSpace(url[k]) {
      if k < |HttpsPrefix| { assert url[k] == HttpsPrefix[k]; }
      else { assert url[k] == s[start + k]; }
    }
    url
  }

  /** `https://[a-zA-Z0-9-]+\.vercel\.app` matches at `i`. The host run is
      maximal: '.' is outside the class, so no shorter run can be followed
      by ".vercel.app". */
  predicate VercelAt(s: string, i: nat) {
    OccursAt(s, HttpsPrefix, i)
    && var n := RunLength(s, i + |HttpsPrefix|, IsHostChar);
       n >= 1 && OccursAt(s, VercelSuffix, i + |HttpsPrefix| + n)
  }

  function VercelUrl(s: string, i: nat): (url: string)
    requires VercelAt(s, i)
    ensures StartsWith(url, HttpsPrefix) && OccursAt(s, url, i)
    ensures forall k :: 0 <= k < |url| ==> !IsSpace(url[k])
  {
    var n := RunLength(s, i + |HttpsPrefix|, IsHostChar);
    var url := s[i..i + |HttpsPrefix| + n + |VercelSuffix|];
    assert url[..|HttpsPrefix|] == s[i..i + |HttpsPrefix|];
    assert url[|HttpsPrefix| + n..] == s[i + |HttpsPrefix| + n..i + |HttpsPrefix| + n + |VercelSuffix|];
    forall k | 0 <= k < |url| ensures !IsSpace(url[k]) {
      if k < |HttpsPrefix| { assert url[k] == HttpsPrefix[k]; }
      else if k < |HttpsPrefix| + n { assert url[k] == s[i + k] && IsHostChar(s[i + k]); }
      else { assert url[k] == VercelSuffix[k - |HttpsPrefix| - n]; }
    }
    url
  }

  /** The leftmost index at or after `from` where `p` holds: `re.search`. */
  function Leftmost(s: string, from: nat, p: (string, nat) -> bool): (r: Option<nat>)
    requires from <= |s| + 1
    ensures r.Some? ==> from <= r.value <= |s| && p(s, r.value)
    ensures r.Some? ==> forall j :: from <= j < r.value ==> !p(s, j)
    ensures r.None? ==> forall j :: from <= j <= |s| ==> !p(s, j)
    decreases |s| + 1 - from
  {
    if from > |s| then None
    else if p(s, from) then Some(from)
    else Leftmost(s, from + 1, p)
  }

  /** `_parse_vercel_url`: the leftmost production URL if there is one,
      otherwise the leftmost `*.vercel.app` URL, otherwise None. */
  function ParseVercelUrl(output: string): (r: Option<string>)
    ensures r.Some? ==> StartsWith(r.value, HttpsPrefix)
    ensures r.Some? ==> exists i :: OccursAt(output, r.value, i)
    ensures r.Some? ==> forall k :: 0 <= k < |r.value| ==> !IsSpace(r.value[k])
    ensures r.None? <==> (forall i :: 0 <= i <= |output| ==> !ProductionAt(output, i) && !VercelAt(output, i))
  {
    match Leftmost(output, 0, ProductionAt)
    case Some(i) => Some(ProductionUrl(output, i))
    case None =>
      match Leftmost(output, 0, VercelAt)
      case Some(i) => Some(VercelUrl(output, i))
      case None => None
  }

  /** The most specific pattern wins: a production URL, when there is one,
      is the one returned, and it is the leftmost. */
  lemma {:induction false} ProductionFirst(output: string)
    ensures (exists i: nat :: ProductionAt(output, i)) ==>
              exists i: nat :: && ProductionAt(output, i) && (forall j: nat :: j < i ==> !ProductionAt(output, j))
                               && ParseVercelUrl(output) == Some(ProductionUrl(output, i))
  {
    var p := Leftmost(output, 0, ProductionAt);
    if p.Some? {
      assert ParseVercelUrl(output) == Some(ProductionUrl(output, p.value));
    }
  }

  /** Only without a production URL, the leftmost vercel.app URL is returned. */
  lemma {:induction false} VercelFallback(output: string)
    ensures (forall i :: 0 <= i <= |output| ==> !ProductionAt(output, i)) && (exists i: nat :: VercelAt(output, i)) ==>
              exists i: nat :: && VercelAt(output, i) && (forall j: nat :: j < i ==> !VercelAt(output, j))
                               && ParseVercelUrl(output) == Some(VercelUrl(output, i))
  {
    var p := Leftmost(output, 0, ProductionAt);
    var v := Leftmost(output, 0, VercelAt);
    if p.None? && v.Some? {
      assert ParseVercelUrl(output) == Some(VercelUrl(output, v.value));
    }
  }

  /** A production line at the start of the output yields exactly its URL. */
  lemma {:induction false} ProductionLineParsed(host: string, rest: string)
    requires host != [] && forall k :: 0 <= k < |host| ==> !IsSpace(host[k])
    ensures ParseVercelUrl("Production: " + HttpsPrefix + host + "\n" + rest) == Some(HttpsPrefix + host)
  {
    var s := "Production: " + HttpsPrefix + host + "\n" + rest;
    var m := |ProductionMarker|;
    assert s[..m] == ProductionMarker;
    assert ProductionAt(s, 0);
    var n := RunLength(s, m, NotSpace);
    forall k | m <= k < m + |host| ensures NotSpace(s[k]) { assert s[k] == host[k - m]; }
    assert s[m + |host|] == '\n';
    assert s[|"Production: "|..m + n] == HttpsPrefix + host;
  }

  /** `re.sub(r'[^a-zA-Z0-9-]', '-', name.lower())` on one character. */
  function SanitizeChar(c: char): (r: char)
    ensures IsLower(r) || IsDigit(r) || r == '-'
    ensures IsHostChar(c) ==> r == LowerChar(c)
    ensures !IsHostChar(c) ==> r == '-'
  {
    var l := LowerChar(c);
    if IsHostChar(l) then l else '-'
  }

  /** The sanitised Vercel project name. */
  function SanitizeName(name: string): (r: string)
    ensures |r| == |name|
    ensures forall i :: 0 <= i < |r| ==> IsLower(r[i]) || IsDigit(r[i]) || r[i] == '-'
    ensures forall i :: 0 <= i < |r| ==> r[i] == SanitizeChar(name[i])
  {
    seq(|name|, i requires 0 <= i < |name| => SanitizeChar(name[i]))
  }

  /** Sanitising is idempotent, and it changes nothing on a name already made
      of lower-case letters, digits and '-'. */
  lemma {:induction false} SanitizeFixesSafeNames(name: string)
    ensures SanitizeName(SanitizeName(name)) == SanitizeName(name)
    ensures (forall i :: 0 <= i < |name| ==> IsLower(name[i]) || IsDigit(name[i]) || name[i] == '-')
            ==> SanitizeName(name) == name
  {
  }

  datatype DeployError =
    | NotConfigured
    | DeployFailed(output: string)
    | UrlNotFound

  /** The `DeploymentError` message. */
  function Message(e: DeployError): string {
    match e
    case NotConfigured => "VERCEL_TOKEN not configured"
    case DeployFailed(output) => "Vercel deployment failed: " + output
    case UrlNotFound => "Deployment succeeded but URL not found in output"
  }

  function LinkCommand(token: string): string {
    "vercel link --yes --token " + token
  }

  function DeployCommand(token: string, safeName: string): string {
    "vercel deploy --prod --yes --token " + token + " --name " + safeName
  }

  /** `deploy_mission`: no token is an error before any command runs; the
      link step's outcome is ignored; a non-zero deploy exit is an error
      carrying the first 500 characters of the output; a deploy whose output
      holds no URL is an error; otherwise the parsed URL. */
  function DeployMission(token: Option<string>, projectName: string,
                         exec: string -> (int, string)): (r: Result<string, DeployError>)
    ensures !IsConfigured(token) <==> r == Err(NotConfigured)
    ensures IsConfigured(token) ==>
      var (code, out) := exec(DeployCommand(token.value, SanitizeName(projectName)));
      && (code != 0 ==> r == Err(DeployFailed(Prefix(out, 500))))
      && (code == 0 ==> (r.Ok? <==> ParseVercelUrl(out).Some?))
      && (code == 0 && r.Ok? ==> r.value == ParseVercelUrl(out).value)
      && (code == 0 && r.Err? ==> r.error == UrlNotFound)
  {
    if !IsConfigured(token) then Err(NotConfigured)
    else
      var _ := exec(LinkCommand(token.value));
      var (code, out) := exec(DeployCommand(token.value, SanitizeName(projectName)));
      if code != 0 then Err(DeployFailed(Prefix(out, 500)))
      else match ParseVercelUrl(out)
        case None => Err(UrlNotFound)
        case Some(url) => Ok(url)
  }

  /** The outcome depends only on the deploy command: two executors that
      agree on it give the same result, whatever the link step returned. */
  lemma {:induction false} LinkOutcomeIgnored(token: Option<string>, projectName: string,
                           exec1: string -> (int, string), exec2: string -> (int, string))
    requires IsConfigured(token) ==>
      exec1(DeployCommand(token.value, SanitizeName(projectName))) ==
      exec2(DeployCommand(token.value, SanitizeName(projectName)))
    ensures DeployMission(token, projectName, exec1) == DeployMission(token, projectName, exec2)
  {
  }
}

=== FILE: evidence.dfy ===
/** The evidence pack of a mission (`BlackBox`): an append-only flight log
    kept in memory and a folder holding the manifest, the audit verdict files
    and the saved flight recorder. The folder outlives one `BlackBox`: every
    build attempt of a mission writes into the same folder and overwrites the
    files it writes. Timestamps are not modelled. */
module Evidence {
  import opened Wrappers
  import opened Text
  import opened Manifest

  /** One flight-recorder entry: an event name and optional details. */
  datatype Entry = Entry(event: string, details: Option<string>)

  /** The files of a mission folder, as last written. */
  datatype Folder = Folder(
    manifest: Option<GantryManifest>,
    auditPass: Option<string>,            // audit_pass.json: verdict PASS and the audit output
    auditFail: Option<(int, string)>,     // audit_fail.json: verdict FAIL, exit code, output
    recorder: Option<seq<Entry>>)         // flight_recorder.json

  const EmptyFolder := Folder(None, None, None, None)

  datatype BlackBox = BlackBox(log: seq<Entry>, folder: Folder)

  /** `BlackBox(mission_id)`: an empty log over the mission's (possibly
      already populated) folder. */
  function Open(folder: Folder): (b: BlackBox)
    ensures b.log == [] && b.folder == folder
  {
    BlackBox([], folder)
  }

  /** `log`: appends exactly one entry and leaves the folder alone. */
  function Log(b: BlackBox, event: string, details: Option<string>): (r: BlackBox)
    ensures |r.log| == |b.log| + 1
    ensures r.log[..|b.log|] == b.log && r.log[|b.log|] == Entry(event, details)
    ensures r.folder == b.folder
  {
    BlackBox(b.log + [Entry(event, details)], b.folder)
  }

  /** `save_manifest`: writes manifest.json, then logs MANIFEST_SAVED. */
  function SaveManifest(b: BlackBox, m: GantryManifest): (r: BlackBox)
    ensures r.folder == b.folder.(manifest := Some(m))
    ensures r.log == b.log + [Entry("MANIFEST_SAVED", Some("manifest.json"))]
  {
    Log(b.(folder := b.folder.(manifest := Some(m))), "MANIFEST_SAVED", Some("manifest.json"))
  }

  /** `save_audit_pass`: writes audit_pass.json, then logs AUDIT_PASSED. */
  function SaveAuditPass(b: BlackBox, output: string): (r: BlackBox)
    ensures r.folder == b.folder.(auditPass := Some(output))
    ensures r.log == b.log + [Entry("AUDIT_PASSED", None)]
  {
    Log(b.(folder := b.folder.(auditPass := Some(output))), "AUDIT_PASSED", None)
  }

  /** `save_audit_fail`: writes audit_fail.json with the exit code, then logs
      AUDIT_FAILED naming that code. */
  function SaveAuditFail(b: BlackBox, exitCode: int, output: string): (r: BlackBox)
    ensures r.folder == b.folder.(auditFail := Some((exitCode, output)))
    ensures r.log == b.log + [Entry("AUDIT_FAILED", Some("Exit code: " + IntToString(exitCode)))]
  {
    Log(b.(folder := b.folder.(auditFail := Some((exitCode, output)))),
        "AUDIT_FAILED", Some("Exit code: " + IntToString(exitCode)))
  }

  /** `finalize`: the flight recorder receives the whole log in insertion
      order; the log itself is unchanged. */
  function Finalize(b: BlackBox): (r: BlackBox)
    ensures r.log == b.log
    ensures r.folder.recorder == Some(b.log)
    ensures r.folder.(recorder := b.folder.recorder) == b.folder
  {
    b.(folder := b.folder.(recorder := Some(b.log)))
  }

  /** Logging a sequence of events, one `log` call per event. */
  function LogAll(b: BlackBox, events: seq<Entry>): (r: BlackBox)
    ensures r.folder == b.folder
    decreases |events|
  {
    if events == [] then b
    else LogAll(Log(b, events[0].event, events[0].details), events[1..])
  }

  /** The log only grows: logging a batch of events leaves the earlier
      entries in place and appends the batch in order. */
  lemma {:induction false} LogAllAppends(b: BlackBox, events: seq<Entry>)
    ensures LogAll(b, events).log == b.log + events
    decreases |events|
  {
    if events != [] {
      var b' := Log(b, events[0].event, events[0].details);
      LogAllAppends(b', events[1..]);
      assert b'.log == b.log + [events[0]];
      assert [events[0]] + events[1..] == events;
    }
  }
}

=== FILE: fleet_v1.dfy ===
/**
 * The first-generation orchestrator: dispatch records a PENDING mission and
 * starts its run; the run drafts, checks policy, builds once, publishes when
 * the publisher is configured, and turns the first exception raised into a
 * terminal status through one table of handlers.
 */
module FleetV1 {
  import opened Wrappers
  import opened Text
  import opened Mission
  import Manifest
  import Policy
  import Foundry

  /** The collaborator calls the orchestrator makes; the build always deploys. */
  datatype Call =
    | Draft(prompt: string)
    | Check(manifest: Manifest.GantryManifest)
    | Build(manifest: Manifest.GantryManifest)
    | Publish(manifest: Manifest.GantryManifest)

  predicate IsBuild(k: Call) { k.Build? }

  /** What the architect does with a prompt: a manifest, its own error, or any other exception. */
  datatype DraftOutcome = Drafted(manifest: Manifest.GantryManifest) | ArchitectError | DraftCrashed

  /** What the publisher does: a repository URL, one of its two errors, or any other exception. */
  datatype PublishOutcome = Published(repoUrl: string) | SecurityBlocked | PublishError | PublishCrashed

  datatype Collaborators = Collaborators(
    draft: string -> DraftOutcome,
    policy: Policy.PolicyConfig,
    matches: (string, string) -> bool,
    build: Manifest.GantryManifest -> Foundry.Outcome,
    publisherConfigured: bool,
    publish: Manifest.GantryManifest -> PublishOutcome)

  /** The exceptions the run's handlers distinguish; everything else is `OtherError`. */
  datatype Raised =
    | ArchitectFailure
    | SecurityViolation
    | AuditFailure
    | BuildTimeout
    | SecurityBlock
    | PublishFailure
    | OtherError

  /** The handler table: the terminal status each exception is recorded as. */
  function StatusFor(e: Raised): (s: Status)
    ensures IsTerminal(s)
    ensures s == Failed <==> e.ArchitectFailure? || e.AuditFailure?
    ensures s == Blocked <==> e.SecurityViolation? || e.SecurityBlock?
    ensures s == Timeout <==> e.BuildTimeout?
    ensures s == PublishFailed <==> e.PublishFailure?
    ensures s == CriticalFailure <==> e.OtherError?
  {
    match e
    case ArchitectFailure => Failed
    case SecurityViolation => Blocked
    case AuditFailure => Failed
    case BuildTimeout => Timeout
    case SecurityBlock => Blocked
    case PublishFailure => PublishFailed
    case OtherError => CriticalFailure
  }

  /** The status of a run that raised nothing: a live URL or a pushed repository both count as deployed. */
  function SuccessStatus(deployUrl: Option<string>, repoUrl: Option<string>): (s: Status)
    ensures IsTerminal(s)
    ensures s == Deployed <==> IsSet(deployUrl) || IsSet(repoUrl)
    ensures s == Success <==> !IsSet(deployUrl) && !IsSet(repoUrl)
  {
    if IsSet(deployUrl) then Deployed
    else if IsSet(repoUrl) then Deployed
    else Success
  }

  /** A status update immediately followed by the call it announces. */
  datatype Phase = Phase(status: Status, call: Call)

  /** The URLs a run that raised nothing ends with. */
  datatype Urls = Urls(deployUrl: Option<string>, repoUrl: Option<string>)

  /** The body of the run: the phases it entered and how it left. */
  datatype Pipeline = Pipeline(phases: seq<Phase>, outcome: Result<Urls, Raised>)

  /** The order the run announces its phases in. */
  const Order: seq<Status> := [Architecting, Validating, Building, Publishing]

  /** The draft came back and passed the policy check, so the run builds. */
  predicate Proceeds(c: Collaborators, prompt: string) {
    c.draft(prompt).Drafted? && Policy.Validate(c.policy, c.draft(prompt).manifest, c.matches).Ok?
  }

  /** The build passed and the publisher is configured, so the run publishes. */
  predicate Publishes(c: Collaborators, prompt: string) {
    Proceeds(c, prompt) && c.build(c.draft(prompt).manifest).Passed? && c.publisherConfigured
  }

  /** The build outcome of a drafted manifest. */
  function BuildOf(c: Collaborators, prompt: string): Foundry.Outcome
    requires c.draft(prompt).Drafted?
  {
    c.build(c.draft(prompt).manifest)
  }

  /** The publish outcome of a drafted manifest. */
  function PublishOf(c: Collaborators, prompt: string): PublishOutcome
    requires c.draft(prompt).Drafted?
  {
    c.publish(c.draft(prompt).manifest)
  }

  /**
   * The `try` block of a mission run. It announces a prefix of ARCHITECTING,
   * VALIDATING, BUILDING, PUBLISHING, builds exactly in the third phase, and
   * leaves with the first exception a collaborator raised or with the URLs.
   */
  function RunPipeline(c: Collaborators, prompt: string): (p: Pipeline)
    ensures 1 <= |p.phases| <= |Order|
    ensures forall i | 0 <= i < |p.phases| :: p.phases[i].status == Order[i]
    ensures forall i | 0 <= i < |p.phases| :: p.phases[i].call.Build? <==> i == 2
    ensures p.phases[0].call == Draft(prompt)
    ensures |p.phases| >= 2 <==> c.draft(prompt).Drafted?
    ensures |p.phases| >= 3 <==> Proceeds(c, prompt)
    ensures |p.phases| == 4 <==> Publishes(c, prompt)
    ensures p.outcome == Err(ArchitectFailure) <==> c.draft(prompt).ArchitectError?
    ensures p.outcome == Err(SecurityViolation) <==> c.draft(prompt).Drafted? && !Proceeds(c, prompt)
    ensures p.outcome == Err(AuditFailure) <==> Proceeds(c, prompt) && c.build(c.draft(prompt).manifest).AuditFailed?
    ensures p.outcome == Err(BuildTimeout) <==> Proceeds(c, prompt) && c.build(c.draft(prompt).manifest).TimedOut?
    ensures p.outcome == Err(SecurityBlock) <==> Publishes(c, prompt) && c.publish(c.draft(prompt).manifest).SecurityBlocked?
    ensures p.outcome == Err(PublishFailure) <==> Publishes(c, prompt) && c.publish(c.draft(prompt).manifest).PublishError?
    ensures p.outcome == Err(OtherError) <==>
              || c.draft(prompt).DraftCrashed?
              || (Proceeds(c, prompt) && c.build(c.draft(prompt).manifest).Crashed?)
              || (Publishes(c, prompt) && c.publish(c.draft(prompt).manifest).PublishCrashed?)
    ensures p.outcome.Ok? ==>
              && Proceeds(c, prompt) && c.build(c.draft(prompt).manifest).Passed?
              && p.outcome.value.deployUrl == c.build(c.draft(prompt).manifest).deployUrl
              && (c.publisherConfigured ==>
                    && c.publish(c.draft(prompt).manifest).Published?
                    && p.outcome.value.repoUrl == Some(c.publish(c.draft(prompt).manifest).repoUrl))
              && (!c.publisherConfigured ==> p.outcome.value.repoUrl == None)
    ensures p.outcome.Ok? <==>
              Proceeds(c, prompt) && c.build(c.draft(prompt).manifest).Passed?
              && (c.publisherConfigured ==> c.publish(c.draft(prompt).manifest).Published?)
  {
    var architect := [Phase(Architecting, Draft(prompt))];
    match c.draft(prompt)
    case ArchitectError => Pipeline(architect, Err(ArchitectFailure))
    case DraftCrashed => Pipeline(architect, Err(OtherError))
    case Drafted(m) =>
      var validate := architect + [Phase(Validating, Check(m))];
      if Policy.Validate(c.policy, m, c.matches).Err? then Pipeline(validate, Err(SecurityViolation))
      else
        var building := validate + [Phase(Building, Build(m))];
        match c.build(m)
        case AuditFailed(_, _) => Pipeline(building, Err(AuditFailure))
        case TimedOut => Pipeline(building, Err(BuildTimeout))
        case Crashed(_) => Pipeline(building, Err(OtherError))
        case Passed(deployUrl) =>
          if !c.publisherConfigured then Pipeline(building, Ok(Urls(deployUrl, None)))
          else
            var publishing := building + [Phase(Publishing, Publish(m))];
            match c.publish(m)
            case Published(url) => Pipeline(publishing, Ok(Urls(deployUrl, Some(url))))
            case SecurityBlocked => Pipeline(publishing, Err(SecurityBlock))
            case PublishError => Pipeline(publishing, Err(PublishFailure))
            case PublishCrashed => Pipeline(publishing, Err(OtherError))
  }

  /** The terminal status a pipeline ends with. */
  function FinalStatus(p: Pipeline): (s: Status)
    ensures IsTerminal(s)
  {
    match p.outcome
    case Ok(urls) => SuccessStatus(urls.deployUrl, urls.repoUrl)
    case Err(e) => StatusFor(e)
  }

  /** The steps a run of phases writes: each status, then its call. */
  function Steps(phases: seq<Phase>): (t: seq<Step<Call>>)
    ensures |t| == 2 * |phases|
  {
    if phases == [] then []
    else [Update(phases[0].status), Invoke(phases[0].call)] + Steps(phases[1..])
  }

  /** One mission: the pipeline's phases, then its terminal status. */
  function RunMission(c: Collaborators, prompt: string): seq<Step<Call>>
  {
    var p := RunPipeline(c, prompt);
    Steps(p.phases) + [Update(FinalStatus(p))]
  }

  /** The statuses of a run of phases are the phases' statuses, in order. */
  lemma {:induction false} StatusesOfSteps(phases: seq<Phase>)
    ensures |Statuses(Steps(phases))| == |phases|
    ensures forall i | 0 <= i < |phases| :: Statuses(Steps(phases))[i] == phases[i].status
  {
    if phases != [] {
      var head: seq<Step<Call>> := [Update(phases[0].status), Invoke(phases[0].call)];
      StatusesOfSteps(phases[1..]);
      StatusesOfPair(phases[0].status, phases[0].call);
      StatusesAppend(head, Steps(phases[1..]));
    }
  }

  /** A run of phases whose only build, if any, is at position `k` builds once or not at all. */
  lemma {:induction false} BuildsOfSteps(phases: seq<Phase>, k: int)
    requires forall i | 0 <= i < |phases| :: phases[i].call.Build? <==> i == k
    ensures CountCalls(Steps(phases), IsBuild) == (if 0 <= k < |phases| then 1 else 0)
  {
    if phases != [] {
      var head: seq<Step<Call>> := [Update(phases[0].status), Invoke(phases[0].call)];
      assert forall i | 0 <= i < |phases[1..]| :: phases[1..][i] == phases[i + 1];
      BuildsOfSteps(phases[1..], k - 1);
      CountCallsOfPair(phases[0].status, phases[0].call, IsBuild);
      CountCallsAppend(head, Steps(phases[1..]), IsBuild);
    }
  }

  /**
   * The statuses of every mission: a prefix of ARCHITECTING, VALIDATING,
   * BUILDING, PUBLISHING, as far as the run got, then one terminal status.
   */
  lemma {:induction false} MissionStatuses(c: Collaborators, prompt: string)
    ensures var s := Statuses(RunMission(c, prompt));
            && |s| == |RunPipeline(c, prompt).phases| + 1
            && s[..|s| - 1] == Order[..|s| - 1]
            && s[|s| - 1] == FinalStatus(RunPipeline(c, prompt))
  {
    var p := RunPipeline(c, prompt);
    StatusesOfSteps(p.phases);
    StatusesOfNote<Call>(FinalStatus(p));
    StatusesAppend(Steps(p.phases), [Update(FinalStatus(p))]);
    var s := Statuses(RunMission(c, prompt));
    assert s == Statuses(Steps(p.phases)) + [FinalStatus(p)];
    assert s[..|s| - 1] == Statuses(Steps(p.phases));
  }

  /** Every mission writes exactly one terminal status, and it is the last status written. */
  lemma {:induction false} RunEndsInOneTerminal(c: Collaborators, prompt: string)
    ensures EndsInOneTerminal(Statuses(RunMission(c, prompt)))
  {
    MissionStatuses(c, prompt);
    var s := Statuses(RunMission(c, prompt));
    forall i | 0 <= i < |s| - 1 ensures !IsTerminal(s[i]) {
      assert s[i] == s[..|s| - 1][i] == Order[i];
    }
  }

  /**
   * The terminal status of every mission, by the first exception raised:
   * the handler table, seen from the collaborators' outcomes.
   */
  lemma {:induction false} MissionOutcome(c: Collaborators, prompt: string)
    ensures var s := Statuses(RunMission(c, prompt));
            && |s| >= 1
            && (s[|s| - 1] == Failed <==>
                  c.draft(prompt).ArchitectError? || (Proceeds(c, prompt) && BuildOf(c, prompt).AuditFailed?))
            && (s[|s| - 1] == Blocked <==>
                  (c.draft(prompt).Drafted? && !Proceeds(c, prompt))
                  || (Publishes(c, prompt) && PublishOf(c, prompt).SecurityBlocked?))
            && (s[|s| - 1] == Timeout <==> Proceeds(c, prompt) && BuildOf(c, prompt).TimedOut?)
            && (s[|s| - 1] == PublishFailed <==> Publishes(c, prompt) && PublishOf(c, prompt).PublishError?)
            && (s[|s| - 1] == CriticalFailure <==>
                  || c.draft(prompt).DraftCrashed?
                  || (Proceeds(c, prompt) && BuildOf(c, prompt).Crashed?)
                  || (Publishes(c, prompt) && PublishOf(c, prompt).PublishCrashed?))
  {
    MissionStatuses(c, prompt);
  }

  /** A run that raised nothing is DEPLOYED exactly when it has a live URL or a repository URL. */
  lemma {:induction false} MissionSucceeds(c: Collaborators, prompt: string)
    requires Proceeds(c, prompt) && c.build(c.draft(prompt).manifest).Passed?
    requires c.publisherConfigured ==> c.publish(c.draft(prompt).manifest).Published?
    ensures var s := Statuses(RunMission(c, prompt));
            var m := c.draft(prompt).manifest;
            var repo := if c.publisherConfigured then Some(c.publish(m).repoUrl) else None;
            && |s| >= 1
            && (s[|s| - 1] == Deployed <==> IsSet(c.build(m).deployUrl) || IsSet(repo))
            && (s[|s| - 1] == Success <==> !IsSet(c.build(m).deployUrl) && !IsSet(repo))
  {
    MissionStatuses(c, prompt);
  }

  /** PUBLISHING is written exactly when the build passed and the publisher is configured. */
  lemma {:induction false} PublishingOnlyWhenConfigured(c: Collaborators, prompt: string)
    ensures Publishing in Statuses(RunMission(c, prompt)) <==> Publishes(c, prompt)
  {
    MissionStatuses(c, prompt);
    var s := Statuses(RunMission(c, prompt));
    var n := |s| - 1;
    assert s == Order[..n] + [s[n]] by {
      assert s == s[..n] + [s[n]];
    }
    PublishingInPrefix(n, s[n]);
  }

  /** PUBLISHING is among a prefix of the phase order closed by a terminal status exactly when the prefix is whole. */
  lemma {:induction false} PublishingInPrefix(n: nat, last: Status)
    requires n <= |Order| && IsTerminal(last)
    ensures Publishing in Order[..n] + [last] <==> n == |Order|
  {
    if n == |Order| {
      assert (Order[..n] + [last])[3] == Publishing;
    }
  }

  /** The mission builds once when the draft passes the policy check and never otherwise; there is no retry. */
  lemma {:induction false} SingleBuild(c: Collaborators, prompt: string)
    ensures CountCalls(RunMission(c, prompt), IsBuild) == (if Proceeds(c, prompt) then 1 else 0)
  {
    var p := RunPipeline(c, prompt);
    BuildsOfSteps(p.phases, 2);
    CountCallsOfNote<Call>(FinalStatus(p), IsBuild);
    CountCallsAppend(Steps(p.phases), [Update(FinalStatus(p))], IsBuild);
  }

  // ---------------------------------------------------------------------
  // Dispatch

  /** A row of the mission store. */
  datatype MissionRecord = MissionRecord(prompt: string, status: Status)

  /** What dispatch hands back: the new mission's id and the store with its record. */
  datatype Dispatched = Dispatched(id: string, store: map<string, MissionRecord>)

  /**
   * Dispatch records the mission as PENDING under a fresh id, leaves every
   * other record alone, and returns that id; the run starts afterwards.
   */
  function DispatchMission(store: map<string, MissionRecord>, freshId: string, prompt: string): (r: Dispatched)
    ensures r.id == freshId
    ensures r.id in r.store && r.store[r.id] == MissionRecord(prompt, Pending)
    ensures r.store.Keys == store.Keys + {freshId}
    ensures forall k :: k in store && k != freshId ==> r.store[k] == store[k]
  {
    Dispatched(freshId, store[freshId := MissionRecord(prompt, Pending)])
  }

  /** The statuses a dispatched mission's record goes through: PENDING, then the run's. */
  function History(c: Collaborators, prompt: string): seq<Status>
  {
    [Pending] + Statuses(RunMission(c, prompt))
  }

  /** A dispatched mission starts PENDING, moves to ARCHITECTING, and ends in one terminal status. */
  lemma {:induction false} HistoryStartsPending(c: Collaborators, prompt: string)
    ensures var h := History(c, prompt);
            && |h| >= 3 && h[0] == Pending && h[1] == Architecting
            && EndsInOneTerminal(h)
  {
    MissionStatuses(c, prompt);
    RunEndsInOneTerminal(c, prompt);
    var s := Statuses(RunMission(c, prompt));
    assert s[0] == s[..|s| - 1][0] == Order[0];
    assert NoTerminal([Pending]);
    EndsInOneTerminalAfter([Pending], s);
  }
}

=== FILE: fleet_v2.dfy ===
/**
 * The second-generation orchestrator: one mission runs the architect, the
 * policy check, up to MaxRetries builds with self-healing in between, an
 * optional publish step and a final status. Collaborators are parameters; a
 * run is the trace of status updates and collaborator calls it makes.
 */
module FleetV2 {
  import opened Wrappers
  import opened Text
  import opened Mission
  import Manifest
  import Policy
  import Foundry

  /** Builds a mission may attempt before it gives up. */
  const MaxRetries: nat := 3

  /**
   * The skip-publish switch is read once from the environment: it is on
   * exactly for "true" in any mix of upper and lower case letters.
   */
  function SkipPublishSetting(env: Option<string>): (skip: bool)
    ensures skip <==> env.Some? && |env.value| == 4
                      && (env.value[0] == 't' || env.value[0] == 'T')
                      && (env.value[1] == 'r' || env.value[1] == 'R')
                      && (env.value[2] == 'u' || env.value[2] == 'U')
                      && (env.value[3] == 'e' || env.value[3] == 'E')
  {
    Lower(env.GetOr("")) == "true"
  }

  /** The collaborator calls the orchestrator makes. */
  datatype Call =
    | Draft(prompt: string)
    | Check(manifest: Manifest.GantryManifest)
    | Build(attempt: nat, manifest: Manifest.GantryManifest, deploy: bool)
    | Heal(manifest: Manifest.GantryManifest, errorLog: string)
    | Publish(manifest: Manifest.GantryManifest)

  predicate IsDraft(k: Call) { k.Draft? }
  predicate IsCheck(k: Call) { k.Check? }
  predicate IsBuild(k: Call) { k.Build? }
  predicate IsHeal(k: Call) { k.Heal? }
  predicate IsPublish(k: Call) { k.Publish? }

  /** What the architect does with a prompt: a manifest, its own error, or any other exception. */
  datatype DraftOutcome = Drafted(manifest: Manifest.GantryManifest) | ArchitectError | DraftCrashed(message: string)

  /** What the architect does with a failed manifest and its error log. */
  datatype HealOutcome = Healed(manifest: Manifest.GantryManifest) | HealRejected | HealCrashed(message: string)

  /** What the publisher does: a pull-request URL, a security block or publish error, or any other exception. */
  datatype PublishOutcome = Published(prUrl: string) | PublishRefused | PublishCrashed(message: string)

  /** Everything outside the orchestrator that decides how a mission goes. */
  datatype Collaborators = Collaborators(
    draft: string -> DraftOutcome,
    policy: Policy.PolicyConfig,
    matches: (string, string) -> bool,
    build: (nat, Manifest.GantryManifest, bool) -> Foundry.Outcome,
    heal: (Manifest.GantryManifest, string) -> HealOutcome,
    publisherConfigured: bool,
    publish: Manifest.GantryManifest -> PublishOutcome)

  type Trace = seq<Step<Call>>

  /** How the build phase ends: a passing build, a status already written, or an exception. */
  datatype BuildEnd = Built(deployUrl: Option<string>) | Stopped | Aborted
  datatype Loop = Loop(steps: Trace, end: BuildEnd)

  /** The statuses the build phase writes. */
  predicate LoopStatus(s: Status) {
    s in {Building, Healing, Timeout, Failed}
  }

  /** The last step is a build call whose outcome was a pass with this deployment URL. */
  predicate EndsWithPass(c: Collaborators, steps: Trace, deployUrl: Option<string>) {
    && |steps| > 0
    && steps[|steps| - 1].Invoke?
    && steps[|steps| - 1].call.Build?
    && var k := steps[|steps| - 1].call;
       c.build(k.attempt, k.manifest, k.deploy) == Foundry.Passed(deployUrl)
  }

  /** Step i is a build call whose outcome was a pass. */
  predicate PassingBuildAt(c: Collaborators, t: Trace, i: int) {
    && 0 <= i < |t|
    && t[i].Invoke?
    && t[i].call.Build?
    && c.build(t[i].call.attempt, t[i].call.manifest, t[i].call.deploy).Passed?
  }

  /**
   * The build phase from `attempt` on: build; a pass ends the phase; a
   * timeout writes TIMEOUT; an audit failure before the last attempt asks
   * the architect to heal the manifest and builds the healed one, and a
   * refused heal or a failure on the last attempt writes FAILED; any other
   * exception escapes to the mission.
   */
  function BuildLoop(c: Collaborators, m: Manifest.GantryManifest, deploy: bool, attempt: nat): (r: Loop)
    requires 1 <= attempt <= MaxRetries
    decreases MaxRetries - attempt
  {
    var round := [Update(Building), Invoke(Build(attempt, m, deploy))];
    match c.build(attempt, m, deploy)
    case Passed(url) => Loop(round, Built(url))
    case TimedOut => Loop(round + [Update(Timeout)], Stopped)
    case Crashed(_) => Loop(round, Aborted)
    case AuditFailed(_, output) =>
      if attempt < MaxRetries then
        var healing := round + [Update(Healing), Invoke(Heal(m, output))];
        match c.heal(m, output)
        case Healed(next) =>
          var rest := BuildLoop(c, next, deploy, attempt + 1);
          Loop(healing + rest.steps, rest.end)
        case HealRejected => Loop(healing + [Update(Failed)], Stopped)
        case HealCrashed(_) => Loop(healing, Aborted)
      else
        Loop(round + [Update(Failed)], Stopped)
  }

  /** How the publish phase ends: the pull-request URL if any, or an exception. */
  datatype PublishEnd = Reported(prUrl: Option<string>) | PublishAborted
  datatype PublishStage = PublishStage(steps: Trace, end: PublishEnd)

  /** Publishing is skipped by the switch or the request, and silently when the publisher has no credentials. */
  function PublishPhase(c: Collaborators, m: Manifest.GantryManifest, publish: bool, skipPublish: bool): (r: PublishStage)
    ensures r.steps != [] <==> !skipPublish && publish && c.publisherConfigured
    ensures r.steps != [] ==> r.steps == [Update(Publishing), Invoke(Publish(m))]
    ensures r.end.PublishAborted? <==> r.steps != [] && c.publish(m).PublishCrashed?
    ensures r.end.Reported? && r.end.prUrl.Some? <==> r.steps != [] && c.publish(m).Published?
  {
    if skipPublish || !publish then PublishStage([], Reported(None))
    else if !c.publisherConfigured then PublishStage([], Reported(None))
    else
      var steps := [Update(Publishing), Invoke(Publish(m))];
      match c.publish(m)
      case Published(url) => PublishStage(steps, Reported(Some(url)))
      case PublishRefused => PublishStage(steps, Reported(None))
      case PublishCrashed(_) => PublishStage(steps, PublishAborted)
  }

  /** The final status: live beats an open pull request, which beats a plain success. */
  function FinalStatus(deployUrl: Option<string>, prUrl: Option<string>): (s: Status)
    ensures IsTerminal(s)
    ensures s == Deployed <==> IsSet(deployUrl)
    ensures s == PrOpened <==> !IsSet(deployUrl) && IsSet(prUrl)
    ensures s == Success <==> !IsSet(deployUrl) && !IsSet(prUrl)
  {
    if IsSet(deployUrl) then Deployed
    else if IsSet(prUrl) then PrOpened
    else Success
  }

  /** The mission after a passing build: publish, then the final status or CRITICAL_FAILURE. */
  function AfterBuild(c: Collaborators, m: Manifest.GantryManifest, deployUrl: Option<string>,
                      publish: bool, skipPublish: bool): Trace
  {
    var p := PublishPhase(c, m, publish, skipPublish);
    match p.end
    case Reported(prUrl) => p.steps + [Update(FinalStatus(deployUrl, prUrl))]
    case PublishAborted => p.steps + [Update(CriticalFailure)]
  }

  /**
   * One mission: ARCHITECTING and the draft (FAILED on an architect error),
   * VALIDATING and the policy check (BLOCKED on a violation), the build
   * phase, the publish phase with the drafted manifest, and the final
   * status. An exception from any collaborator ends the mission in
   * CRITICAL_FAILURE.
   */
  function RunMission(c: Collaborators, prompt: string, deploy: bool, publish: bool, skipPublish: bool): (t: Trace)
    ensures |t| >= 3 && t[0] == Update(Architecting) && t[1] == Invoke(Draft(prompt))
  {
    [Update(Architecting), Invoke(Draft(prompt))]
      + match c.draft(prompt)
        case ArchitectError => [Update(Failed)]
        case DraftCrashed(_) => [Update(CriticalFailure)]
        case Drafted(m) => AfterDraft(c, m, deploy, publish, skipPublish)
  }

  /** The mission from VALIDATING on, for the drafted manifest. */
  function AfterDraft(c: Collaborators, m: Manifest.GantryManifest, deploy: bool, publish: bool, skipPublish: bool): Trace
  {
    [Update(Validating), Invoke(Check(m))]
      + if Policy.Validate(c.policy, m, c.matches).Err? then [Update(Blocked)]
        else BuildAndPublish(c, m, deploy, publish, skipPublish)
  }

  /** The mission from the first build on, for a manifest that passed the policy check. */
  function BuildAndPublish(c: Collaborators, m: Manifest.GantryManifest, deploy: bool, publish: bool, skipPublish: bool): Trace
  {
    var loop := BuildLoop(c, m, deploy, 1);
    match loop.end
    case Stopped => loop.steps
    case Aborted => loop.steps + [Update(CriticalFailure)]
    case Built(deployUrl) => loop.steps + AfterBuild(c, m, deployUrl, publish, skipPublish)
  }


  // ---------------------------------------------------------------------
  // Counting calls

  function Builds(t: Trace): nat { CountCalls(t, IsBuild) }
  function Heals(t: Trace): nat { CountCalls(t, IsHeal) }
  function Checks(t: Trace): nat { CountCalls(t, IsCheck) }
  function Publishes(t: Trace): nat { CountCalls(t, IsPublish) }

  lemma {:induction false} CountsAppend(a: Trace, b: Trace)
    ensures Builds(a + b) == Builds(a) + Builds(b)
    ensures Heals(a + b) == Heals(a) + Heals(b)
    ensures Checks(a + b) == Checks(a) + Checks(b)
    ensures Publishes(a + b) == Publishes(a) + Publishes(b)
  {
    CountCallsAppend(a, b, IsBuild);
    CountCallsAppend(a, b, IsHeal);
    CountCallsAppend(a, b, IsCheck);
    CountCallsAppend(a, b, IsPublish);
  }

  lemma {:induction false} CountPair(s: Status, k: Call)
    ensures Builds([Update(s), Invoke(k)]) == (if k.Build? then 1 else 0)
    ensures Heals([Update(s), Invoke(k)]) == (if k.Heal? then 1 else 0)
    ensures Checks([Update(s), Invoke(k)]) == (if k.Check? then 1 else 0)
    ensures Publishes([Update(s), Invoke(k)]) == (if k.Publish? then 1 else 0)
  {
    CountCallsOfPair(s, k, IsBuild);
    CountCallsOfPair(s, k, IsHeal);
    CountCallsOfPair(s, k, IsCheck);
    CountCallsOfPair(s, k, IsPublish);
  }

  lemma {:induction false} CountNote(s: Status)
    ensures Builds([Update(s)]) == 0 && Heals([Update(s)]) == 0
    ensures Checks([Update(s)]) == 0 && Publishes([Update(s)]) == 0
  {
    CountCallsOfNote(s, IsBuild);
    CountCallsOfNote(s, IsHeal);
    CountCallsOfNote(s, IsCheck);
    CountCallsOfNote(s, IsPublish);
  }

  // ---------------------------------------------------------------------
  // The build phase

  /**
   * The build phase from attempt `attempt` builds at most once per
   * remaining attempt, heals at most once fewer, and never checks policy
   * or publishes.
   */
  lemma {:induction false} LoopCounts(c: Collaborators, m: Manifest.GantryManifest, deploy: bool, attempt: nat)
    requires 1 <= attempt <= MaxRetries
    ensures Builds(BuildLoop(c, m, deploy, attempt).steps) <= MaxRetries - attempt + 1
    ensures Heals(BuildLoop(c, m, deploy, attempt).steps) <= MaxRetries - attempt
    ensures Checks(BuildLoop(c, m, deploy, attempt).steps) == 0
    ensures Publishes(BuildLoop(c, m, deploy, attempt).steps) == 0
    decreases MaxRetries - attempt
  {
    var round: Trace := [Update(Building), Invoke(Build(attempt, m, deploy))];
    CountPair(Building, Build(attempt, m, deploy));
    match c.build(attempt, m, deploy)
    case Passed(_) =>
    case TimedOut =>
      CountNote(Timeout);
      CountsAppend(round, [Update(Timeout)]);
    case Crashed(_) =>
    case AuditFailed(_, output) =>
      if attempt < MaxRetries {
        var heal: Trace := [Update(Healing), Invoke(Heal(m, output))];
        CountPair(Healing, Heal(m, output));
        CountsAppend(round, heal);
        match c.heal(m, output)
        case Healed(next) =>
          var rest := BuildLoop(c, next, deploy, attempt + 1);
          assert BuildLoop(c, m, deploy, attempt).steps == round + heal + rest.steps;
          LoopCounts(c, next, deploy, attempt + 1);
          CountsAppend(round + heal, rest.steps);
        case HealRejected =>
          CountNote(Failed);
          CountsAppend(round + heal, [Update(Failed)]);
        case HealCrashed(_) =>
      } else {
        CountNote(Failed);
        CountsAppend(round, [Update(Failed)]);
      }
  }

  /** Every status the build phase writes is BUILDING, HEALING, TIMEOUT or FAILED. */
  predicate AllLoopStatuses(s: seq<Status>) {
    forall i :: 0 <= i < |s| ==> LoopStatus(s[i])
  }

  /** The build phase goes round again: an audit failure before the last attempt, healed. */
  predicate Retries(c: Collaborators, m: Manifest.GantryManifest, deploy: bool, attempt: nat) {
    && attempt < MaxRetries
    && c.build(attempt, m, deploy).AuditFailed?
    && c.heal(m, c.build(attempt, m, deploy).output).Healed?
  }

  /** The two steps of a round and the two of the heal request that follows it. */
  function HealingSteps(c: Collaborators, m: Manifest.GantryManifest, deploy: bool, attempt: nat): Trace
    requires c.build(attempt, m, deploy).AuditFailed?
  {
    [Update(Building), Invoke(Build(attempt, m, deploy)),
     Update(Healing), Invoke(Heal(m, c.build(attempt, m, deploy).output))]
  }

  /** A retried round is the healing steps followed by the build phase for the healed manifest. */
  lemma {:induction false} RetryUnfolds(c: Collaborators, m: Manifest.GantryManifest, deploy: bool, attempt: nat)
    requires 1 <= attempt <= MaxRetries && Retries(c, m, deploy, attempt)
    ensures var rest := BuildLoop(c, c.heal(m, c.build(attempt, m, deploy).output).manifest, deploy, attempt + 1);
            BuildLoop(c, m, deploy, attempt) == Loop(HealingSteps(c, m, deploy, attempt) + rest.steps, rest.end)
  {
    var output := c.build(attempt, m, deploy).output;
    var round: Trace := [Update(Building), Invoke(Build(attempt, m, deploy))];
    assert round + [Update(Healing), Invoke(Heal(m, output))] == HealingSteps(c, m, deploy, attempt);
  }

  /**
   * The build phase ends in exactly one terminal status when it stops the
   * mission itself, and writes none when it hands on a pass or an exception.
   */
  lemma {:induction false} LoopStatuses(c: Collaborators, m: Manifest.GantryManifest, deploy: bool, attempt: nat)
    requires 1 <= attempt <= MaxRetries
    ensures BuildLoop(c, m, deploy, attempt).end.Stopped? ==> EndsInOneTerminal(Statuses(BuildLoop(c, m, deploy, attempt).steps))
    ensures !BuildLoop(c, m, deploy, attempt).end.Stopped? ==> NoTerminal(Statuses(BuildLoop(c, m, deploy, attempt).steps))
    decreases MaxRetries - attempt
  {
    if Retries(c, m, deploy, attempt) {
      var next := c.heal(m, c.build(attempt, m, deploy).output).manifest;
      var healing := HealingSteps(c, m, deploy, attempt);
      var rest := BuildLoop(c, next, deploy, attempt + 1);
      RetryUnfolds(c, m, deploy, attempt);
      HealingStatuses(c, m, deploy, attempt);
      LoopStatuses(c, next, deploy, attempt + 1);
      RetryStatuses(healing, rest);
    } else {
      LeafStatuses(c, m, deploy, attempt);
    }
  }

  /** The healing steps write BUILDING, then HEALING. */
  lemma {:induction false} HealingStatuses(c: Collaborators, m: Manifest.GantryManifest, deploy: bool, attempt: nat)
    requires c.build(attempt, m, deploy).AuditFailed?
    ensures Statuses(HealingSteps(c, m, deploy, attempt)) == [Building, Healing]
  {
    var output := c.build(attempt, m, deploy).output;
    var round: Trace := [Update(Building), Invoke(Build(attempt, m, deploy))];
    var heal: Trace := [Update(Healing), Invoke(Heal(m, output))];
    assert HealingSteps(c, m, deploy, attempt) == round + heal;
    StatusesOfPair(Building, Build(attempt, m, deploy));
    StatusesOfPair(Healing, Heal(m, output));
    StatusesAppend(round, heal);
  }

  /** The statuses a build phase that does not go round again writes. */
  function LeafStatusList(c: Collaborators, m: Manifest.GantryManifest, deploy: bool, attempt: nat): seq<Status> {
    match c.build(attempt, m, deploy)
    case Passed(_) => [Building]
    case TimedOut => [Building, Timeout]
    case Crashed(_) => [Building]
    case AuditFailed(_, output) =>
      if attempt < MaxRetries then
        if c.heal(m, output).HealRejected? then [Building, Healing, Failed] else [Building, Healing]
      else [Building, Failed]
  }

  /** Without a retry the build phase writes exactly the listed statuses. */
  lemma {:induction false} LeafStatusesAre(c: Collaborators, m: Manifest.GantryManifest, deploy: bool, attempt: nat)
    requires 1 <= attempt <= MaxRetries && !Retries(c, m, deploy, attempt)
    ensures Statuses(BuildLoop(c, m, deploy, attempt).steps) == LeafStatusList(c, m, deploy, attempt)
  {
    var round: Trace := [Update(Building), Invoke(Build(attempt, m, deploy))];
    StatusesOfPair(Building, Build(attempt, m, deploy));
    match c.build(attempt, m, deploy)
    case Passed(url) =>
    case TimedOut =>
      StatusesOfNote<Call>(Timeout);
      StatusesAppend(round, [Update(Timeout)]);
    case Crashed(_) =>
    case AuditFailed(_, output) =>
      AuditLeafStatusesAre(c, m, deploy, attempt);
  }

  /** The audit-failure case of `LeafStatusesAre`. */
  lemma {:induction false} AuditLeafStatusesAre(c: Collaborators, m: Manifest.GantryManifest, deploy: bool, attempt: nat)
    requires 1 <= attempt <= MaxRetries && !Retries(c, m, deploy, attempt)
    requires c.build(attempt, m, deploy).AuditFailed?
    ensures Statuses(BuildLoop(c, m, deploy, attempt).steps) == LeafStatusList(c, m, deploy, attempt)
  {
    var output := c.build(attempt, m, deploy).output;
    var round: Trace := [Update(Building), Invoke(Build(attempt, m, deploy))];
    if attempt < MaxRetries {
      var healing := HealingSteps(c, m, deploy, attempt);
      HealingStatuses(c, m, deploy, attempt);
      assert healing == round + [Update(Healing), Invoke(Heal(m, output))];
      if c.heal(m, output).HealRejected? {
        StatusesOfNote<Call>(Failed);
        StatusesAppend(healing, [Update(Failed)]);
      }
    } else {
      StatusesOfPair(Building, Build(attempt, m, deploy));
      StatusesOfNote<Call>(Failed);
      StatusesAppend(round, [Update(Failed)]);
    }
  }

  /** Putting the healing steps in front keeps how the rest of the build phase ends its statuses. */
  lemma {:induction false} RetryStatuses(healing: Trace, rest: Loop)
    requires Statuses(healing) == [Building, Healing]
    requires rest.end.Stopped? ==> EndsInOneTerminal(Statuses(rest.steps))
    requires !rest.end.Stopped? ==> NoTerminal(Statuses(rest.steps))
    ensures rest.end.Stopped? ==> EndsInOneTerminal(Statuses(healing + rest.steps))
    ensures !rest.end.Stopped? ==> NoTerminal(Statuses(healing + rest.steps))
  {
    StatusesAppend(healing, rest.steps);
    if rest.end.Stopped? {
      EndsInOneTerminalAfter(Statuses(healing), Statuses(rest.steps));
    } else {
      NoTerminalAppend(Statuses(healing), Statuses(rest.steps));
    }
  }

  /**
   * A build phase that does not go round again ends in one terminal status
   * exactly when it stops the mission itself, and writes only the build
   * phase's own statuses.
   */
  lemma {:induction false} LeafStatuses(c: Collaborators, m: Manifest.GantryManifest, deploy: bool, attempt: nat)
    requires 1 <= attempt <= MaxRetries && !Retries(c, m, deploy, attempt)
    ensures var r := BuildLoop(c, m, deploy, attempt);
            && (r.end.Stopped? ==> EndsInOneTerminal(Statuses(r.steps)))
            && (!r.end.Stopped? ==> NoTerminal(Statuses(r.steps)))
            && AllLoopStatuses(Statuses(r.steps))
  {
    LeafStatusesAre(c, m, deploy, attempt);
    var l := LeafStatusList(c, m, deploy, attempt);
    assert BuildLoop(c, m, deploy, attempt).end.Stopped? <==> IsTerminal(l[|l| - 1]);
  }

  /**
   * The build phase writes only BUILDING, HEALING, TIMEOUT and FAILED.
   */
  lemma {:induction false} LoopOwnStatuses(c: Collaborators, m: Manifest.GantryManifest, deploy: bool, attempt: nat)
    requires 1 <= attempt <= MaxRetries
    ensures AllLoopStatuses(Statuses(BuildLoop(c, m, deploy, attempt).steps))
    decreases MaxRetries - attempt
  {
    if Retries(c, m, deploy, attempt) {
      var next := c.heal(m, c.build(attempt, m, deploy).output).manifest;
      var healing := HealingSteps(c, m, deploy, attempt);
      var rest := BuildLoop(c, next, deploy, attempt + 1);
      RetryUnfolds(c, m, deploy, attempt);
      HealingStatuses(c, m, deploy, attempt);
      LoopOwnStatuses(c, next, deploy, attempt + 1);
      StatusesAppend(healing, rest.steps);
      LoopStatusesAppend([Building, Healing], Statuses(rest.steps));
    } else {
      LeafStatuses(c, m, deploy, attempt);
    }
  }

  lemma {:induction false} LoopStatusesAppend(a: seq<Status>, b: seq<Status>)
    requires AllLoopStatuses(a) && AllLoopStatuses(b)
    ensures AllLoopStatuses(a + b)
  {
    forall i | 0 <= i < |a + b| ensures LoopStatus((a + b)[i]) {
      if i >= |a| { assert (a + b)[i] == b[i - |a|]; }
    }
  }

  /** The build phase never writes PUBLISHING or PR_OPENED. */
  lemma {:induction false} LoopStatusesExclude(s: seq<Status>)
    requires AllLoopStatuses(s)
    ensures Publishing !in s && PrOpened !in s
  {
    forall i | 0 <= i < |s| ensures s[i] != Publishing && s[i] != PrOpened {
      assert LoopStatus(s[i]);
    }
  }

  lemma {:induction false} NoTerminalAppend(a: seq<Status>, b: seq<Status>)
    requires NoTerminal(a) && NoTerminal(b)
    ensures NoTerminal(a + b)
  {
    forall i | 0 <= i < |a + b| ensures !IsTerminal((a + b)[i]) {
      if i >= |a| { assert (a + b)[i] == b[i - |a|]; }
    }
  }

  /** The build phase reports a pass only when its last call was a build that passed. */
  lemma {:induction false} BuiltOnlyAfterPass(c: Collaborators, m: Manifest.GantryManifest, deploy: bool, attempt: nat)
    requires 1 <= attempt <= MaxRetries
    ensures var r := BuildLoop(c, m, deploy, attempt);
            r.end.Built? ==> EndsWithPass(c, r.steps, r.end.deployUrl)
    decreases MaxRetries - attempt
  {
    match c.build(attempt, m, deploy)
    case Passed(_) =>
    case TimedOut =>
    case Crashed(_) =>
    case AuditFailed(_, output) =>
      if attempt < MaxRetries {
        match c.heal(m, output)
        case Healed(next) =>
          var round: Trace := [Update(Building), Invoke(Build(attempt, m, deploy))];
          var heal: Trace := [Update(Healing), Invoke(Heal(m, output))];
          var rest := BuildLoop(c, next, deploy, attempt + 1);
          assert BuildLoop(c, m, deploy, attempt) == Loop(round + heal + rest.steps, rest.end);
          BuiltOnlyAfterPass(c, next, deploy, attempt + 1);
          if rest.end.Built? {
            assert (round + heal + rest.steps)[|round + heal + rest.steps| - 1] == rest.steps[|rest.steps| - 1];
          }
        case HealRejected =>
        case HealCrashed(_) =>
      }
  }

  /**
   * Step i is a heal request placed as the orchestrator places them: two
   * steps after a build of the same manifest that failed its audit on an
   * attempt before the last, carrying that build's output as its error log.
   */
  predicate HealAfterFailure(c: Collaborators, t: Trace, i: int)
    requires 0 <= i < |t|
  {
    && 2 <= i && t[i - 2].Invoke? && t[i - 2].call.Build? && t[i].Invoke? && t[i].call.Heal?
    && var b := t[i - 2].call;
       && b.attempt < MaxRetries
       && b.manifest == t[i].call.manifest
       && c.build(b.attempt, b.manifest, b.deploy).AuditFailed?
       && c.build(b.attempt, b.manifest, b.deploy).output == t[i].call.errorLog
  }

  lemma {:induction false} HealsFollowEarlyFailures(c: Collaborators, m: Manifest.GantryManifest, deploy: bool, attempt: nat)
    requires 1 <= attempt <= MaxRetries
    ensures var t := BuildLoop(c, m, deploy, attempt).steps;
            forall i :: 0 <= i < |t| && t[i].Invoke? && t[i].call.Heal? ==> HealAfterFailure(c, t, i)
    decreases MaxRetries - attempt
  {
    if Retries(c, m, deploy, attempt) {
      var next := c.heal(m, c.build(attempt, m, deploy).output).manifest;
      var healing := HealingSteps(c, m, deploy, attempt);
      var rest := BuildLoop(c, next, deploy, attempt + 1).steps;
      RetryUnfolds(c, m, deploy, attempt);
      HealsFollowEarlyFailures(c, next, deploy, attempt + 1);
      HealingPrefixHeals(c, m, deploy, attempt, rest);
      forall i | 0 <= i < |healing + rest| && (healing + rest)[i].Invoke? && (healing + rest)[i].call.Heal?
        ensures HealAfterFailure(c, healing + rest, i)
      {
        if i >= 4 {
          HealShifts(c, healing, rest, i - 4);
        }
      }
    } else if c.build(attempt, m, deploy).AuditFailed? && attempt < MaxRetries {
      AuditLeafHeals(c, m, deploy, attempt);
    } else {
      ShortLeafHeals(c, m, deploy, attempt);
    }
  }

  /** The heal request among the healing steps is well placed, whatever follows them. */
  lemma {:induction false} HealingPrefixHeals(c: Collaborators, m: Manifest.GantryManifest, deploy: bool, attempt: nat, tail: Trace)
    requires attempt < MaxRetries && c.build(attempt, m, deploy).AuditFailed?
    ensures var t := HealingSteps(c, m, deploy, attempt) + tail;
            forall i :: 0 <= i < 4 && t[i].Invoke? && t[i].call.Heal? ==> HealAfterFailure(c, t, i)
  {
    var t := HealingSteps(c, m, deploy, attempt) + tail;
    assert t[0].Update? && t[2].Update?;
    assert t[1] == Invoke(Build(attempt, m, deploy));
    assert t[3] == Invoke(Heal(m, c.build(attempt, m, deploy).output));
  }

  /** A build phase that fails its audit early and is not healed holds one well-placed heal request. */
  lemma {:induction false} AuditLeafHeals(c: Collaborators, m: Manifest.GantryManifest, deploy: bool, attempt: nat)
    requires 1 <= attempt < MaxRetries && c.build(attempt, m, deploy).AuditFailed?
    requires !c.heal(m, c.build(attempt, m, deploy).output).Healed?
    ensures var t := BuildLoop(c, m, deploy, attempt).steps;
            forall i :: 0 <= i < |t| && t[i].Invoke? && t[i].call.Heal? ==> HealAfterFailure(c, t, i)
  {
    var healing := HealingSteps(c, m, deploy, attempt);
    var tail: Trace := if c.heal(m, c.build(attempt, m, deploy).output).HealRejected? then [Update(Failed)] else [];
    var round: Trace := [Update(Building), Invoke(Build(attempt, m, deploy))];
    var output := c.build(attempt, m, deploy).output;
    assert round + [Update(Healing), Invoke(Heal(m, output))] == healing;
    assert BuildLoop(c, m, deploy, attempt).steps == healing + tail;
    HealingPrefixHeals(c, m, deploy, attempt, tail);
    assert |healing + tail| <= 4 || (healing + tail)[4] == Update(Failed);
  }

  /** A build phase that neither retries nor asks for a heal holds no heal request. */
  lemma {:induction false} ShortLeafHeals(c: Collaborators, m: Manifest.GantryManifest, deploy: bool, attempt: nat)
    requires 1 <= attempt <= MaxRetries
    requires !(c.build(attempt, m, deploy).AuditFailed? && attempt < MaxRetries)
    ensures var t := BuildLoop(c, m, deploy, attempt).steps;
            forall i :: 0 <= i < |t| ==> !(t[i].Invoke? && t[i].call.Heal?)
  {
    var t := BuildLoop(c, m, deploy, attempt).steps;
    var round: Trace := [Update(Building), Invoke(Build(attempt, m, deploy))];
    assert t == round || t == round + [Update(Timeout)] || t == round + [Update(Failed)];
    assert |t| <= 2 || t[2].Update?;
  }

  /** A well-placed heal request stays well placed behind a prefix of four steps. */
  lemma {:induction false} HealShifts(c: Collaborators, prefix: Trace, rest: Trace, j: int)
    requires |prefix| == 4 && 0 <= j < |rest|
    requires rest[j].Invoke? && rest[j].call.Heal? ==> HealAfterFailure(c, rest, j)
    ensures var t := prefix + rest;
            t[j + 4].Invoke? && t[j + 4].call.Heal? ==> HealAfterFailure(c, t, j + 4)
  {
    var t := prefix + rest;
    assert t[j + 4] == rest[j];
    if rest[j].Invoke? && rest[j].call.Heal? {
      assert t[j + 2] == rest[j - 2];
    }
  }

  // ---------------------------------------------------------------------
  // Whole missions

  /** A passing build phase followed by the publish phase. */
  lemma {:induction false} AfterBuildFacts(c: Collaborators, m: Manifest.GantryManifest, deployUrl: Option<string>,
                        publish: bool, skipPublish: bool)
    ensures var a := AfterBuild(c, m, deployUrl, publish, skipPublish);
            && EndsInOneTerminal(Statuses(a))
            && (Publishing in Statuses(a) <==> !skipPublish && publish && c.publisherConfigured)
            && Builds(a) == 0 && Heals(a) == 0 && Checks(a) == 0
            && Publishes(a) == (if !skipPublish && publish && c.publisherConfigured then 1 else 0)
  {
    var p := PublishPhase(c, m, publish, skipPublish);
    var last := match p.end
      case Reported(prUrl) => FinalStatus(deployUrl, prUrl)
      case PublishAborted => CriticalFailure;
    assert AfterBuild(c, m, deployUrl, publish, skipPublish) == p.steps + [Update(last)];
    StatusesAppend(p.steps, [Update(last)]);
    CountsAppend(p.steps, [Update(last)]);
    CountNote(last);
    StatusesOfNote<Call>(last);
    if p.steps != [] {
      CountPair(Publishing, Publish(m));
      StatusesOfPair(Publishing, Publish(m));
    }
  }

  /** The build and publish phases end in exactly one terminal status. */
  lemma {:induction false} BuildAndPublishStatuses(c: Collaborators, m: Manifest.GantryManifest, deploy: bool, publish: bool, skipPublish: bool)
    ensures EndsInOneTerminal(Statuses(BuildAndPublish(c, m, deploy, publish, skipPublish)))
  {
    var loop := BuildLoop(c, m, deploy, 1);
    LoopStatuses(c, m, deploy, 1);
    match loop.end
    case Stopped =>
    case Aborted =>
      assert BuildAndPublish(c, m, deploy, publish, skipPublish) == loop.steps + [Update(CriticalFailure)];
      StatusesOfNote<Call>(CriticalFailure);
      StatusesAppend(loop.steps, [Update(CriticalFailure)]);
      EndsInOneTerminalAfter(Statuses(loop.steps), [CriticalFailure]);
    case Built(deployUrl) =>
      var after := AfterBuild(c, m, deployUrl, publish, skipPublish);
      assert BuildAndPublish(c, m, deploy, publish, skipPublish) == loop.steps + after;
      AfterBuildFacts(c, m, deployUrl, publish, skipPublish);
      StatusesAppend(loop.steps, after);
      EndsInOneTerminalAfter(Statuses(loop.steps), Statuses(after));
  }

  /** The build and publish phases build at most MaxRetries times, never check policy, and publish at most once. */
  lemma {:induction false} BuildAndPublishCounts(c: Collaborators, m: Manifest.GantryManifest, deploy: bool, publish: bool, skipPublish: bool)
    ensures var t := BuildAndPublish(c, m, deploy, publish, skipPublish);
            && Builds(t) <= MaxRetries && Heals(t) <= MaxRetries - 1
            && Checks(t) == 0 && Publishes(t) <= 1
  {
    var loop := BuildLoop(c, m, deploy, 1);
    LoopCounts(c, m, deploy, 1);
    match loop.end
    case Stopped =>
    case Aborted =>
      assert BuildAndPublish(c, m, deploy, publish, skipPublish) == loop.steps + [Update(CriticalFailure)];
      CountNote(CriticalFailure);
      CountsAppend(loop.steps, [Update(CriticalFailure)]);
    case Built(deployUrl) =>
      var after := AfterBuild(c, m, deployUrl, publish, skipPublish);
      assert BuildAndPublish(c, m, deploy, publish, skipPublish) == loop.steps + after;
      AfterBuildFacts(c, m, deployUrl, publish, skipPublish);
      CountsAppend(loop.steps, after);
  }

  /** From VALIDATING on, a mission ends in exactly one terminal status and checks policy once. */
  lemma {:induction false} AfterDraftFacts(c: Collaborators, m: Manifest.GantryManifest, deploy: bool, publish: bool, skipPublish: bool)
    ensures var t := AfterDraft(c, m, deploy, publish, skipPublish);
            && EndsInOneTerminal(Statuses(t)) && Statuses(t)[0] == Validating
            && Builds(t) <= MaxRetries && Heals(t) <= MaxRetries - 1
            && Checks(t) == 1 && Publishes(t) <= 1
  {
    var head: Trace := [Update(Validating), Invoke(Check(m))];
    var rest := if Policy.Validate(c.policy, m, c.matches).Err? then [Update(Blocked)]
                else BuildAndPublish(c, m, deploy, publish, skipPublish);
    assert AfterDraft(c, m, deploy, publish, skipPublish) == head + rest;
    StatusesOfPair(Validating, Check(m));
    CountPair(Validating, Check(m));
    if Policy.Validate(c.policy, m, c.matches).Err? {
      StatusesOfNote<Call>(Blocked);
      CountNote(Blocked);
    } else {
      BuildAndPublishStatuses(c, m, deploy, publish, skipPublish);
      BuildAndPublishCounts(c, m, deploy, publish, skipPublish);
    }
    StatusesAppend(head, rest);
    CountsAppend(head, rest);
    assert NoTerminal([Validating]);
    EndsInOneTerminalAfter([Validating], Statuses(rest));
  }

  /** Every mission writes exactly one terminal status, and it is the last status written. */
  lemma {:induction false} RunEndsInOneTerminal(c: Collaborators, prompt: string, deploy: bool, publish: bool, skipPublish: bool)
    ensures EndsInOneTerminal(Statuses(RunMission(c, prompt, deploy, publish, skipPublish)))
  {
    var head: Trace := [Update(Architecting), Invoke(Draft(prompt))];
    var rest := match c.draft(prompt)
      case ArchitectError => [Update(Failed)]
      case DraftCrashed(_) => [Update(CriticalFailure)]
      case Drafted(m) => AfterDraft(c, m, deploy, publish, skipPublish);
    assert RunMission(c, prompt, deploy, publish, skipPublish) == head + rest;
    StatusesOfPair(Architecting, Draft(prompt));
    match c.draft(prompt) {
      case ArchitectError => StatusesOfNote<Call>(Failed);
      case DraftCrashed(_) => StatusesOfNote<Call>(CriticalFailure);
      case Drafted(m) => AfterDraftFacts(c, m, deploy, publish, skipPublish);
    }
    StatusesAppend(head, rest);
    assert NoTerminal([Architecting]);
    EndsInOneTerminalAfter([Architecting], Statuses(rest));
  }

  /** An architect error writes FAILED straight after ARCHITECTING and calls nothing else. */
  lemma {:induction false} ArchitectFailureStops(c: Collaborators, prompt: string, deploy: bool, publish: bool, skipPublish: bool)
    requires c.draft(prompt).ArchitectError?
    ensures var t := RunMission(c, prompt, deploy, publish, skipPublish);
            Statuses(t) == [Architecting, Failed] && Builds(t) == 0 && Checks(t) == 0
  {
    var head: Trace := [Update(Architecting), Invoke(Draft(prompt))];
    assert RunMission(c, prompt, deploy, publish, skipPublish) == head + [Update(Failed)];
    StatusesOfPair(Architecting, Draft(prompt));
    CountPair(Architecting, Draft(prompt));
    StatusesOfNote<Call>(Failed);
    CountNote(Failed);
    StatusesAppend(head, [Update(Failed)]);
    CountsAppend(head, [Update(Failed)]);
  }

  /** A policy violation writes BLOCKED after VALIDATING; nothing is built or published. */
  lemma {:induction false} PolicyViolationBlocks(c: Collaborators, prompt: string, deploy: bool, publish: bool, skipPublish: bool)
    requires c.draft(prompt).Drafted?
    requires Policy.Validate(c.policy, c.draft(prompt).manifest, c.matches).Err?
    ensures var t := RunMission(c, prompt, deploy, publish, skipPublish);
            Statuses(t) == [Architecting, Validating, Blocked] && Builds(t) == 0 && Publishes(t) == 0
  {
    var m := c.draft(prompt).manifest;
    var head: Trace := [Update(Architecting), Invoke(Draft(prompt))];
    var check: Trace := [Update(Validating), Invoke(Check(m))];
    assert AfterDraft(c, m, deploy, publish, skipPublish) == check + [Update(Blocked)];
    assert RunMission(c, prompt, deploy, publish, skipPublish) == head + (check + [Update(Blocked)]);
    StatusesOfPair(Architecting, Draft(prompt));
    CountPair(Architecting, Draft(prompt));
    StatusesOfPair(Validating, Check(m));
    CountPair(Validating, Check(m));
    StatusesOfNote<Call>(Blocked);
    CountNote(Blocked);
    StatusesAppend(check, [Update(Blocked)]);
    CountsAppend(check, [Update(Blocked)]);
    StatusesAppend(head, check + [Update(Blocked)]);
    CountsAppend(head, check + [Update(Blocked)]);
  }

  /**
   * A mission builds at most MaxRetries times, heals at most
   * MaxRetries - 1 times, checks policy at most once (a healed manifest is
   * never checked again) and publishes at most once.
   */
  lemma {:induction false} RetryBounds(c: Collaborators, prompt: string, deploy: bool, publish: bool, skipPublish: bool)
    ensures Builds(RunMission(c, prompt, deploy, publish, skipPublish)) <= MaxRetries
    ensures Heals(RunMission(c, prompt, deploy, publish, skipPublish)) <= MaxRetries - 1
    ensures Checks(RunMission(c, prompt, deploy, publish, skipPublish)) <= 1
    ensures Publishes(RunMission(c, prompt, deploy, publish, skipPublish)) <= 1
  {
    var head: Trace := [Update(Architecting), Invoke(Draft(prompt))];
    var rest := match c.draft(prompt)
      case ArchitectError => [Update(Failed)]
      case DraftCrashed(_) => [Update(CriticalFailure)]
      case Drafted(m) => AfterDraft(c, m, deploy, publish, skipPublish);
    assert RunMission(c, prompt, deploy, publish, skipPublish) == head + rest;
    CountPair(Architecting, Draft(prompt));
    match c.draft(prompt) {
      case ArchitectError => CountNote(Failed);
      case DraftCrashed(_) => CountNote(CriticalFailure);
      case Drafted(m) => AfterDraftFacts(c, m, deploy, publish, skipPublish);
    }
    CountsAppend(head, rest);
  }

  // ---------------------------------------------------------------------
  // Publishing

  /** The mission reaches the publish call: drafted, allowed, built, and publishing requested and configured. */
  predicate PublishAttempted(c: Collaborators, prompt: string, deploy: bool, publish: bool, skipPublish: bool) {
    && c.draft(prompt).Drafted?
    && Policy.Validate(c.policy, c.draft(prompt).manifest, c.matches).Ok?
    && BuildLoop(c, c.draft(prompt).manifest, deploy, 1).end.Built?
    && !skipPublish && publish && c.publisherConfigured
  }

  /** The final status a passing build phase leads to. */
  lemma {:induction false} AfterBuildLast(c: Collaborators, m: Manifest.GantryManifest, deployUrl: Option<string>,
                       publish: bool, skipPublish: bool)
    ensures var s := Statuses(AfterBuild(c, m, deployUrl, publish, skipPublish));
            && |s| > 0
            && s[|s| - 1] in {Deployed, PrOpened, Success, CriticalFailure}
            && (PrOpened in s <==> && !skipPublish && publish && c.publisherConfigured
                                   && c.publish(m).Published? && c.publish(m).prUrl != ""
                                   && !IsSet(deployUrl))
            && (s[|s| - 1] == CriticalFailure <==> && !skipPublish && publish && c.publisherConfigured
                                                   && c.publish(m).PublishCrashed?)
            && (!skipPublish && publish && c.publisherConfigured && c.publish(m).Published? ==>
                  s[|s| - 1] == FinalStatus(deployUrl, Some(c.publish(m).prUrl)))
  {
    var p := PublishPhase(c, m, publish, skipPublish);
    var last := match p.end
      case Reported(prUrl) => FinalStatus(deployUrl, prUrl)
      case PublishAborted => CriticalFailure;
    assert AfterBuild(c, m, deployUrl, publish, skipPublish) == p.steps + [Update(last)];
    StatusesAppend(p.steps, [Update(last)]);
    StatusesOfNote<Call>(last);
    if p.steps != [] {
      StatusesOfPair(Publishing, Publish(m));
    }
  }

  /** The steps of a mission that reaches the publish call. */
  lemma {:induction false} PublishedRunShape(c: Collaborators, prompt: string, deploy: bool, publish: bool, skipPublish: bool)
    requires PublishAttempted(c, prompt, deploy, publish, skipPublish)
    ensures var m := c.draft(prompt).manifest;
            var loop := BuildLoop(c, m, deploy, 1);
            RunMission(c, prompt, deploy, publish, skipPublish)
              == [Update(Architecting), Invoke(Draft(prompt)), Update(Validating), Invoke(Check(m))]
                 + loop.steps + AfterBuild(c, m, loop.end.deployUrl, publish, skipPublish)
  {
    var m := c.draft(prompt).manifest;
    var loop := BuildLoop(c, m, deploy, 1);
    var after := AfterBuild(c, m, loop.end.deployUrl, publish, skipPublish);
    assert BuildAndPublish(c, m, deploy, publish, skipPublish) == loop.steps + after;
    assert AfterDraft(c, m, deploy, publish, skipPublish) == [Update(Validating), Invoke(Check(m))] + (loop.steps + after);
  }

  /**
   * PUBLISHING is written, and the publisher called exactly once, exactly
   * when the mission reaches the publish step; otherwise it is never
   * called.
   */
  lemma {:induction false} PublishOnlyWhenAttempted(c: Collaborators, prompt: string, deploy: bool, publish: bool, skipPublish: bool)
    ensures var t := RunMission(c, prompt, deploy, publish, skipPublish);
            && Publishes(t) == (if PublishAttempted(c, prompt, deploy, publish, skipPublish) then 1 else 0)
            && (Publishing in Statuses(t) <==> PublishAttempted(c, prompt, deploy, publish, skipPublish))
  {
    var head: Trace := [Update(Architecting), Invoke(Draft(prompt))];
    var rest := match c.draft(prompt)
      case ArchitectError => [Update(Failed)]
      case DraftCrashed(_) => [Update(CriticalFailure)]
      case Drafted(m) => AfterDraft(c, m, deploy, publish, skipPublish);
    assert RunMission(c, prompt, deploy, publish, skipPublish) == head + rest;
    StatusesOfPair(Architecting, Draft(prompt));
    CountPair(Architecting, Draft(prompt));
    StatusesAppend(head, rest);
    CountsAppend(head, rest);
    match c.draft(prompt) {
      case ArchitectError =>
        StatusesOfNote<Call>(Failed);
        CountNote(Failed);
      case DraftCrashed(_) =>
        StatusesOfNote<Call>(CriticalFailure);
        CountNote(CriticalFailure);
      case Drafted(m) =>
        AfterDraftPublishes(c, m, deploy, publish, skipPublish);
    }
  }

  lemma {:induction false} AfterDraftPublishes(c: Collaborators, m: Manifest.GantryManifest, deploy: bool, publish: bool, skipPublish: bool)
    ensures var t := AfterDraft(c, m, deploy, publish, skipPublish);
            var attempted := && Policy.Validate(c.policy, m, c.matches).Ok?
                             && BuildLoop(c, m, deploy, 1).end.Built?
                             && !skipPublish && publish && c.publisherConfigured;
            && Publishes(t) == (if attempted then 1 else 0)
            && (Publishing in Statuses(t) <==> attempted)
  {
    var head: Trace := [Update(Validating), Invoke(Check(m))];
    StatusesOfPair(Validating, Check(m));
    CountPair(Validating, Check(m));
    if Policy.Validate(c.policy, m, c.matches).Err? {
      assert AfterDraft(c, m, deploy, publish, skipPublish) == head + [Update(Blocked)];
      StatusesOfNote<Call>(Blocked);
      CountNote(Blocked);
      StatusesAppend(head, [Update(Blocked)]);
      CountsAppend(head, [Update(Blocked)]);
    } else {
      var rest := BuildAndPublish(c, m, deploy, publish, skipPublish);
      assert AfterDraft(c, m, deploy, publish, skipPublish) == head + rest;
      StatusesAppend(head, rest);
      CountsAppend(head, rest);
      var loop := BuildLoop(c, m, deploy, 1);
      LoopCounts(c, m, deploy, 1);
      LoopOwnStatuses(c, m, deploy, 1);
      LoopStatusesExclude(Statuses(loop.steps));
      match loop.end {
        case Stopped =>
        case Aborted =>
          assert rest == loop.steps + [Update(CriticalFailure)];
          StatusesOfNote<Call>(CriticalFailure);
          CountNote(CriticalFailure);
          StatusesAppend(loop.steps, [Update(CriticalFailure)]);
          CountsAppend(loop.steps, [Update(CriticalFailure)]);
        case Built(deployUrl) =>
          var after := AfterBuild(c, m, deployUrl, publish, skipPublish);
          assert rest == loop.steps + after;
          AfterBuildFacts(c, m, deployUrl, publish, skipPublish);
          StatusesAppend(loop.steps, after);
          CountsAppend(loop.steps, after);
      }
    }
  }

  /** The publisher is only ever called after a build that passed. */
  lemma {:induction false} PublishOnlyAfterPass(c: Collaborators, prompt: string, deploy: bool, publish: bool, skipPublish: bool)
    requires Publishes(RunMission(c, prompt, deploy, publish, skipPublish)) > 0
    ensures exists i :: PassingBuildAt(c, RunMission(c, prompt, deploy, publish, skipPublish), i)
  {
    PublishOnlyWhenAttempted(c, prompt, deploy, publish, skipPublish);
    var m := c.draft(prompt).manifest;
    var loop := BuildLoop(c, m, deploy, 1);
    var head: Trace := [Update(Architecting), Invoke(Draft(prompt)), Update(Validating), Invoke(Check(m))];
    var after := AfterBuild(c, m, loop.end.deployUrl, publish, skipPublish);
    PublishedRunShape(c, prompt, deploy, publish, skipPublish);
    BuiltOnlyAfterPass(c, m, deploy, 1);
    var t := head + loop.steps + after;
    var i := |head| + |loop.steps| - 1;
    assert t[i] == loop.steps[|loop.steps| - 1];
    assert PassingBuildAt(c, t, i);
  }

  /** Every publish call carries the manifest `m`. */
  predicate PublishesCarry(t: Trace, m: Manifest.GantryManifest) {
    forall i :: 0 <= i < |t| && t[i].Invoke? && t[i].call.Publish? ==> t[i].call.manifest == m
  }

  lemma {:induction false} CarryAppend(a: Trace, b: Trace, m: Manifest.GantryManifest)
    requires PublishesCarry(a, m) && PublishesCarry(b, m)
    ensures PublishesCarry(a + b, m)
  {
    forall i | 0 <= i < |a + b| && (a + b)[i].Invoke? && (a + b)[i].call.Publish?
      ensures (a + b)[i].call.manifest == m
    {
      if i >= |a| { assert (a + b)[i] == b[i - |a|]; }
    }
  }

  lemma {:induction false} CarryNone(t: Trace, m: Manifest.GantryManifest)
    requires Publishes(t) == 0
    ensures PublishesCarry(t, m)
  {
    CountCallsZero(t, IsPublish);
  }

  lemma {:induction false} AfterBuildCarries(c: Collaborators, m: Manifest.GantryManifest, deployUrl: Option<string>,
                          publish: bool, skipPublish: bool)
    ensures PublishesCarry(AfterBuild(c, m, deployUrl, publish, skipPublish), m)
  {
    var a := AfterBuild(c, m, deployUrl, publish, skipPublish);
    var p := PublishPhase(c, m, publish, skipPublish);
    assert a == p.steps + [a[|a| - 1]];
    assert a[|a| - 1].Update?;
  }

  /**
   * The publisher receives the manifest the architect drafted in the first
   * phase, never a healed one.
   */
  lemma {:induction false} PublishesDraftedManifest(c: Collaborators, prompt: string, deploy: bool, publish: bool, skipPublish: bool)
    ensures var t := RunMission(c, prompt, deploy, publish, skipPublish);
            forall i :: 0 <= i < |t| && t[i].Invoke? && t[i].call.Publish? ==>
              c.draft(prompt) == Drafted(t[i].call.manifest)
  {
    var t := RunMission(c, prompt, deploy, publish, skipPublish);
    PublishOnlyWhenAttempted(c, prompt, deploy, publish, skipPublish);
    if !PublishAttempted(c, prompt, deploy, publish, skipPublish) {
      CountCallsZero(t, IsPublish);
    } else {
      var m := c.draft(prompt).manifest;
      var loop := BuildLoop(c, m, deploy, 1);
      var head: Trace := [Update(Architecting), Invoke(Draft(prompt)), Update(Validating), Invoke(Check(m))];
      PublishedRunShape(c, prompt, deploy, publish, skipPublish);
      assert head == [Update(Architecting), Invoke(Draft(prompt))] + [Update(Validating), Invoke(Check(m))];
      CountPair(Architecting, Draft(prompt));
      CountPair(Validating, Check(m));
      CountsAppend([Update(Architecting), Invoke(Draft(prompt))], [Update(Validating), Invoke(Check(m))]);
      CarryNone(head, m);
      LoopCounts(c, m, deploy, 1);
      CarryNone(loop.steps, m);
      AfterBuildCarries(c, m, loop.end.deployUrl, publish, skipPublish);
      CarryAppend(head, loop.steps, m);
      CarryAppend(head + loop.steps, AfterBuild(c, m, loop.end.deployUrl, publish, skipPublish), m);
    }
  }

  /** A TIMEOUT status is the last status of its mission, and nothing is published after it. */
  lemma {:induction false} TimeoutEndsMission(c: Collaborators, prompt: string, deploy: bool, publish: bool, skipPublish: bool)
    requires Timeout in Statuses(RunMission(c, prompt, deploy, publish, skipPublish))
    ensures var s := Statuses(RunMission(c, prompt, deploy, publish, skipPublish));
            s[|s| - 1] == Timeout && Publishes(RunMission(c, prompt, deploy, publish, skipPublish)) == 0
  {
    var t := RunMission(c, prompt, deploy, publish, skipPublish);
    var s := Statuses(t);
    RunEndsInOneTerminal(c, prompt, deploy, publish, skipPublish);
    var i :| 0 <= i < |s| && s[i] == Timeout;
    assert IsTerminal(s[i]);
    assert i == |s| - 1;
    PublishOnlyWhenAttempted(c, prompt, deploy, publish, skipPublish);
    AttemptedRunLast(c, prompt, deploy, publish, skipPublish);
  }

  /** A mission that reaches the publish step ends in a status after the build phase, never in TIMEOUT. */
  lemma {:induction false} AttemptedRunLast(c: Collaborators, prompt: string, deploy: bool, publish: bool, skipPublish: bool)
    ensures var s := Statuses(RunMission(c, prompt, deploy, publish, skipPublish));
            PublishAttempted(c, prompt, deploy, publish, skipPublish) ==> |s| > 0 && s[|s| - 1] != Timeout
  {
    if PublishAttempted(c, prompt, deploy, publish, skipPublish) {
      var m := c.draft(prompt).manifest;
      AttemptedRunEndsAfterBuild(c, prompt, deploy, publish, skipPublish);
      AfterBuildNotTimeout(c, m, BuildLoop(c, m, deploy, 1).end.deployUrl, publish, skipPublish);
    }
  }

  lemma {:induction false} AfterBuildNotTimeout(c: Collaborators, m: Manifest.GantryManifest, deployUrl: Option<string>,
                                                publish: bool, skipPublish: bool)
    ensures var a := Statuses(AfterBuild(c, m, deployUrl, publish, skipPublish));
            |a| > 0 && a[|a| - 1] != Timeout
  {
    AfterBuildLast(c, m, deployUrl, publish, skipPublish);
  }

  /** A mission that reaches the publish step ends in the last status of the phase after the build. */
  lemma {:induction false} AttemptedRunEndsAfterBuild(c: Collaborators, prompt: string, deploy: bool, publish: bool, skipPublish: bool)
    requires PublishAttempted(c, prompt, deploy, publish, skipPublish)
    ensures var m := c.draft(prompt).manifest;
            var s := Statuses(RunMission(c, prompt, deploy, publish, skipPublish));
            var a := Statuses(AfterBuild(c, m, BuildLoop(c, m, deploy, 1).end.deployUrl, publish, skipPublish));
            |s| > 0 && |a| > 0 && s[|s| - 1] == a[|a| - 1]
  {
    var m := c.draft(prompt).manifest;
    var loop := BuildLoop(c, m, deploy, 1);
    var head: Trace := [Update(Architecting), Invoke(Draft(prompt)), Update(Validating), Invoke(Check(m))];
    var after := AfterBuild(c, m, loop.end.deployUrl, publish, skipPublish);
    PublishedRunShape(c, prompt, deploy, publish, skipPublish);
    AfterBuildLast(c, m, loop.end.deployUrl, publish, skipPublish);
    LastOfTrace(RunMission(c, prompt, deploy, publish, skipPublish), head + loop.steps, after);
  }

  /** A trace ends in the last status of its tail. */
  lemma {:induction false} LastOfTrace(t: Trace, pre: Trace, after: Trace)
    requires t == pre + after && |Statuses(after)| > 0
    ensures |Statuses(t)| > 0 && Statuses(t)[|Statuses(t)| - 1] == Statuses(after)[|Statuses(after)| - 1]
  {
    StatusesAppend(pre, after);
    LastOfAppend(Statuses(pre), Statuses(after));
  }

  lemma {:induction false} LastOfAppend(a: seq<Status>, b: seq<Status>)
    requires |b| > 0
    ensures (a + b)[|a + b| - 1] == b[|b| - 1]
  {
  }

  /**
   * PR_OPENED is written exactly when the publish step is reached, the
   * publisher returns a non-empty pull-request URL and the build produced
   * no deployment URL.
   */
  lemma {:induction false} PrOpenedOnlyWhenPublished(c: Collaborators, prompt: string, deploy: bool, publish: bool, skipPublish: bool)
    ensures PrOpened in Statuses(RunMission(c, prompt, deploy, publish, skipPublish)) <==>
              && PublishAttempted(c, prompt, deploy, publish, skipPublish)
              && c.publish(c.draft(prompt).manifest).Published?
              && c.publish(c.draft(prompt).manifest).prUrl != ""
              && !IsSet(BuildLoop(c, c.draft(prompt).manifest, deploy, 1).end.deployUrl)
  {
    var head: Trace := [Update(Architecting), Invoke(Draft(prompt))];
    var rest := match c.draft(prompt)
      case ArchitectError => [Update(Failed)]
      case DraftCrashed(_) => [Update(CriticalFailure)]
      case Drafted(m) => AfterDraft(c, m, deploy, publish, skipPublish);
    assert RunMission(c, prompt, deploy, publish, skipPublish) == head + rest;
    StatusesOfPair(Architecting, Draft(prompt));
    StatusesAppend(head, rest);
    match c.draft(prompt) {
      case ArchitectError => StatusesOfNote<Call>(Failed);
      case DraftCrashed(_) => StatusesOfNote<Call>(CriticalFailure);
      case Drafted(m) => AfterDraftPrOpened(c, m, deploy, publish, skipPublish);
    }
  }

  lemma {:induction false} AfterDraftPrOpened(c: Collaborators, m: Manifest.GantryManifest, deploy: bool, publish: bool, skipPublish: bool)
    ensures PrOpened in Statuses(AfterDraft(c, m, deploy, publish, skipPublish)) <==>
              && Policy.Validate(c.policy, m, c.matches).Ok?
              && BuildLoop(c, m, deploy, 1).end.Built?
              && !skipPublish && publish && c.publisherConfigured
              && c.publish(m).Published? && c.publish(m).prUrl != ""
              && !IsSet(BuildLoop(c, m, deploy, 1).end.deployUrl)
  {
    var head: Trace := [Update(Validating), Invoke(Check(m))];
    StatusesOfPair(Validating, Check(m));
    if Policy.Validate(c.policy, m, c.matches).Err? {
      assert AfterDraft(c, m, deploy, publish, skipPublish) == head + [Update(Blocked)];
      StatusesOfNote<Call>(Blocked);
      StatusesAppend(head, [Update(Blocked)]);
    } else {
      var rest := BuildAndPublish(c, m, deploy, publish, skipPublish);
      assert AfterDraft(c, m, deploy, publish, skipPublish) == head + rest;
      StatusesAppend(head, rest);
      var loop := BuildLoop(c, m, deploy, 1);
      LoopOwnStatuses(c, m, deploy, 1);
      LoopStatusesExclude(Statuses(loop.steps));
      match loop.end {
        case Stopped =>
        case Aborted =>
          assert rest == loop.steps + [Update(CriticalFailure)];
          StatusesOfNote<Call>(CriticalFailure);
          StatusesAppend(loop.steps, [Update(CriticalFailure)]);
        case Built(deployUrl) =>
          var after := AfterBuild(c, m, deployUrl, publish, skipPublish);
          assert rest == loop.steps + after;
          AfterBuildLast(c, m, deployUrl, publish, skipPublish);
          StatusesAppend(loop.steps, after);
      }
    }
  }

  /**
   * When the publish step is reached and the publisher opens a pull
   * request, a mission without a deployment URL ends in PR_OPENED and one
   * with a deployment URL in DEPLOYED.
   */
  lemma {:induction false} PublishedMissionEnds(c: Collaborators, prompt: string, deploy: bool, publish: bool, skipPublish: bool)
    requires PublishAttempted(c, prompt, deploy, publish, skipPublish)
    requires c.publish(c.draft(prompt).manifest).Published?
    requires c.publish(c.draft(prompt).manifest).prUrl != ""
    ensures var s := Statuses(RunMission(c, prompt, deploy, publish, skipPublish));
            var deployUrl := BuildLoop(c, c.draft(prompt).manifest, deploy, 1).end.deployUrl;
            && |s| > 0
            && (s[|s| - 1] == PrOpened <==> !IsSet(deployUrl))
            && (s[|s| - 1] == Deployed <==> IsSet(deployUrl))
  {
    var m := c.draft(prompt).manifest;
    AttemptedRunEndsAfterBuild(c, prompt, deploy, publish, skipPublish);
    AfterBuildLast(c, m, BuildLoop(c, m, deploy, 1).end.deployUrl, publish, skipPublish);
  }

  /**
   * A heal the architect refuses ends the build phase at once: BUILDING,
   * HEALING, then FAILED, with no further build.
   */
  lemma {:induction false} HealRefusalFails(c: Collaborators, m: Manifest.GantryManifest, deploy: bool, attempt: nat)
    requires 1 <= attempt < MaxRetries
    requires c.build(attempt, m, deploy).AuditFailed?
    requires c.heal(m, c.build(attempt, m, deploy).output).HealRejected?
    ensures var r := BuildLoop(c, m, deploy, attempt);
            && r.end.Stopped?
            && Statuses(r.steps) == [Building, Healing, Failed]
            && Builds(r.steps) == 1
  {
    var output := c.build(attempt, m, deploy).output;
    var round: Trace := [Update(Building), Invoke(Build(attempt, m, deploy))];
    var heal: Trace := [Update(Healing), Invoke(Heal(m, output))];
    assert BuildLoop(c, m, deploy, attempt).steps == round + heal + [Update(Failed)];
    StatusesOfPair(Building, Build(attempt, m, deploy));
    StatusesOfPair(Healing, Heal(m, output));
    StatusesOfNote<Call>(Failed);
    StatusesAppend(round, heal);
    StatusesAppend(round + heal, [Update(Failed)]);
    CountPair(Building, Build(attempt, m, deploy));
    CountPair(Healing, Heal(m, output));
    CountNote(Failed);
    CountsAppend(round, heal);
    CountsAppend(round + heal, [Update(Failed)]);
  }

  // ---------------------------------------------------------------------
  // The publish call as written

  /**
   * The orchestrator passes a `mission_id` keyword the publisher does not
   * accept, so the call raises before the publisher runs.
   */
  const PublishKeywordError := "publish_mission() got an unexpected keyword argument 'mission_id'"

  function PublishAsWritten(m: Manifest.GantryManifest): (r: PublishOutcome)
    ensures !r.Published?
  {
    PublishCrashed(PublishKeywordError)
  }

  /** The mission with the publish call as the orchestrator writes it. */
  function RunMissionAsWritten(c: Collaborators, prompt: string, deploy: bool, publish: bool, skipPublish: bool): Trace
  {
    RunMission(c.(publish := PublishAsWritten), prompt, deploy, publish, skipPublish)
  }

  /**
   * As written, every mission that reaches the publish step ends in
   * CRITICAL_FAILURE, and no mission ever ends in PR_OPENED.
   */
  lemma {:induction false} AsWrittenPublishAborts(c: Collaborators, prompt: string, deploy: bool, publish: bool, skipPublish: bool)
    ensures PrOpened !in Statuses(RunMissionAsWritten(c, prompt, deploy, publish, skipPublish))
    ensures var c' := c.(publish := PublishAsWritten);
            var s := Statuses(RunMissionAsWritten(c, prompt, deploy, publish, skipPublish));
            PublishAttempted(c', prompt, deploy, publish, skipPublish) ==> |s| > 0 && s[|s| - 1] == CriticalFailure
  {
    var c' := c.(publish := PublishAsWritten);
    PrOpenedOnlyWhenPublished(c', prompt, deploy, publish, skipPublish);
    if PublishAttempted(c', prompt, deploy, publish, skipPublish) {
      var m := c'.draft(prompt).manifest;
      var loop := BuildLoop(c', m, deploy, 1);
      var head: Trace := [Update(Architecting), Invoke(Draft(prompt)), Update(Validating), Invoke(Check(m))];
      var after := AfterBuild(c', m, loop.end.deployUrl, publish, skipPublish);
      PublishedRunShape(c', prompt, deploy, publish, skipPublish);
      StatusesAppend(head + loop.steps, after);
      AfterBuildLast(c', m, loop.end.deployUrl, publish, skipPublish);
    }
  }
}

=== FILE: foundry.dfy ===
/** The build of one manifest in a container (`Foundry.build`): the steps it
    logs, the verdict files it writes, when it removes the container, and how
    each exit path ends. The container is an abstract resource (created,
    removed); Docker, the deployer's commands, the audit command and the
    structure check contribute only their outcomes, given in a `BuildEnv`.
    The dead man's switch is a timer thread; the model reads it as the first
    checkpoint at which the build finds the timeout flag set. */
module Foundry {
  import opened Wrappers
  import opened Text
  import opened Manifest
  import opened Evidence
  import Deployer

  const BuilderImage := "gantry/builder:latest"
  const BuildTimeoutSeconds := 180

  /** `STACK_IMAGES`, which covers every stack. */
  function StackImage(stack: StackType): string {
    match stack
    case Python => "python:3.11-slim"
    case Node => "node:20-alpine"
    case Rust => "rust:1.75-slim"
  }

  /** `_get_image`: the universal builder image when it is available,
      otherwise the stack's own image. */
  function GetImage(useBuilderImage: bool, stack: StackType): (image: string)
    ensures useBuilderImage ==> image == BuilderImage
    ensures !useBuilderImage ==> image == StackImage(stack)
    ensures image in {BuilderImage, "python:3.11-slim", "node:20-alpine", "rust:1.75-slim"}
  {
    if useBuilderImage then BuilderImage else StackImage(stack)
  }

  /** Stacks whose Vercel serverless layout is checked after a passing audit. */
  predicate ChecksStructure(stack: StackType) {
    stack == Node || stack == Python
  }

  /** `_verify_serverless_structure`: for Node and Python, the check command
      must exit 0 and print STRUCTURE_VALID; other stacks are valid as is. */
  function VerifyStructure(stack: StackType, check: (int, string)): (ok: bool)
    ensures !ChecksStructure(stack) ==> ok
    ensures ChecksStructure(stack) ==> (ok <==> check.0 == 0 && Contains(check.1, "STRUCTURE_VALID"))
  {
    if ChecksStructure(stack) then check.0 == 0 && Contains(check.1, "STRUCTURE_VALID") else true
  }

  /** Where an unexpected exception (anything but a timeout, a failed audit or
      a deployment error) is raised: pulling the image, spawning the pod,
      copying the files in, the dependency install (its `exec_run`, or the
      decoding of pip's output), the audit run (its `exec_run` or the decoding
      of its output), the structure check, the deployer, or the `try` block's
      own removal of the container after the verdict. */
  datatype CrashPoint = PullImage | SpawnPod | InjectFiles | DepsInstall | RunAudit | CheckStructure | Deploy | RemovePod

  /** The three places the build reads the timeout flag. */
  datatype Checkpoint = AfterSpawn | AfterInject | AfterDeps

  /** The first fault the build meets, if any. A fault scheduled at a step the
      build does not reach has no effect. A timeout names the checkpoint that
      finds the flag set, and whether the switch fired before `containers.run`
      had returned and so found no container to kill; only the first
      checkpoint can see a switch that fired that early. A switch that fires
      after the last checkpoint shows only through the calls it breaks: an
      audit exit code such as 137, or a crash at the next Docker call. */
  datatype Fault = Crash(at: CrashPoint, message: string) | Timeout(checkpoint: Checkpoint, beforeSpawn: bool)

  datatype BuildEnv = BuildEnv(
    useBuilderImage: bool,
    fault: Option<Fault>,
    designImage: Option<string>,          // design-reference image found and packed
    deps: (int, string),                  // dependency install: exit code, output
    audit: (int, string),                 // audit command: exit code, output
    structure: (int, string),             // structure check command: exit code, output
    vercelToken: Option<string>,
    vercelExec: string -> (int, string),
    podId: string,                        // the container's short id
    cleanupFails: bool)                   // the swallowed forced removals (handler, switch) raise

  predicate CrashesAt(env: BuildEnv, p: CrashPoint) {
    env.fault.Some? && env.fault.value.Crash? && env.fault.value.at == p
  }

  predicate TimesOutAt(env: BuildEnv, c: Checkpoint) {
    env.fault.Some? && env.fault.value.Timeout? && env.fault.value.checkpoint == c
  }

  function CrashMessage(env: BuildEnv): string {
    if env.fault.Some? && env.fault.value.Crash? then env.fault.value.message else ""
  }

  /** Whether the dead man's switch, when it fired, found a container to kill
      and remove. */
  predicate SwitchFindsPod(env: BuildEnv) {
    !(env.fault.Some? && env.fault.value.Timeout? && env.fault.value.checkpoint == AfterSpawn
      && env.fault.value.beforeSpawn)
  }

  /** How `build` ends: a `BuildResult` (audit passed) or the exception it
      raises. */
  datatype Outcome =
    | Passed(deployUrl: Option<string>)
    | AuditFailed(exitCode: int, output: string)
    | TimedOut
    | Crashed(message: string)

  datatype BuildReport = BuildReport(
    outcome: Outcome,
    box: BlackBox,
    containerCreated: bool,
    containerRemoved: bool)

  /** How the `try` block is left, before the `except` clauses run. */
  datatype Exit =
    | Returned(deployUrl: Option<string>)
    | RaisedAudit(exitCode: int, output: string)
    | RaisedTimeout
    | RaisedOther(message: string)

  /** The state at an exit from the `try` block. */
  datatype Stage = Stage(box: BlackBox, created: bool, removed: bool, exit: Exit)

  const StructureFailOutput :=
    "Project must have api/index.js (or .py) with proper exports, and vercel.json with rewrites. See Vercel serverless function format."

  /** The log only grew from `b`, and no file other than the verdict files
      and the recorder changed. */
  predicate Extends(b: BlackBox, b': BlackBox) {
    && b.log <= b'.log
    && b'.folder.manifest == b.folder.manifest
  }

  /** The bookkeeping every exit of the `try` block keeps: a normal return or
      a failed audit has finalized the log and removed the container; a
      timeout or other exception has not removed it. */
  predicate ExitDiscipline(st: Stage) {
    && (st.removed ==> st.created)
    && (st.exit.Returned? || st.exit.RaisedAudit? <==> st.removed)
    && (st.exit.Returned? || st.exit.RaisedAudit? ==> st.box.folder.recorder == Some(st.box.log))
    && (st.exit.RaisedTimeout? ==> st.created)
  }

  /** The exit after the `try` block's own `container.remove`: a removal that
      raises replaces the intended exit with that exception. */
  function AfterRemove(env: BuildEnv, exit: Exit): Exit {
    if CrashesAt(env, RemovePod) then RaisedOther(CrashMessage(env)) else exit
  }

  /** Finalize and remove the container, then leave the `try` block. */
  function Leave(b: BlackBox, exit: Exit, env: BuildEnv): (st: Stage)
    requires exit.Returned? || exit.RaisedAudit?
    ensures ExitDiscipline(st) && Extends(b, st.box) && st.created
    ensures st.exit == AfterRemove(env, exit)
    ensures st.box.log == b.log && st.box.folder.recorder == Some(b.log)
    ensures st.box.folder.auditPass == b.folder.auditPass && st.box.folder.auditFail == b.folder.auditFail
  {
    if CrashesAt(env, RemovePod) then Stage(Finalize(b), true, false, RaisedOther(CrashMessage(env)))
    else Stage(Finalize(b), true, true, exit)
  }

  /** Deployment after the checks: skipped when `deploy` is false, attempted
      when the deployer is configured and the builder image is in use; a
      deployment error is logged and swallowed. */
  function DeployStep(m: GantryManifest, deploy: bool, env: BuildEnv, b: BlackBox): (st: Stage)
    ensures ExitDiscipline(st) && Extends(b, st.box) && st.created
    ensures st.exit.Returned? || st.exit == RaisedOther(CrashMessage(env))
    ensures st.box.folder.auditPass == b.folder.auditPass && st.box.folder.auditFail == b.folder.auditFail
    ensures !deploy ==> st == Leave(Log(b, "DEPLOY_SKIPPED", Some("deploy=false")), Returned(None), env)
    ensures deploy && (!Deployer.IsConfigured(env.vercelToken) || !env.useBuilderImage) ==>
              st == Leave(b, Returned(None), env)
    ensures st.exit.Returned? && st.exit.deployUrl.Some? ==>
              && deploy && Deployer.IsConfigured(env.vercelToken) && env.useBuilderImage
              && Deployer.DeployMission(env.vercelToken, m.projectName, env.vercelExec) == Ok(st.exit.deployUrl.value)
    // without a crash in the deployer or the removal the step returns, with a URL exactly when
    // a deployment was made and succeeded
    ensures !CrashesAt(env, Deploy) && !CrashesAt(env, RemovePod) ==>
              && st.exit.Returned?
              && (st.exit.deployUrl.Some? <==>
                    && deploy && Deployer.IsConfigured(env.vercelToken) && env.useBuilderImage
                    && Deployer.DeployMission(env.vercelToken, m.projectName, env.vercelExec).Ok?)
    // the removal is reached whenever the deployer does not crash, so its failure is the step's exception
    ensures CrashesAt(env, RemovePod) ==> st.exit == RaisedOther(CrashMessage(env))
    // a deployment error is logged as DEPLOY_FAILED and swallowed
    ensures && deploy && Deployer.IsConfigured(env.vercelToken) && env.useBuilderImage && !CrashesAt(env, Deploy)
            && Deployer.DeployMission(env.vercelToken, m.projectName, env.vercelExec).Err? ==>
              st.box.log == b.log + [Entry("DEPLOY_STARTED", Some("Vercel")),
                                     Entry("DEPLOY_FAILED", Some(Deployer.Message(
                                       Deployer.DeployMission(env.vercelToken, m.projectName, env.vercelExec).error)))]
  {
    if !deploy then Leave(Log(b, "DEPLOY_SKIPPED", Some("deploy=false")), Returned(None), env)
    else if Deployer.IsConfigured(env.vercelToken) && env.useBuilderImage then
      var b1 := Log(b, "DEPLOY_STARTED", Some("Vercel"));
      if CrashesAt(env, Deploy) then Stage(b1, true, false, RaisedOther(CrashMessage(env)))
      else match Deployer.DeployMission(env.vercelToken, m.projectName, env.vercelExec)
        case Ok(url) => Leave(Log(b1, "DEPLOY_COMPLETE", Some(url)), Returned(Some(url)), env)
        case Err(e) => Leave(Log(b1, "DEPLOY_FAILED", Some(Deployer.Message(e))), Returned(None), env)
    else Leave(b, Returned(None), env)
  }

  /** What the verdict stage guarantees, relative to the folder it started
      from. */
  predicate VerdictFacts(m: GantryManifest, deploy: bool, env: BuildEnv, folder: Folder, st: Stage) {
    && !st.exit.RaisedTimeout?
    && (env.audit.0 != 0 ==>
          && st.exit == AfterRemove(env, RaisedAudit(env.audit.0, env.audit.1))
          && st.box.folder.auditFail == Some(env.audit)
          && st.box.folder.auditPass == folder.auditPass)
    && (env.audit.0 == 0 ==> st.box.folder.auditPass == Some(env.audit.1))
    && (env.audit.0 == 0 && st.exit.RaisedAudit? ==>
          && ChecksStructure(m.stack) && !VerifyStructure(m.stack, env.structure)
          && st.exit == RaisedAudit(-1, StructureFailOutput)
          && st.box.folder.auditFail == Some((-1, "Invalid Vercel serverless structure")))
    && ((env.audit.0 == 0 && ChecksStructure(m.stack) && !VerifyStructure(m.stack, env.structure)
         && !CrashesAt(env, CheckStructure)) ==>
          && st.exit == AfterRemove(env, RaisedAudit(-1, StructureFailOutput))
          && st.box.folder.auditFail == Some((-1, "Invalid Vercel serverless structure")))
    && (st.exit.Returned? || st.exit.RaisedAudit? ==> !CrashesAt(env, RemovePod))
    && (st.exit.Returned? ==>
          && env.audit.0 == 0 && VerifyStructure(m.stack, env.structure)
          && st.box.folder.auditFail == folder.auditFail)
    && (st.exit.Returned? && st.exit.deployUrl.Some? ==>
          && deploy && Deployer.IsConfigured(env.vercelToken) && env.useBuilderImage
          && Deployer.DeployMission(env.vercelToken, m.projectName, env.vercelExec)
             == Ok(st.exit.deployUrl.value))
    && (st.exit.RaisedOther? ==>
          && (CrashesAt(env, CheckStructure) || CrashesAt(env, Deploy) || CrashesAt(env, RemovePod))
          && st.exit.message == CrashMessage(env))
  }

  /** The critic's verdict on the audit run, then the structure check, then
      deployment. */
  function Verdict(m: GantryManifest, deploy: bool, env: BuildEnv, b: BlackBox): (st: Stage)
    ensures ExitDiscipline(st) && Extends(b, st.box) && st.created
    ensures VerdictFacts(m, deploy, env, b.folder, st)
  {
    var (code, output) := env.audit;
    if code != 0 then
      Leave(Log(SaveAuditFail(b, code, output), "BUILD_FAILED", None), RaisedAudit(code, output), env)
    else AuditPassed(m, deploy, env, b)
  }

  /** The verdict after an audit that exited 0: audit_pass.json, then the
      structure check for Node and Python, then deployment. */
  function AuditPassed(m: GantryManifest, deploy: bool, env: BuildEnv, b: BlackBox): (st: Stage)
    requires env.audit.0 == 0
    ensures ExitDiscipline(st) && Extends(b, st.box) && st.created
    ensures VerdictFacts(m, deploy, env, b.folder, st)
  {
    var b1 := Log(SaveAuditPass(b, env.audit.1), "BUILD_COMPLETE", None);
    if ChecksStructure(m.stack) then
      var b2 := Log(b1, "STRUCTURE_CHECK_STARTED", Some("Verifying Vercel format"));
      if CrashesAt(env, CheckStructure) then Stage(b2, true, false, RaisedOther(CrashMessage(env)))
      else if !VerifyStructure(m.stack, env.structure) then
        var b3 := Log(SaveAuditFail(b2, -1, "Invalid Vercel serverless structure"), "STRUCTURE_CHECK_FAILED", None);
        Leave(b3, RaisedAudit(-1, StructureFailOutput), env)
      else DeployStep(m, deploy, env, Log(b2, "STRUCTURE_CHECK_PASSED", None))
    else DeployStep(m, deploy, env, b1)
  }

  /** Whether the manifest ships a file at `path`. */
  predicate HasFile(m: GantryManifest, path: string) {
    exists k | 0 <= k < |m.files| :: m.files[k].path == path
  }

  /** Whether the build installs dependencies: a Python manifest with
      requirements.txt or a Node manifest with package.json. */
  predicate InstallsDeps(m: GantryManifest) {
    (HasFile(m, "requirements.txt") && m.stack == Python) || (HasFile(m, "package.json") && m.stack == Node)
  }

  /** Dependency installation when the install command runs to its end: pip
      for a Python manifest with requirements.txt (a failure is only a
      warning), npm for a Node manifest with package.json (logged as
      installed only on exit 0). */
  function InstallDeps(m: GantryManifest, env: BuildEnv, b: BlackBox): (r: BlackBox)
    ensures Extends(b, r) && r.folder == b.folder
    ensures !InstallsDeps(m) ==> r == b
    ensures InstallsDeps(m) ==> |r.log| > |b.log| && r.log[|b.log|].event == "DEPS_INSTALL_STARTED"
  {
    if HasFile(m, "requirements.txt") && m.stack == Python then
      var b1 := Log(b, "DEPS_INSTALL_STARTED", Some("requirements.txt"));
      if env.deps.0 != 0 then Log(b1, "DEPS_INSTALL_WARNING", Some(Prefix(env.deps.1, 200)))
      else Log(b1, "DEPS_INSTALLED", None)
    else if HasFile(m, "package.json") && m.stack == Node then
      var b1 := Log(b, "DEPS_INSTALL_STARTED", Some("package.json"));
      if env.deps.0 == 0 then Log(b1, "DEPS_INSTALLED", None) else b1
    else b
  }

  /** A fault that stops the build before the critic's verdict. A crash in
      the dependency install counts only when the manifest installs any. */
  predicate FaultBeforeVerdict(m: GantryManifest, env: BuildEnv) {
    env.fault.Some? &&
      (|| env.fault.value.Timeout?
       || env.fault.value.at in {PullImage, SpawnPod, InjectFiles, RunAudit}
       || (env.fault.value.at == DepsInstall && InstallsDeps(m)))
  }

  /** The `try` block after the pod is spawned: the first checkpoint, file
      injection, the second checkpoint, dependencies, the third checkpoint,
      the audit run and the verdict. */
  function InPod(m: GantryManifest, deploy: bool, env: BuildEnv, b: BlackBox): (st: Stage)
    requires !CrashesAt(env, PullImage) && !CrashesAt(env, SpawnPod)
    ensures ExitDiscipline(st) && Extends(b, st.box) && st.created
    ensures st.exit.RaisedTimeout? <==> env.fault.Some? && env.fault.value.Timeout?
    ensures FaultBeforeVerdict(m, env) ==> st.box.folder == b.folder
    ensures FaultBeforeVerdict(m, env) && !st.exit.RaisedTimeout? ==> st.exit == RaisedOther(CrashMessage(env))
    ensures !FaultBeforeVerdict(m, env) ==> VerdictFacts(m, deploy, env, b.folder, st)
  {
    if TimesOutAt(env, AfterSpawn) then Stage(b, true, false, RaisedTimeout)
    else if CrashesAt(env, InjectFiles) then Stage(b, true, false, RaisedOther(CrashMessage(env)))
    else Injected(m, deploy, env, Log(b, "FILES_INJECTED", Some(NatToString(|m.files|))))
  }

  /** Once the manifest's files are copied in: the design image, the second
      checkpoint and the rest. */
  function Injected(m: GantryManifest, deploy: bool, env: BuildEnv, b: BlackBox): (st: Stage)
    requires !CrashesAt(env, PullImage) && !CrashesAt(env, SpawnPod) && !CrashesAt(env, InjectFiles)
    requires !TimesOutAt(env, AfterSpawn)
    ensures ExitDiscipline(st) && Extends(b, st.box) && st.created
    ensures st.exit.RaisedTimeout? <==> env.fault.Some? && env.fault.value.Timeout?
    ensures FaultBeforeVerdict(m, env) ==> st.box.folder == b.folder
    ensures FaultBeforeVerdict(m, env) && !st.exit.RaisedTimeout? ==> st.exit == RaisedOther(CrashMessage(env))
    ensures !FaultBeforeVerdict(m, env) ==> VerdictFacts(m, deploy, env, b.folder, st)
  {
    var b2 := if env.designImage.Some? then Log(b, "DESIGN_IMAGE_INJECTED", env.designImage) else b;
    if TimesOutAt(env, AfterInject) then Stage(b2, true, false, RaisedTimeout)
    else AfterInjection(m, deploy, env, b2)
  }

  /** The rest of the pod's work once the files are in: dependencies, the
      third checkpoint, the audit run and the verdict. */
  function AfterInjection(m: GantryManifest, deploy: bool, env: BuildEnv, b: BlackBox): (st: Stage)
    requires !CrashesAt(env, PullImage) && !CrashesAt(env, SpawnPod) && !CrashesAt(env, InjectFiles)
    requires !TimesOutAt(env, AfterSpawn) && !TimesOutAt(env, AfterInject)
    ensures ExitDiscipline(st) && Extends(b, st.box) && st.created
    ensures st.exit.RaisedTimeout? <==> env.fault.Some? && env.fault.value.Timeout?
    ensures FaultBeforeVerdict(m, env) ==> st.box.folder == b.folder
    ensures FaultBeforeVerdict(m, env) && !st.exit.RaisedTimeout? ==> st.exit == RaisedOther(CrashMessage(env))
    ensures !FaultBeforeVerdict(m, env) ==> VerdictFacts(m, deploy, env, b.folder, st)
  {
    if CrashesAt(env, DepsInstall) && InstallsDeps(m) then
      var file := if m.stack == Python then "requirements.txt" else "package.json";
      Stage(Log(b, "DEPS_INSTALL_STARTED", Some(file)), true, false, RaisedOther(CrashMessage(env)))
    else AuditStage(m, deploy, env, InstallDeps(m, env, b))
  }

  /** After the dependencies: the third checkpoint, the audit run and the
      verdict. */
  function AuditStage(m: GantryManifest, deploy: bool, env: BuildEnv, b: BlackBox): (st: Stage)
    requires !CrashesAt(env, PullImage) && !CrashesAt(env, SpawnPod) && !CrashesAt(env, InjectFiles)
    requires !TimesOutAt(env, AfterSpawn) && !TimesOutAt(env, AfterInject)
    requires !(CrashesAt(env, DepsInstall) && InstallsDeps(m))
    ensures ExitDiscipline(st) && Extends(b, st.box) && st.created
    ensures st.exit.RaisedTimeout? <==> env.fault.Some? && env.fault.value.Timeout?
    ensures FaultBeforeVerdict(m, env) ==> st.box.folder == b.folder
    ensures FaultBeforeVerdict(m, env) && !st.exit.RaisedTimeout? ==> st.exit == RaisedOther(CrashMessage(env))
    ensures !FaultBeforeVerdict(m, env) ==> VerdictFacts(m, deploy, env, b.folder, st)
  {
    if TimesOutAt(env, AfterDeps) then Stage(b, true, false, RaisedTimeout)
    else
      var b4 := Log(b, "AUDIT_STARTED", Some(m.auditCommand));
      if CrashesAt(env, RunAudit) then Stage(b4, true, false, RaisedOther(CrashMessage(env)))
      else Verdict(m, deploy, env, b4)
  }

  /** The whole `try` block: pod initialisation, image, spawn, then the rest
      inside the pod. */
  function Body(m: GantryManifest, deploy: bool, env: BuildEnv, b: BlackBox): (st: Stage)
    ensures ExitDiscipline(st) && Extends(b, st.box)
    ensures st.exit.RaisedTimeout? <==> env.fault.Some? && env.fault.value.Timeout?
    ensures FaultBeforeVerdict(m, env) ==> st.box.folder == b.folder
    ensures FaultBeforeVerdict(m, env) && !st.exit.RaisedTimeout? ==> st.exit == RaisedOther(CrashMessage(env))
    ensures !FaultBeforeVerdict(m, env) ==> VerdictFacts(m, deploy, env, b.folder, st) && st.created
    ensures !st.created <==> CrashesAt(env, PullImage) || CrashesAt(env, SpawnPod)
  {
    var b1 := Log(b, "POD_INIT", None);
    if CrashesAt(env, PullImage) then Stage(b1, false, false, RaisedOther(CrashMessage(env)))
    else
      var b2 := Log(b1, "IMAGE_READY", Some(GetImage(env.useBuilderImage, m.stack)));
      if CrashesAt(env, SpawnPod) then Stage(b2, false, false, RaisedOther(CrashMessage(env)))
      else InPod(m, deploy, env, Log(b2, "POD_SPAWNED", Some(env.podId)))
  }

  const TimeoutOutput := "Dead Man's Switch triggered - build timeout"

  /** An event appears in the log. */
  predicate Logged(b: BlackBox, event: string) {
    exists k | 0 <= k < |b.log| :: b.log[k].event == event
  }

  /** The `except` clauses as intended: a timeout and any other exception log
      their event, record a FAIL verdict with exit code -1, finalize the log
      and force-remove a created container (best effort: a failing removal is
      swallowed); a failed audit is re-raised as it is. */
  function Handle(st: Stage, env: BuildEnv): (r: BuildReport)
    requires ExitDiscipline(st)
    ensures st.box.log <= r.box.log && r.box.folder.manifest == st.box.folder.manifest
    ensures r.box.folder.recorder == Some(r.box.log)
    ensures r.containerCreated == st.created
    ensures r.containerRemoved ==> r.containerCreated
    // no exit path leaves a created container behind unless Docker refuses the forced removal
    ensures r.containerCreated && !env.cleanupFails ==> r.containerRemoved
    ensures r.outcome.Passed? || r.outcome.AuditFailed? ==> r.containerRemoved
    ensures r.outcome.TimedOut? <==> st.exit.RaisedTimeout?
  {
    match st.exit
    case Returned(url) => BuildReport(Passed(url), st.box, st.created, st.removed)
    case RaisedAudit(code, output) => BuildReport(AuditFailed(code, output), st.box, st.created, st.removed)
    case RaisedTimeout =>
      var b1 := Log(st.box, "TIMEOUT_TRIGGERED", Some("Limit: " + NatToString(BuildTimeoutSeconds) + "s"));
      BuildReport(TimedOut, Finalize(SaveAuditFail(b1, -1, TimeoutOutput)), st.created, st.created && !env.cleanupFails)
    case RaisedOther(message) =>
      var b1 := Log(st.box, "BUILD_ERROR", Some(message));
      BuildReport(Crashed(message), Finalize(SaveAuditFail(b1, -1, message)), st.created, st.created && !env.cleanupFails)
  }

  /** The `except` clauses as written: the timeout handler does not remove
      the container, so after a timeout only the dead man's switch removes
      it, and only when a container existed as it fired. */
  function HandleAsWritten(st: Stage, env: BuildEnv): (r: BuildReport)
    requires ExitDiscipline(st)
    ensures !st.exit.RaisedTimeout? ==> r == Handle(st, env)
    ensures st.exit.RaisedTimeout? ==>
              && r.outcome == TimedOut && r.box == Handle(st, env).box && r.containerCreated
              && (r.containerRemoved <==> SwitchFindsPod(env) && !env.cleanupFails)
  {
    match st.exit
    case RaisedTimeout =>
      var b1 := Log(st.box, "TIMEOUT_TRIGGERED", Some("Limit: " + NatToString(BuildTimeoutSeconds) + "s"));
      BuildReport(TimedOut, Finalize(SaveAuditFail(b1, -1, TimeoutOutput)), st.created,
                  st.created && SwitchFindsPod(env) && !env.cleanupFails)
    case _ => Handle(st, env)
  }

  /** `Foundry.build` over the mission's evidence folder, with the timeout
      handler removing the container as the other handlers do. */
  function Build(m: GantryManifest, deploy: bool, env: BuildEnv, folder: Folder): (r: BuildReport)
    ensures [Entry("BUILD_STARTED", Some(m.projectName)), Entry("MANIFEST_SAVED", Some("manifest.json"))] <= r.box.log
    ensures r.box.folder.manifest == Some(m)
    // the flight recorder holds the complete log on every exit path
    ensures r.box.folder.recorder == Some(r.box.log)
    // a container exists only once spawned, and none is left behind unless Docker refuses the forced removal
    ensures r.containerCreated <==> !CrashesAt(env, PullImage) && !CrashesAt(env, SpawnPod)
    ensures r.containerRemoved ==> r.containerCreated
    ensures r.containerCreated && !env.cleanupFails ==> r.containerRemoved
    ensures r.outcome.Passed? || r.outcome.AuditFailed? ==> r.containerRemoved
    ensures r.outcome.TimedOut? <==> env.fault.Some? && env.fault.value.Timeout?
  {
    var b0 := SaveManifest(Log(Open(folder), "BUILD_STARTED", Some(m.projectName)), m);
    assert b0.log == [Entry("BUILD_STARTED", Some(m.projectName)), Entry("MANIFEST_SAVED", Some("manifest.json"))];
    var st := Body(m, deploy, env, b0);
    assert st.box.folder.manifest == Some(m);
    Handle(st, env)
  }

  /** `Foundry.build` as written: it differs from `Build` only in who removes
      the container after a timeout. */
  function BuildAsWritten(m: GantryManifest, deploy: bool, env: BuildEnv, folder: Folder): (r: BuildReport)
    ensures !(env.fault.Some? && env.fault.value.Timeout?) ==> r == Build(m, deploy, env, folder)
    ensures env.fault.Some? && env.fault.value.Timeout? ==>
              && r.outcome == TimedOut && r.box == Build(m, deploy, env, folder).box && r.containerCreated
              && (r.containerRemoved <==> SwitchFindsPod(env) && !env.cleanupFails)
  {
    var b0 := SaveManifest(Log(Open(folder), "BUILD_STARTED", Some(m.projectName)), m);
    HandleAsWritten(Body(m, deploy, env, b0), env)
  }

  /** As written, a switch that fires while the image is still being pulled
      or the pod is still being spawned finds no container; the first
      checkpoint then raises the timeout and no handler removes the container
      that was created meanwhile. The intended build removes it. */
  lemma {:induction false} TimeoutBeforeSpawnLeaks(m: GantryManifest, deploy: bool, env: BuildEnv, folder: Folder)
    requires env.fault == Some(Timeout(AfterSpawn, true)) && !env.cleanupFails
    ensures var w := BuildAsWritten(m, deploy, env, folder);
      w.outcome == TimedOut && w.containerCreated && !w.containerRemoved
    ensures Build(m, deploy, env, folder).containerRemoved
  {
    assert !SwitchFindsPod(env);
  }

  /** A timeout records a FAIL verdict with exit code -1, leaves any earlier
      audit_pass.json alone, and removes the container unless Docker refuses. */
  lemma {:induction false} TimeoutPath(m: GantryManifest, deploy: bool, env: BuildEnv, folder: Folder)
    requires env.fault.Some? && env.fault.value.Timeout?
    ensures var r := Build(m, deploy, env, folder);
      && r.outcome == TimedOut
      && r.containerCreated && (r.containerRemoved <==> !env.cleanupFails)
      && r.box.folder.auditFail == Some((-1, TimeoutOutput))
      && r.box.folder.auditPass == folder.auditPass
      && Logged(r.box, "TIMEOUT_TRIGGERED")
  {
    var r := Build(m, deploy, env, folder);
    assert r.box.log[|r.box.log| - 2].event == "TIMEOUT_TRIGGERED";
  }

  /** Any other exception logs BUILD_ERROR, records a FAIL verdict with exit
      code -1 and the exception's message, and removes a created container
      unless Docker refuses the forced removal. */
  lemma {:induction false} CrashPath(m: GantryManifest, deploy: bool, env: BuildEnv, folder: Folder)
    ensures var r := Build(m, deploy, env, folder);
      r.outcome.Crashed? ==>
        && env.fault.Some? && env.fault.value.Crash? && env.fault.value.message == r.outcome.message
        && r.box.folder.auditFail == Some((-1, r.outcome.message))
        && (r.containerRemoved <==> r.containerCreated && !env.cleanupFails)
        && Logged(r.box, "BUILD_ERROR")
  {
    var b0 := SaveManifest(Log(Open(folder), "BUILD_STARTED", Some(m.projectName)), m);
    var st := Body(m, deploy, env, b0);
    BodyCrash(m, deploy, env, b0);
    HandleCrash(st, env);
  }

  /** The `try` block raises a non-timeout exception only for a crash fault, with its message. */
  lemma {:induction false} BodyCrash(m: GantryManifest, deploy: bool, env: BuildEnv, b: BlackBox)
    ensures var st := Body(m, deploy, env, b);
      st.exit.RaisedOther? ==> env.fault.Some? && env.fault.value.Crash? && env.fault.value.message == st.exit.message
  {
    var st := Body(m, deploy, env, b);
    if st.exit.RaisedOther? && !FaultBeforeVerdict(m, env) {
      assert VerdictFacts(m, deploy, env, b.folder, st);
      assert CrashesAt(env, CheckStructure) || CrashesAt(env, Deploy) || CrashesAt(env, RemovePod);
    }
  }

  /** The handler turns a non-timeout exception into a crash that logs BUILD_ERROR and records the message. */
  lemma {:induction false} HandleCrash(st: Stage, env: BuildEnv)
    requires ExitDiscipline(st)
    ensures var r := Handle(st, env);
      r.outcome.Crashed? ==>
        && st.exit == RaisedOther(r.outcome.message)
        && r.box.folder.auditFail == Some((-1, r.outcome.message))
        && (r.containerRemoved <==> r.containerCreated && !env.cleanupFails)
        && Logged(r.box, "BUILD_ERROR")
  {
    var r := Handle(st, env);
    if r.outcome.Crashed? {
      assert r.box.log[|r.box.log| - 2].event == "BUILD_ERROR";
    }
  }

  /** A non-zero audit exit, with no fault before the verdict, records
      audit_fail.json with that exit code and output and leaves
      audit_pass.json alone. If the container's removal then succeeds, the
      build raises `AuditFailedError` carrying the same code and output;
      if it raises, the build crashes with the removal's error, which
      overwrites the verdict with exit code -1. */
  lemma {:induction false} AuditExitFailurePath(m: GantryManifest, deploy: bool, env: BuildEnv, folder: Folder)
    requires !FaultBeforeVerdict(m, env) && env.audit.0 != 0
    ensures var r := Build(m, deploy, env, folder);
      && r.box.folder.auditPass == folder.auditPass
      && (!CrashesAt(env, RemovePod) ==>
            && r.outcome == AuditFailed(env.audit.0, env.audit.1)
            && r.box.folder.auditFail == Some(env.audit)
            && r.containerRemoved)
      && (CrashesAt(env, RemovePod) ==>
            && r.outcome == Crashed(CrashMessage(env))
            && r.box.folder.auditFail == Some((-1, CrashMessage(env))))
  {
  }

  /** Every `AuditFailedError` leaves audit_fail.json with the code it
      carries, after removing the container. */
  lemma {:induction false} AuditFailedRecordsCode(m: GantryManifest, deploy: bool, env: BuildEnv, folder: Folder)
    ensures var r := Build(m, deploy, env, folder);
      r.outcome.AuditFailed? ==>
        && r.containerRemoved && r.box.folder.auditFail.Some?
        && r.box.folder.auditFail.value.0 == r.outcome.exitCode
  {
    var b0 := SaveManifest(Log(Open(folder), "BUILD_STARTED", Some(m.projectName)), m);
    BodyAudit(m, deploy, env, b0);
  }

  /** A failed audit leaves the `try` block with the container removed and audit_fail.json holding its code. */
  lemma {:induction false} BodyAudit(m: GantryManifest, deploy: bool, env: BuildEnv, b: BlackBox)
    ensures var st := Body(m, deploy, env, b);
      st.exit.RaisedAudit? ==>
        && st.removed && st.box.folder.auditFail.Some?
        && st.box.folder.auditFail.value.0 == st.exit.exitCode
  {
  }

  /** A failing `container.remove` in the `try` block, reached after any
      verdict, turns the build into a crash with the removal's error: the
      verdict it had written is overwritten by a FAIL with exit code -1, and
      an audit_pass.json already written stays. */
  lemma {:induction false} RemovalFailureCrashes(m: GantryManifest, deploy: bool, env: BuildEnv, folder: Folder)
    requires CrashesAt(env, RemovePod)
    ensures var r := Build(m, deploy, env, folder);
      && r.outcome == Crashed(CrashMessage(env))
      && r.box.folder.auditFail == Some((-1, CrashMessage(env)))
      && (env.audit.0 == 0 ==> r.box.folder.auditPass == Some(env.audit.1))
      && r.containerCreated && (r.containerRemoved <==> !env.cleanupFails)
  {
    var b0 := SaveManifest(Log(Open(folder), "BUILD_STARTED", Some(m.projectName)), m);
    var st := Body(m, deploy, env, b0);
    assert !FaultBeforeVerdict(m, env);
    assert st.exit == RaisedOther(CrashMessage(env));
    HandleCrash(st, env);
  }

  /** A passing build ran an audit that exited 0 and a structure check that
      passed (or was not needed), wrote audit_pass.json with the audit output,
      wrote no audit_fail.json, and removed the container. A deploy URL comes
      only from a successful deployment that was asked for and possible. */
  lemma {:induction false} PassedPath(m: GantryManifest, deploy: bool, env: BuildEnv, folder: Folder)
    ensures var r := Build(m, deploy, env, folder);
      r.outcome.Passed? ==>
        && env.audit.0 == 0 && VerifyStructure(m.stack, env.structure)
        && r.box.folder.auditPass == Some(env.audit.1)
        && r.box.folder.auditFail == folder.auditFail
        && r.containerRemoved
        && (r.outcome.deployUrl.Some? ==>
              && deploy && Deployer.IsConfigured(env.vercelToken) && env.useBuilderImage
              && Deployer.DeployMission(env.vercelToken, m.projectName, env.vercelExec)
                 == Ok(r.outcome.deployUrl.value))
  {
  }

  /** After an audit that exited 0 and a structure check that passed, and
      without a crash in the structure check or the deployer, the verdict
      stage returns exactly when the container's removal succeeds, with a
      URL exactly when a deployment was made and succeeded; a deployment
      error is logged as DEPLOY_FAILED. */
  lemma {:induction false} VerdictReturns(m: GantryManifest, deploy: bool, env: BuildEnv, b: BlackBox)
    requires env.audit.0 == 0 && VerifyStructure(m.stack, env.structure)
    requires !CrashesAt(env, CheckStructure) && !CrashesAt(env, Deploy)
    ensures var st := Verdict(m, deploy, env, b);
      && (st.exit.Returned? <==> !CrashesAt(env, RemovePod))
      && (CrashesAt(env, RemovePod) ==> st.exit == RaisedOther(CrashMessage(env)))
      && (st.exit.Returned? ==>
            (st.exit.deployUrl.Some? <==>
               && deploy && Deployer.IsConfigured(env.vercelToken) && env.useBuilderImage
               && Deployer.DeployMission(env.vercelToken, m.projectName, env.vercelExec).Ok?))
      && (deploy && Deployer.IsConfigured(env.vercelToken) && env.useBuilderImage
          && Deployer.DeployMission(env.vercelToken, m.projectName, env.vercelExec).Err?
          ==> Logged(st.box, "DEPLOY_FAILED"))
  {
    var b1 := Log(SaveAuditPass(b, env.audit.1), "BUILD_COMPLETE", None);
    var d := if ChecksStructure(m.stack)
             then Log(Log(b1, "STRUCTURE_CHECK_STARTED", Some("Verifying Vercel format")), "STRUCTURE_CHECK_PASSED", None)
             else b1;
    assert Verdict(m, deploy, env, b) == DeployStep(m, deploy, env, d);
    var st := DeployStep(m, deploy, env, d);
    if && deploy && Deployer.IsConfigured(env.vercelToken) && env.useBuilderImage
       && Deployer.DeployMission(env.vercelToken, m.projectName, env.vercelExec).Err? {
      assert st.box.log[|d.log| + 1].event == "DEPLOY_FAILED";
    }
  }

  /** A build without a fault whose audit exits 0 and whose structure check
      passes does pass, with a deploy URL exactly when a deployment was asked
      for, possible, and succeeded; a deployment error leaves DEPLOY_FAILED in
      the log and the build still passes, without a URL. */
  lemma {:induction false} FaultFreeBuildPasses(m: GantryManifest, deploy: bool, env: BuildEnv, folder: Folder)
    requires env.fault.None? && env.audit.0 == 0 && VerifyStructure(m.stack, env.structure)
    ensures var r := Build(m, deploy, env, folder);
      && r.outcome.Passed?
      && (r.outcome.deployUrl.Some? <==>
            && deploy && Deployer.IsConfigured(env.vercelToken) && env.useBuilderImage
            && Deployer.DeployMission(env.vercelToken, m.projectName, env.vercelExec).Ok?)
      && (deploy && Deployer.IsConfigured(env.vercelToken) && env.useBuilderImage
          && Deployer.DeployMission(env.vercelToken, m.projectName, env.vercelExec).Err?
          ==> Logged(r.box, "DEPLOY_FAILED"))
  {
    var b0 := SaveManifest(Log(Open(folder), "BUILD_STARTED", Some(m.projectName)), m);
    FaultFreeBodyReachesVerdict(m, deploy, env, b0);
    VerdictReturns(m, deploy, env, AuditStarted(m, env, b0));
  }

  /** The log when the audit starts, for a build without a fault. */
  function AuditStarted(m: GantryManifest, env: BuildEnv, b: BlackBox): BlackBox {
    var p := Log(Log(Log(b, "POD_INIT", None), "IMAGE_READY", Some(GetImage(env.useBuilderImage, m.stack))), "POD_SPAWNED", Some(env.podId));
    var i1 := Log(p, "FILES_INJECTED", Some(NatToString(|m.files|)));
    var i2 := if env.designImage.Some? then Log(i1, "DESIGN_IMAGE_INJECTED", env.designImage) else i1;
    Log(InstallDeps(m, env, i2), "AUDIT_STARTED", Some(m.auditCommand))
  }

  /** Without a fault, the `try` block ends as the verdict stage ends. */
  lemma {:induction false} FaultFreeBodyReachesVerdict(m: GantryManifest, deploy: bool, env: BuildEnv, b: BlackBox)
    requires env.fault.None?
    ensures Body(m, deploy, env, b) == Verdict(m, deploy, env, AuditStarted(m, env, b))
  {
    var p := Log(Log(Log(b, "POD_INIT", None), "IMAGE_READY", Some(GetImage(env.useBuilderImage, m.stack))), "POD_SPAWNED", Some(env.podId));
    var i1 := Log(p, "FILES_INJECTED", Some(NatToString(|m.files|)));
    var i2 := if env.designImage.Some? then Log(i1, "DESIGN_IMAGE_INJECTED", env.designImage) else i1;
    assert AfterInjection(m, deploy, env, i2) == AuditStage(m, deploy, env, InstallDeps(m, env, i2));
    assert Injected(m, deploy, env, i1) == AfterInjection(m, deploy, env, i2);
    assert InPod(m, deploy, env, p) == Injected(m, deploy, env, i1);
  }

  /** A structure-check failure after a passing audit (Node and Python only)
      raises `AuditFailedError` with exit code -1, and leaves both
      audit_pass.json and audit_fail.json in the folder. */
  lemma {:induction false} StructureFailurePath(m: GantryManifest, deploy: bool, env: BuildEnv, folder: Folder)
    requires env.fault.None? && env.audit.0 == 0
    requires ChecksStructure(m.stack) && !VerifyStructure(m.stack, env.structure)
    ensures var r := Build(m, deploy, env, folder);
      && r.outcome == AuditFailed(-1, StructureFailOutput)
      && r.box.folder.auditPass == Some(env.audit.1)
      && r.box.folder.auditFail == Some((-1, "Invalid Vercel serverless structure"))
      && r.containerRemoved
  {
  }

  /** Without a fault, a build either passes or fails its audit. */
  lemma {:induction false} FaultFreeBuildEnds(m: GantryManifest, deploy: bool, env: BuildEnv, folder: Folder)
    requires env.fault.None?
    ensures Build(m, deploy, env, folder).outcome.Passed? || Build(m, deploy, env, folder).outcome.AuditFailed?
  {
    var b0 := SaveManifest(Log(Open(folder), "BUILD_STARTED", Some(m.projectName)), m);
    var st := Body(m, deploy, env, b0);
    assert !FaultBeforeVerdict(m, env) && !CrashesAt(env, RemovePod);
    assert st.exit.Returned? || st.exit.RaisedAudit?;
    assert Build(m, deploy, env, folder) == Handle(st, env);
  }
}

=== FILE: gantry_cli.dfy ===
/**
 * The first-generation single-process server: the `/architect` route picks
 * a stack from keywords in the request text, and the factory pipeline picks
 * a base image and a short list of version commands from the stack name,
 * running the commands in order and stopping at the first failure. Docker
 * is a parameter: whether the image is already present, the error a pull or
 * a container start raises, and the exit code each command returns.
 */
module GantryCli {
  import opened Wrappers
  import opened Text

  /** The three stacks the route can detect. */
  datatype Stack = Python | Node | Rust

  /** The stack's name as the route reports it and hands to the pipeline. */
  function StackName(s: Stack): string {
    match s
    case Python => "Python"
    case Node => "Node"
    case Rust => "Rust"
  }

  /** Stack detection: Python by default, Node on "node" or "react", Rust on "rust" whatever else matched. */
  function DetectStack(command: string): (r: Stack)
    ensures r == Rust <==> Contains(Lower(command), "rust")
    ensures r == Node <==> !Contains(Lower(command), "rust")
                           && (Contains(Lower(command), "node") || Contains(Lower(command), "react"))
    ensures r == Python <==> !Contains(Lower(command), "rust") && !Contains(Lower(command), "node")
                             && !Contains(Lower(command), "react")
  {
    var c := Lower(command);
    var stack := if Contains(c, "node") || Contains(c, "react") then Node else Python;
    if Contains(c, "rust") then Rust else stack
  }

  const PythonImage := "python:3.11-slim"
  const NodeImage := "node:20-alpine"
  const FallbackImage := "ubuntu:latest"

  /** Image selection: "python" in the lower-cased stack wins over "node"; anything else gets Ubuntu. */
  function SelectImage(stack: string): (image: string)
    ensures image == PythonImage <==> Contains(Lower(stack), "python")
    ensures image == NodeImage <==> !Contains(Lower(stack), "python") && Contains(Lower(stack), "node")
    ensures image == FallbackImage <==> !Contains(Lower(stack), "python") && !Contains(Lower(stack), "node")
  {
    if Contains(Lower(stack), "python") then PythonImage
    else if Contains(Lower(stack), "node") then NodeImage
    else FallbackImage
  }

  /** The construction commands: two version checks for Python and for Node, none for any other stack. */
  function BuildCommands(stack: string): (cmds: seq<string>)
    ensures Contains(Lower(stack), "python") ==> cmds == ["python --version", "pip --version"]
    ensures !Contains(Lower(stack), "python") && Contains(Lower(stack), "node") ==> cmds == ["node -v", "npm -v"]
    ensures cmds == [] <==> SelectImage(stack) == FallbackImage
  {
    if Contains(Lower(stack), "python") then ["python --version", "pip --version"]
    else if Contains(Lower(stack), "node") then ["node -v", "npm -v"]
    else []
  }

  /** The lower-cased stack names, letter by letter. */
  lemma {:induction false} LowerStackName(s: Stack)
    ensures Lower(StackName(s)) == match s case Python => "python" case Node => "node" case Rust => "rust"
  {
    var n := StackName(s);
    var l := Lower(n);
    match s
    case Python =>
      assert l[0] == 'p' && l[1] == 'y' && l[2] == 't' && l[3] == 'h' && l[4] == 'o' && l[5] == 'n';
    case Node =>
      assert l[0] == 'n' && l[1] == 'o' && l[2] == 'd' && l[3] == 'e';
    case Rust =>
      assert l[0] == 'r' && l[1] == 'u' && l[2] == 's' && l[3] == 't';
  }

  /**
   * The stack the route detects decides the container the pipeline uses:
   * Python and Node get their own image and two commands, Rust falls through
   * to the Ubuntu image and runs no command at all.
   */
  lemma {:induction false} DetectedStackImage(command: string)
    ensures var stack := StackName(DetectStack(command));
            match DetectStack(command)
            case Python => SelectImage(stack) == PythonImage && |BuildCommands(stack)| == 2
            case Node => SelectImage(stack) == NodeImage && |BuildCommands(stack)| == 2
            case Rust => SelectImage(stack) == FallbackImage && BuildCommands(stack) == []
  {
    var s := DetectStack(command);
    var l := Lower(StackName(s));
    LowerStackName(s);
    match s
    case Python =>
      assert OccursAt(l, "python", 0);
    case Node =>
      assert !Contains(l, "python");
      assert OccursAt(l, "node", 0);
    case Rust =>
      assert !Contains(l, "python");
      assert !Contains(l, "node") by {
        forall i | 0 <= i <= |l| - 4 ensures !OccursAt(l, "node", i) {
          assert i == 0 && l[0] != 'n';
        }
      }
  }

  /** What `exec_run` does for one command: it returns an exit code, and
      decoding the output it returned fails with an error or not, or the
      call itself raises. */
  datatype ExecResult = Exited(code: int, decodeError: Option<string>) | ExecRaised(error: string)

  /** A command that passes: it exits 0 and its output decodes. */
  predicate Passes(res: ExecResult) {
    res.Exited? && res.code == 0 && res.decodeError.None?
  }

  /** The commands run and, when one did not pass, that command (the last one run). */
  datatype CommandRun = CommandRun(ran: seq<string>, failedOn: Option<string>)

  /** Runs the commands in order and stops at the first one that does not pass. */
  function RunCommands(cmds: seq<string>, exec: string -> ExecResult): (r: CommandRun)
    ensures |r.ran| <= |cmds| && r.ran == cmds[..|r.ran|]
    ensures forall k | 0 <= k < |r.ran| - 1 :: Passes(exec(r.ran[k]))
    ensures r.failedOn.None? ==> r.ran == cmds && forall k | 0 <= k < |cmds| :: Passes(exec(cmds[k]))
    ensures r.failedOn.Some? ==>
              r.ran != [] && r.failedOn.value == r.ran[|r.ran| - 1] && !Passes(exec(r.failedOn.value))
  {
    if cmds == [] then CommandRun([], None)
    else if !Passes(exec(cmds[0])) then CommandRun([cmds[0]], Some(cmds[0]))
    else
      var rest := RunCommands(cmds[1..], exec);
      assert cmds == [cmds[0]] + cmds[1..];
      CommandRun([cmds[0]] + rest.ran, rest.failedOn)
  }

  /**
   * A run fails exactly when some command does not pass, and it then stops
   * at the first such command: the commands after it are never run.
   */
  lemma {:induction false} StopsAtFirstFailure(cmds: seq<string>, exec: string -> ExecResult, i: nat)
    requires i < |cmds| && !Passes(exec(cmds[i]))
    requires forall k | 0 <= k < i :: Passes(exec(cmds[k]))
    ensures RunCommands(cmds, exec) == CommandRun(cmds[..i + 1], Some(cmds[i]))
  {
    if i > 0 {
      assert Passes(exec(cmds[0]));
      forall k | 0 <= k < i - 1 ensures Passes(exec(cmds[1..][k])) {
        assert cmds[1..][k] == cmds[k + 1];
      }
      StopsAtFirstFailure(cmds[1..], exec, i - 1);
      assert [cmds[0]] + cmds[1..][..i] == cmds[..i + 1];
    }
  }

  /** What the pipeline reports, in order. */
  datatype Step =
    | Init(project: string)
    | ImageFound(image: string)
    | Pulling(image: string)
    | ImagePulled(image: string)
    | SpinningUp
    | SandboxUp
    | Exec(cmd: string)
    | CommandOk(cmd: string)
    | CommandFailed(cmd: string)
    | Verified
    | Cleanup
    | Complete

  /**
   * What Docker does when the pipeline asks: the error looking the image up
   * raises when that is not ImageNotFound (if it raises), whether the image
   * is already present, the error a pull raises (if it raises), the error starting the
   * container raises (if it raises), what running each command does, and
   * the error stopping the container raises (if it raises). The pipeline
   * stops the container at most once.
   */
  datatype Docker = Docker(inspectError: Option<string>, imagePresent: bool,
                           pullError: Option<string>, runError: Option<string>,
                           exec: string -> ExecResult, stopError: Option<string>)

  /** Docker hands the pipeline a running sandbox: the image lookup answers,
      the image is there or pulls, and the container starts. */
  predicate Provisioned(d: Docker) {
    d.inspectError.None? && (d.imagePresent || d.pullError.None?) && d.runError.None?
  }

  /** The pipeline's outcome: the steps it reported and the exception it raised, if any. */
  datatype Factory = Factory(image: string, steps: seq<Step>, error: Option<string>)

  /** The exec/ok step pairs of commands that succeeded. */
  function OkSteps(cmds: seq<string>): (r: seq<Step>)
    ensures |r| == 2 * |cmds|
    ensures forall k | 0 <= k < |cmds| :: r[2 * k] == Exec(cmds[k]) && r[2 * k + 1] == CommandOk(cmds[k])
    ensures forall k | 0 <= k < |r| :: r[k].Exec? || r[k].CommandOk?
  {
    if cmds == [] then [] else [Exec(cmds[0]), CommandOk(cmds[0])] + OkSteps(cmds[1..])
  }

  /** The error a command that does not pass raises, given what stopping the container does. */
  function CommandError(cmd: string, res: ExecResult, stopError: Option<string>): string {
    match res
    case ExecRaised(e) => e
    case Exited(code, decodeError) =>
      if decodeError.Some? then decodeError.value
      else if stopError.Some? then stopError.value
      else "Build Failed: " + cmd
  }

  /** Whether a command that does not pass gets as far as reporting its failure:
      it ran, exited non-zero and its output decoded. */
  predicate ReportsFailure(res: ExecResult) {
    res.Exited? && res.code != 0 && res.decodeError.None?
  }

  /**
   * `real_factory_pipeline`: provision the image (pulling it when absent),
   * start the sandbox, run the commands, then verify, stop the container and
   * finish. A failing command is reported, the container is stopped and
   * "Build Failed: <cmd>" is raised. Every Docker call may raise instead,
   * and so may decoding a command's output; the pipeline then ends with
   * that error.
   */
  function FactoryPipeline(project: string, stack: string, docker: Docker): (f: Factory)
    ensures f.image == SelectImage(stack)
    ensures f.steps != [] && f.steps[0] == Init(project)
    ensures f.error.None? <==>
              && Provisioned(docker) && docker.stopError.None?
              && forall k | 0 <= k < |BuildCommands(stack)| :: Passes(docker.exec(BuildCommands(stack)[k]))
    ensures f.error.None? ==> f.steps[|f.steps| - 1] == Complete
    // an image lookup that raises anything but ImageNotFound stops the pipeline right after INIT
    ensures docker.inspectError.Some? ==> f.error == docker.inspectError && f.steps == [Init(project)]
    // a pull that raises stops the pipeline right after it announced the download
    ensures docker.inspectError.None? && !docker.imagePresent && docker.pullError.Some? ==>
              f.error == docker.pullError && f.steps == [Init(project), Pulling(f.image)]
    // a container that will not start stops it right after it announced the sandbox
    ensures docker.inspectError.None? && (docker.imagePresent || docker.pullError.None?) && docker.runError.Some? ==>
              f.error == docker.runError && f.steps[|f.steps| - 1] == SpinningUp && SandboxUp !in f.steps
    ensures Provisioned(docker) ==> SandboxUp in f.steps
    // once the sandbox is up, the first command that does not pass ends the pipeline with its error
    ensures Provisioned(docker) && RunCommands(BuildCommands(stack), docker.exec).failedOn.Some? ==>
              var cmd := RunCommands(BuildCommands(stack), docker.exec).failedOn.value;
              && f.error == Some(CommandError(cmd, docker.exec(cmd), docker.stopError))
              && Verified !in f.steps
              && f.steps[|f.steps| - 1] == (if ReportsFailure(docker.exec(cmd)) then CommandFailed(cmd) else Exec(cmd))
    // when every command passes, only stopping the container can still raise
    ensures Provisioned(docker) && RunCommands(BuildCommands(stack), docker.exec).failedOn.None?
            && docker.stopError.Some?
            ==> f.error == docker.stopError && f.steps[|f.steps| - 1] == Verified
  {
    var image := SelectImage(stack);
    if docker.inspectError.Some? then
      Factory(image, [Init(project)], docker.inspectError)
    else if !docker.imagePresent && docker.pullError.Some? then
      Factory(image, [Init(project), Pulling(image)], docker.pullError)
    else
      var provision := if docker.imagePresent then [ImageFound(image)] else [Pulling(image), ImagePulled(image)];
      var started := [Init(project)] + provision + [SpinningUp];
      if docker.runError.Some? then
        Factory(image, started, docker.runError)
      else
        var head := started + [SandboxUp];
        assert head[|head| - 1] == SandboxUp;
        InSandbox(image, head, BuildCommands(stack), docker)
  }

  /** The pipeline once the sandbox is up (`head` is what it reported so far):
      the commands, the verification and the container's stop. */
  function InSandbox(image: string, head: seq<Step>, cmds: seq<string>, docker: Docker): (f: Factory)
    requires Verified !in head
    ensures f.image == image && |f.steps| > |head| && f.steps[..|head|] == head
    ensures f.error.None? <==> docker.stopError.None? && forall k | 0 <= k < |cmds| :: Passes(docker.exec(cmds[k]))
    ensures f.error.None? ==> f.steps[|f.steps| - 1] == Complete
    ensures RunCommands(cmds, docker.exec).failedOn.Some? ==>
              var cmd := RunCommands(cmds, docker.exec).failedOn.value;
              && f.error == Some(CommandError(cmd, docker.exec(cmd), docker.stopError))
              && Verified !in f.steps
              && f.steps[|f.steps| - 1] == (if ReportsFailure(docker.exec(cmd)) then CommandFailed(cmd) else Exec(cmd))
    ensures RunCommands(cmds, docker.exec).failedOn.None? && docker.stopError.Some? ==>
              f.error == docker.stopError && f.steps[|f.steps| - 1] == Verified
  {
    var run := RunCommands(cmds, docker.exec);
    match run.failedOn
    case None =>
      var verified := head + OkSteps(cmds) + [Verified];
      if docker.stopError.Some? then Factory(image, verified, docker.stopError)
      else Factory(image, verified + [Cleanup, Complete], None)
    case Some(cmd) =>
      var passed := run.ran[..|run.ran| - 1];
      var res := docker.exec(cmd);
      var tail := if ReportsFailure(res) then [Exec(cmd), CommandFailed(cmd)] else [Exec(cmd)];
      var steps := head + OkSteps(passed) + tail;
      assert Verified !in steps by {
        forall k | 0 <= k < |steps| ensures steps[k] != Verified {
          if |head| <= k < |head| + |OkSteps(passed)| {
            assert steps[k] == OkSteps(passed)[k - |head|];
          }
        }
      }
      Factory(image, steps, Some(CommandError(cmd, res, docker.stopError)))
  }

  /** Python's `d.get(key, default)`. */
  function Get(d: map<string, string>, key: string, default: string): (v: string)
    ensures key in d ==> v == d[key]
    ensures key !in d ==> v == default
  {
    if key in d then d[key] else default
  }

  /** The route's reply: an HTTP code and a JSON object of strings. */
  datatype Reply = Reply(code: int, body: map<string, string>)

  /** What `request.json` gives the route: the parsed body (None for a JSON
      `null`), or the error it raises when the body is not JSON or is not
      sent as JSON. */
  datatype Payload = Json(data: Option<map<string, string>>) | Unreadable(error: string)

  /**
   * `POST /architect` once Docker is reachable: a body `request.json`
   * cannot read is a 500 carrying its error, a null or empty JSON body is a
   * 400; otherwise the pipeline runs for the detected stack and the reply is
   * "deployed" with the project and stack, or a 500 carrying the text of
   * whatever the pipeline raised.
   */
  function HandleRequest(payload: Payload, docker: Docker): (r: Reply)
    ensures payload.Unreadable? ==> r == Reply(500, map["error" := payload.error])
    ensures r.code == 400 <==> payload.Json? && (payload.data.None? || payload.data.value == map[])
    ensures r.code == 400 ==> r.body == map["error" := "No JSON payload provided"]
    ensures payload.Json? && r.code != 400 ==>
              var stack := StackName(DetectStack(Get(payload.data.value, "text", "")));
              var f := FactoryPipeline(Get(payload.data.value, "project", "Project-Omega"), stack, docker);
              && (r.code == 200 <==> f.error.None?)
              && (r.code == 200 ==> r.body == map["status" := "deployed",
                                                  "project" := Get(payload.data.value, "project", "Project-Omega"),
                                                  "stack" := stack])
              && (r.code != 200 ==> r.code == 500 && r.body == map["error" := f.error.value])
  {
    match payload
    case Unreadable(e) => Reply(500, map["error" := e])
    case Json(data) =>
      if data.None? || data.value == map[] then Reply(400, map["error" := "No JSON payload provided"])
      else
        var d := data.value;
        var command := Get(d, "text", "");
        var project := Get(d, "project", "Project-Omega");
        var stack := StackName(DetectStack(command));
        var f := FactoryPipeline(project, stack, docker);
        match f.error
        case None => Reply(200, map["status" := "deployed", "project" := project, "stack" := stack])
        case Some(e) => Reply(500, map["error" := e])
  }

  /**
   * A request the route reads as Rust deploys exactly when Docker provides
   * the sandbox and stops it again: its pipeline runs no command that could
   * fail, so only a failed image lookup, pull, container start or stop turns
   * it into a 500.
   */
  lemma {:induction false} RustDeploysUnlessDockerFails(data: map<string, string>, docker: Docker)
    requires data != map[]
    requires Contains(Lower(Get(data, "text", "")), "rust")
    ensures HandleRequest(Json(Some(data)), docker).code == 200 <==> Provisioned(docker) && docker.stopError.None?
    ensures HandleRequest(Json(Some(data)), docker).code == 200 ==> HandleRequest(Json(Some(data)), docker).body["stack"] == "Rust"
  {
    DetectedStackImage(Get(data, "text", ""));
  }
}

=== FILE: git_client.dfy ===
/** The git and GitHub client: token redaction, the repository, remote and
    logged URLs, the branch decision of `commit_and_push`, and the response
    tables of repository and pull-request creation. Subprocesses and HTTP
    requests are collaborators whose outcomes are inputs. Status codes are
    the HTTP semantics of section 15 of RFC 9110. */
module GitClient {
  import opened Wrappers
  import opened Text

  const Redacted := "[REDACTED]"

  /** `_sanitize_output`: every occurrence of the token, scanning left to
      right, becomes "[REDACTED]" when a token is set and occurs. */
  function Sanitize(token: Option<string>, text: string): (r: string)
    // a clean token never shows in the result
    ensures IsSet(token) && CleanToken(token.value) ==> !Contains(r, token.value)
    // text that does not show the token is returned as it is
    ensures !(IsSet(token) && Contains(text, token.value)) ==> r == text
    // text that shows the token shows the marker instead
    ensures IsSet(token) && Contains(text, token.value) ==> Contains(r, Redacted)
  {
    if IsSet(token) && Contains(text, token.value) then
      RedactionHides(text, token.value);
      ReplaceAll(text, token.value, Redacted)
    else text
  }

  /** Redacting removes a clean token and, where the token occurs, leaves the marker. */
  lemma {:induction false} RedactionHides(s: string, t: string)
    requires |t| > 0
    ensures CleanToken(t) ==> !Contains(ReplaceAll(s, t, Redacted), t)
    ensures Contains(s, t) ==> Contains(ReplaceAll(s, t, Redacted), Redacted)
  {
    if CleanToken(t) {
      RedactionRemovesToken(s, t);
    }
    if Contains(s, t) {
      var i :| 0 <= i <= |s| - |t| && OccursAt(s, t, i);
      MarkerShows(s, t, i);
    }
  }

  /** An occurrence of the token makes the scan write the marker somewhere:
      either there, or at an earlier occurrence that overlaps it. */
  lemma {:induction false} MarkerShows(s: string, t: string, i: nat)
    requires |t| > 0 && OccursAt(s, t, i)
    ensures Contains(ReplaceAll(s, t, Redacted), Redacted)
    decreases |s|
  {
    var out := ReplaceAll(s, t, Redacted);
    if s[..|t|] == t {
      var rest := ReplaceAll(s[|t|..], t, Redacted);
      assert out == Redacted + rest;
      assert OccursAt(out, Redacted, 0);
    } else {
      assert i > 0;
      var rest := ReplaceAll(s[1..], t, Redacted);
      assert out == [s[0]] + rest;
      assert s[1..][i - 1..i - 1 + |t|] == s[i..i + |t|];
      MarkerShows(s[1..], t, i - 1);
      var j :| 0 <= j <= |rest| - |Redacted| && OccursAt(rest, Redacted, j);
      ShiftOccurrence([s[0]], rest, Redacted, j + 1);
    }
  }

  /** A token that cannot be rebuilt from pieces of "[REDACTED]": longer than
      the eight letters between the brackets, and free of brackets. */
  predicate CleanToken(token: string) {
    |token| > 8 && '[' !in token && ']' !in token
  }

  /** Up to the first '[' it writes, the scan copies its input unchanged. */
  lemma {:induction false} CopiedUntilBracket(s: string, t: string, k: nat)
    requires |t| > 0
    requires k <= |s| && k <= |ReplaceAll(s, t, Redacted)|
    ensures ReplaceAll(s, t, Redacted)[..k] == s[..k] || '[' in ReplaceAll(s, t, Redacted)[..k]
    decreases |s|
  {
    var out := ReplaceAll(s, t, Redacted);
    if |s| < |t| || k == 0 {
    } else if s[..|t|] == t {
      assert out[..k][0] == '[';
    } else {
      var rest := ReplaceAll(s[1..], t, Redacted);
      assert out == [s[0]] + rest;
      CopiedUntilBracket(s[1..], t, k - 1);
      if rest[..k - 1] == s[1..][..k - 1] {
        assert out[..k] == [s[0]] + rest[..k - 1];
        assert s[..k] == [s[0]] + s[1..][..k - 1];
      } else {
        assert out[..k] == [s[0]] + rest[..k - 1];
      }
    }
  }

  /** An occurrence starting inside a leading "[REDACTED]" would contain
      one of its brackets. */
  lemma {:induction false} NotInsideRedacted(t: string, rest: string, i: nat)
    requires CleanToken(t) && i < |Redacted|
    ensures !OccursAt(Redacted + rest, t, i)
  {
    var out := Redacted + rest;
    assert out[0] == '[' && out[9] == ']';
    if OccursAt(out, t, i) {
      assert false;
    }
  }

  /** Where the scan copied a character that does not start an occurrence,
      no occurrence starts: it would either be the skipped one or contain the
      '[' that ends the copied stretch. */
  lemma {:induction false} NotAtCopiedChar(s: string, t: string)
    requires CleanToken(t) && |s| >= |t| && s[..|t|] != t
    ensures !OccursAt([s[0]] + ReplaceAll(s[1..], t, Redacted), t, 0)
  {
    var rest := ReplaceAll(s[1..], t, Redacted);
    if |t| - 1 <= |rest| {
      CopiedUntilBracket(s[1..], t, |t| - 1);
      assert s[..|t|] == [s[0]] + s[1..][..|t| - 1];
      assert ([s[0]] + rest)[..|t|] == [s[0]] + rest[..|t| - 1];
    }
  }

  /** Redacting a clean token leaves no occurrence of it at any index: a
      surviving occurrence would either have been replaced by the scan or
      would have to contain a bracket of "[REDACTED]". */
  lemma {:induction false} NoTokenAt(s: string, t: string, i: nat)
    requires CleanToken(t)
    ensures !OccursAt(ReplaceAll(s, t, Redacted), t, i)
    decreases |s|
  {
    if |s| < |t| {
    } else if s[..|t|] == t {
      var rest := ReplaceAll(s[|t|..], t, Redacted);
      assert ReplaceAll(s, t, Redacted) == Redacted + rest;
      if i < |Redacted| {
        NotInsideRedacted(t, rest, i);
      } else {
        NoTokenAt(s[|t|..], t, i - |Redacted|);
        ShiftOccurrence(Redacted, rest, t, i);
      }
    } else {
      var rest := ReplaceAll(s[1..], t, Redacted);
      assert ReplaceAll(s, t, Redacted) == [s[0]] + rest;
      if i == 0 {
        NotAtCopiedChar(s, t);
      } else {
        NoTokenAt(s[1..], t, i - 1);
        ShiftOccurrence([s[0]], rest, t, i);
      }
    }
  }

  /** An occurrence past a prefix is an occurrence in the remainder. */
  lemma {:induction false} ShiftOccurrence(p: string, rest: string, t: string, i: nat)
    requires i >= |p|
    ensures OccursAt(p + rest, t, i) <==> OccursAt(rest, t, i - |p|)
  {
    if i + |t| <= |p + rest| {
      assert (p + rest)[i..i + |t|] == rest[i - |p|..i - |p| + |t|];
    }
  }

  lemma {:induction false} RedactionRemovesToken(s: string, t: string)
    requires CleanToken(t)
    ensures !Contains(ReplaceAll(s, t, Redacted), t)
  {
    forall i | 0 <= i <= |ReplaceAll(s, t, Redacted)| - |t| {
      NoTokenAt(s, t, i);
    }
  }

  /** The provider's credentials, set by `configure_auth`. */
  datatype Provider = Provider(token: Option<string>, username: Option<string>, repoName: Option<string>)

  /** `_get_repo_url`: the public repository URL when both the user and the
      repository are known, else the GitHub root. */
  function RepoUrl(p: Provider): (url: string)
    ensures IsSet(p.username) && IsSet(p.repoName) ==>
              url == "https://github.com/" + p.username.value + "/" + p.repoName.value
    ensures !(IsSet(p.username) && IsSet(p.repoName)) ==> url == "https://github.com"
  {
    if IsSet(p.username) && IsSet(p.repoName)
    then "https://github.com/" + p.username.value + "/" + p.repoName.value
    else "https://github.com"
  }

  /** The authenticated remote `configure_auth` adds. */
  function RemoteUrl(token: string, username: string, repoName: string): string {
    "https://" + token + "@github.com/" + username + "/" + repoName + ".git"
  }

  /** The remote as `configure_auth` logs it. */
  function SafeUrl(username: string, repoName: string): string {
    "https://" + Redacted + "@github.com/" + username + "/" + repoName + ".git"
  }

  /** The credential part of an `https://<credential>@...` URL: the text
      between the scheme and the first '@'. */
  function Credential(url: string): (c: Option<string>)
    ensures c.Some? ==> '@' !in c.value
  {
    if !StartsWith(url, "https://") then None
    else match Find(url[8..], '@')
      case None => None
      case Some(k) =>
        assert forall j :: 0 <= j < k ==> url[8..][..k][j] != '@';
        Some(url[8..][..k])
  }

  /** The remote URL carries exactly the token as its credential (for a token
      without '@'), and the logged URL carries "[REDACTED]" in its place;
      the rest of the two URLs is the same. */
  lemma {:induction false} RemoteAndSafeUrls(token: string, username: string, repoName: string)
    requires '@' !in token
    ensures Credential(RemoteUrl(token, username, repoName)) == Some(token)
    ensures Credential(SafeUrl(username, repoName)) == Some(Redacted)
    ensures RemoteUrl(token, username, repoName)[8 + |token|..] == SafeUrl(username, repoName)[8 + |Redacted|..]
  {
    var tail := "@github.com/" + username + "/" + repoName + ".git";
    CredentialOf(token, tail);
    CredentialOf(Redacted, tail);
    assert RemoteUrl(token, username, repoName) == "https://" + token + tail;
    assert SafeUrl(username, repoName) == "https://" + Redacted + tail;
  }

  lemma {:induction false} CredentialOf(c: string, tail: string)
    requires '@' !in c && |tail| > 0 && tail[0] == '@'
    ensures Credential("https://" + c + tail) == Some(c)
  {
    var url := "https://" + c + tail;
    assert url[..8] == "https://";
    assert url[8..] == c + tail;
    var f := Find(url[8..], '@');
    assert url[8..][|c|] == '@';
    assert forall j :: 0 <= j < |c| ==> url[8..][j] == c[j];
  }

  /** The outcome of one subprocess: finished with an exit code, or the
      60-second timeout expired, or the subprocess could not run. */
  datatype Outcome = Completed(code: int, stdout: string, stderr: string) | Expired | SubprocessFailed(message: string)

  /** `_run`: a GitError when the process did not finish, or when `check` is
      on and it exited non-zero (with the sanitised stderr, else stdout,
      else "Unknown error"). */
  function Run(p: Provider, o: Outcome, check: bool): (r: Result<Outcome, string>)
    ensures r.Ok? <==> o.Completed? && (!check || o.code == 0)
    ensures r.Ok? ==> r.value == o
  {
    match o
    case Expired => Err("Git operation timed out (60s limit)")
    case SubprocessFailed(msg) => Err("Git subprocess error: " + msg)
    case Completed(code, out, err) =>
      if check && code != 0 then
        var detail := if err != "" then err else if out != "" then out else "Unknown error";
        Err("Git command failed: " + Sanitize(p.token, detail))
      else Ok(o)
  }

  /** A git invocation: its arguments after `git`. */
  type Command = seq<string>

  /** The commands a run issued, in order, and how it ended. */
  datatype Session = Session(commands: seq<Command>, result: Result<string, string>)

  /** Issue `cmd`, then continue with `k` unless `_run` raised. */
  function Then(p: Provider, git: Command -> Outcome, cmd: Command, check: bool,
                k: Outcome -> Session): (s: Session)
    ensures Run(p, git(cmd), check).Err? ==> s == Session([cmd], Err(Run(p, git(cmd), check).error))
    ensures Run(p, git(cmd), check).Ok? ==> s.commands == [cmd] + k(git(cmd)).commands && s.result == k(git(cmd)).result
  {
    match Run(p, git(cmd), check)
    case Err(e) => Session([cmd], Err(e))
    case Ok(o) => var rest := k(o); Session([cmd] + rest.commands, rest.result)
  }

  function PushCommand(branch: string): Command { ["push", "-u", "origin", branch, "--force"] }
  function CommitCommand(message: string): Command { ["commit", "-m", message] }
  const AddAll: Command := ["add", "-A"]
  const Status: Command := ["status", "--porcelain"]

  function Push(p: Provider, git: Command -> Outcome, branch: string): (s: Session)
    ensures s.result.Ok? ==> s.commands == [PushCommand(branch)] && s.result.value == RepoUrl(p)
  {
    Then(p, git, PushCommand(branch), true, _ => Session([], Ok(RepoUrl(p))))
  }

  function CommitThenPush(p: Provider, git: Command -> Outcome, branch: string, message: string): (s: Session)
    ensures s.result.Ok? ==> s.commands == [CommitCommand(message), PushCommand(branch)] && s.result.value == RepoUrl(p)
  {
    Then(p, git, CommitCommand(message), true, _ => Push(p, git, branch))
  }

  /** `commit_and_push` on a `feat/` branch: fetch origin/main (unchecked),
      branch from it when the fetch succeeded (unchecked) or start an orphan
      branch (checked), then stage, commit and push. */
  function FeatureBranchPush(p: Provider, git: Command -> Outcome, branch: string, message: string): (s: Session)
    ensures s.result.Ok? ==> s.result.value == RepoUrl(p)
    ensures s.result.Ok? ==> |s.commands| == 5 && s.commands[3..] == [CommitCommand(message), PushCommand(branch)]
  {
    Then(p, git, ["fetch", "origin", "main"], false, (fetched: Outcome) =>
      var ok := fetched.Completed? && fetched.code == 0;
      var checkout := if ok then ["checkout", "-b", branch, "origin/main"]
                      else ["checkout", "--orphan", branch];
      Then(p, git, checkout, !ok, _ =>
        Then(p, git, AddAll, true, _ =>
          CommitThenPush(p, git, branch, message))))
  }

  /** `commit_and_push` on any other branch: stage, read the porcelain
      status, and return the repository URL without committing or pushing
      when nothing changed. */
  function DefaultBranchPush(p: Provider, git: Command -> Outcome, branch: string, message: string): (s: Session)
    ensures s.result.Ok? ==> s.result.value == RepoUrl(p)
    ensures s.result.Ok? ==>
              || s.commands == [AddAll, Status]
              || s.commands == [AddAll, Status, CommitCommand(message), PushCommand(branch)]
  {
    Then(p, git, AddAll, true, _ =>
      Then(p, git, Status, true, (status: Outcome) =>
        if status.Completed? && Strip(status.stdout) == [] then Session([], Ok(RepoUrl(p)))
        else CommitThenPush(p, git, branch, message)))
  }

  /** `commit_and_push`: the `feat/` flow or the default flow, by branch name. */
  function CommitAndPush(p: Provider, git: Command -> Outcome, branch: string, message: string): (s: Session)
    ensures s.result.Ok? ==> s.result.value == RepoUrl(p)
    ensures s.result.Ok? && StartsWith(branch, "feat/") ==>
              |s.commands| == 5 && s.commands[3..] == [CommitCommand(message), PushCommand(branch)]
    ensures s.result.Ok? && !StartsWith(branch, "feat/") ==>
              || s.commands == [AddAll, Status]
              || s.commands == [AddAll, Status, CommitCommand(message), PushCommand(branch)]
  {
    if StartsWith(branch, "feat/") then FeatureBranchPush(p, git, branch, message)
    else DefaultBranchPush(p, git, branch, message)
  }

  /** On a branch other than `feat/`, a successful run pushes exactly when
      the porcelain status (stripped) is non-empty. */
  lemma {:induction false} NothingToCommitSkipsPush(p: Provider, git: Command -> Outcome, branch: string, message: string)
    requires !StartsWith(branch, "feat/")
    requires CommitAndPush(p, git, branch, message).result.Ok?
    ensures var s := CommitAndPush(p, git, branch, message);
      (s.commands == [AddAll, Status]) <==> Strip(git(Status).stdout) == []
  {
  }

  // Status codes of section 15 of RFC 9110.
  const Created := 201
  const Unauthorized := 401
  const Forbidden := 403
  const NotFound := 404
  const UnprocessableContent := 422

  /** A GitHub API reply: a status and the fields the client reads from the
      JSON body, or a request that failed before any reply. */
  datatype Reply =
    | Response(status: int, url: Option<string>, errorMessages: seq<Option<string>>, errorsText: string)
    | RequestFailed(message: string)

  datatype RepoError = ValidationFailed | BadToken | NoPermission | ApiError(status: int) | RepoRequestFailed

  /** Some entry of `errors` has exactly the message "name already exists
      on this account". */
  predicate NameTaken(reply: Reply)
    requires reply.Response?
  {
    exists k | 0 <= k < |reply.errorMessages| ::
      reply.errorMessages[k] == Some("name already exists on this account")
  }

  /** `create_github_repo`: 201 gives the clone URL (empty when absent); 422
      with a "name already exists" entry gives the existing repository's
      URL; everything else is a `RepoCreationError`. */
  function CreateRepo(repoName: string, reply: Reply): (r: Result<string, RepoError>)
    ensures r.Ok? <==> reply.Response? && (reply.status == Created || (reply.status == UnprocessableContent && NameTaken(reply)))
    ensures r.Ok? && reply.status == Created ==> r.value == reply.url.GetOr("")
    ensures r.Ok? && reply.status == UnprocessableContent ==> r.value == "https://github.com/" + repoName + ".git"
    ensures reply.Response? && reply.status == Unauthorized ==> r == Err(BadToken)
    ensures reply.Response? && reply.status == Forbidden ==> r == Err(NoPermission)
  {
    match reply
    case RequestFailed(_) => Err(RepoRequestFailed)
    case Response(status, url, _, _) =>
      if status == Created then Ok(url.GetOr(""))
      else if status == UnprocessableContent then
        if NameTaken(reply) then Ok("https://github.com/" + repoName + ".git") else Err(ValidationFailed)
      else if status == Unauthorized then Err(BadToken)
      else if status == Forbidden then Err(NoPermission)
      else Err(ApiError(status))
  }

  datatype PullRequestError = PrValidationFailed | RepoNotFound | PrBadToken | PrApiError(status: int) | PrRequestFailed

  /** `create_pull_request`: 201 gives the pull request's page (empty when
      absent); 422 whose errors mention "A pull request already exists" gives
      the repository's pulls page; everything else is a `PRCreationError`. */
  function CreatePullRequest(username: string, repoName: string, reply: Reply): (r: Result<string, PullRequestError>)
    ensures r.Ok? <==>
              && reply.Response?
              && (|| reply.status == Created
                  || (reply.status == UnprocessableContent && Contains(reply.errorsText, "A pull request already exists")))
    ensures r.Ok? && reply.status == Created ==> r.value == reply.url.GetOr("")
    ensures r.Ok? && reply.status == UnprocessableContent ==>
              r.value == "https://github.com/" + username + "/" + repoName + "/pulls"
    ensures reply.Response? && reply.status == NotFound ==> r == Err(RepoNotFound)
    ensures reply.Response? && reply.status == Unauthorized ==> r == Err(PrBadToken)
  {
    match reply
    case RequestFailed(_) => Err(PrRequestFailed)
    case Response(status, url, _, errorsText) =>
      if status == Created then Ok(url.GetOr(""))
      else if status == UnprocessableContent then
        if Contains(errorsText, "A pull request already exists")
        then Ok("https://github.com/" + username + "/" + repoName + "/pulls")
        else Err(PrValidationFailed)
      else if status == NotFound then Err(RepoNotFound)
      else if status == Unauthorized then Err(PrBadToken)
      else Err(PrApiError(status))
  }
}

=== FILE: manifest.dfy ===
/** The build manifest ("fabrication instructions") and the field constraints
    its schema enforces when a manifest is parsed from model output. */
module Manifest {
  import opened Wrappers
  import opened Text

  /** The closed set of supported stacks. */
  datatype StackType = Python | Node | Rust

  /** The enum's string value. */
  function StackValue(s: StackType): string {
    match s
    case Python => "python"
    case Node => "node"
    case Rust => "rust"
  }

  /** `StackType(value)`: only the three exact values are accepted. */
  function ParseStack(value: string): (r: Option<StackType>)
    ensures r.Some? <==> value in {"python", "node", "rust"}
    ensures r.Some? ==> StackValue(r.value) == value
  {
    if value == "python" then Some(Python)
    else if value == "node" then Some(Node)
    else if value == "rust" then Some(Rust)
    else None
  }

  /** One file to inject: any path, any content (empty content included). */
  datatype FileSpec = FileSpec(path: string, content: string)

  datatype GantryManifest = GantryManifest(
    projectName: string,
    stack: StackType,
    files: seq<FileSpec>,
    auditCommand: string,
    runCommand: string)

  /** A manifest as it arrives, before validation; absent keys are None. */
  datatype RawManifest = RawManifest(
    projectName: Option<string>,
    stack: Option<string>,
    files: Option<seq<FileSpec>>,
    auditCommand: Option<string>,
    runCommand: Option<string>)

  datatype Field = ProjectName | Stack | Files | AuditCommand | RunCommand

  datatype FieldError = Missing(field: Field) | Invalid(field: Field)

  predicate IsNameChar(c: char) {
    IsLetter(c) || IsDigit(c) || c == '_' || c == '-'
  }

  /** The name constraints, stated declaratively: 1 to 64 characters, a
      leading ASCII letter, then letters, digits, `_` or `-`. */
  predicate ValidProjectName(name: string) {
    && 1 <= |name| <= 64
    && IsLetter(name[0])
    && forall i :: 1 <= i < |name| ==> IsNameChar(name[i])
  }

  /** A left-to-right match of `[a-zA-Z0-9_-]*` against the whole string. */
  predicate NameTailMatches(s: string) {
    s == [] || (IsNameChar(s[0]) && NameTailMatches(s[1..]))
  }

  /** The schema's check on a stripped name: length bounds, then the pattern
      `^[a-zA-Z][a-zA-Z0-9_-]*$`. */
  predicate NameFieldAccepts(name: string) {
    1 <= |name| <= 64 && IsLetter(name[0]) && NameTailMatches(name[1..])
  }

  lemma {:induction false} NameTailMatchesAll(s: string)
    ensures NameTailMatches(s) <==> forall i :: 0 <= i < |s| ==> IsNameChar(s[i])
  {
    if s != [] {
      NameTailMatchesAll(s[1..]);
      assert forall i :: 1 <= i < |s| ==> s[i] == s[1..][i - 1];
    }
  }

  /** The pattern check accepts exactly the valid project names. */
  lemma {:induction false} NameFieldAcceptsIff(name: string)
    ensures NameFieldAccepts(name) <==> ValidProjectName(name)
  {
    if |name| >= 1 {
      NameTailMatchesAll(name[1..]);
      assert forall i :: 1 <= i < |name| ==> name[i] == name[1..][i - 1];
    }
  }

  /** What a successfully validated manifest satisfies: stored strings are
      already stripped, the name is valid, there is at least one file, and
      both commands are non-empty. */
  predicate ValidManifest(m: GantryManifest) {
    && ValidProjectName(m.projectName)
    && |m.files| >= 1
    && m.auditCommand != [] && Strip(m.auditCommand) == m.auditCommand
    && m.runCommand != [] && Strip(m.runCommand) == m.runCommand
  }

  function CheckName(v: Option<string>): seq<FieldError> {
    match v
    case None => [Missing(ProjectName)]
    case Some(s) => if NameFieldAccepts(Strip(s)) then [] else [Invalid(ProjectName)]
  }

  function CheckStack(v: Option<string>): seq<FieldError> {
    match v
    case None => [Missing(Stack)]
    case Some(s) => if ParseStack(s).Some? then [] else [Invalid(Stack)]
  }

  function CheckFiles(v: Option<seq<FileSpec>>): seq<FieldError> {
    match v
    case None => [Missing(Files)]
    case Some(fs) => if |fs| >= 1 then [] else [Invalid(Files)]
  }

  /** `min_length=1` after stripping. */
  function CheckCommand(f: Field, v: Option<string>): seq<FieldError> {
    match v
    case None => [Missing(f)]
    case Some(s) => if Strip(s) != [] then [] else [Invalid(f)]
  }

  /** `GantryManifest(**data)`: every field is checked and every failing field
      is reported, in declaration order. */
  function Validate(raw: RawManifest): (r: Result<GantryManifest, seq<FieldError>>)
    ensures r.Ok? ==> ValidManifest(r.value)
    ensures r.Ok? ==> raw.files.Some? && r.value.files == raw.files.value
    // the validators hand back the stripped name and commands and the parsed stack
    ensures r.Ok? ==> && raw.projectName.Some? && r.value.projectName == Strip(raw.projectName.value)
                      && raw.stack.Some? && ParseStack(raw.stack.value) == Some(r.value.stack)
                      && raw.auditCommand.Some? && r.value.auditCommand == Strip(raw.auditCommand.value)
                      && raw.runCommand.Some? && r.value.runCommand == Strip(raw.runCommand.value)
    ensures r.Err? ==> |r.error| >= 1
    ensures r.Ok? <==>
      && raw.projectName.Some? && ValidProjectName(Strip(raw.projectName.value))
      && raw.stack.Some? && raw.stack.value in {"python", "node", "rust"}
      && raw.files.Some? && |raw.files.value| >= 1
      && raw.auditCommand.Some? && Strip(raw.auditCommand.value) != []
      && raw.runCommand.Some? && Strip(raw.runCommand.value) != []
  {
    var errors := CheckName(raw.projectName) + CheckStack(raw.stack) + CheckFiles(raw.files)
                   + CheckCommand(AuditCommand, raw.auditCommand)
                   + CheckCommand(RunCommand, raw.runCommand);
    NameFieldAcceptsIff(Strip(raw.projectName.GetOr([])));
    if errors == [] then
      StripIdempotent(raw.auditCommand.value);
      StripIdempotent(raw.runCommand.value);
      Ok(GantryManifest(Strip(raw.projectName.value), ParseStack(raw.stack.value).value,
                        raw.files.value, Strip(raw.auditCommand.value),
                        Strip(raw.runCommand.value)))
    else Err(errors)
  }

  /** `model_dump()`: the manifest's fields with the stack as its string value. */
  function Dump(m: GantryManifest): RawManifest {
    RawManifest(Some(m.projectName), Some(StackValue(m.stack)), Some(m.files),
                Some(m.auditCommand), Some(m.runCommand))
  }

  /** Dumping a valid manifest and validating the dump gives the manifest back,
      so the name and the file list (and its count) survive the round trip. */
  lemma {:induction false} DumpValidateRoundTrip(m: GantryManifest)
    requires ValidManifest(m)
    ensures Validate(Dump(m)) == Ok(m)
  {
    DumpPassesChecks(m);
    ValidateAccepts(Dump(m));
    ValidNamePasses(m.projectName);
    ParseStackValue(m.stack);
  }

  /** Every field of a valid manifest's dump passes its check. */
  lemma {:induction false} DumpPassesChecks(m: GantryManifest)
    requires ValidManifest(m)
    ensures var raw := Dump(m);
            && CheckName(raw.projectName) == [] && CheckStack(raw.stack) == [] && CheckFiles(raw.files) == []
            && CheckCommand(AuditCommand, raw.auditCommand) == [] && CheckCommand(RunCommand, raw.runCommand) == []
  {
    ValidNamePasses(m.projectName);
    ParseStackValue(m.stack);
  }

  /** A valid project name passes the name check as it is. */
  lemma {:induction false} ValidNamePasses(name: string)
    requires ValidProjectName(name)
    ensures Strip(name) == name
    ensures CheckName(Some(name)) == []
  {
    assert !IsSpace(name[0]) && !IsSpace(name[|name| - 1]);
    StripFixed(name);
    assert NameFieldAccepts(name) by {
      NameFieldAcceptsIff(name);
    }
  }

  /** When every field check passes, validation builds the manifest from the stripped values. */
  lemma {:induction false} ValidateAccepts(raw: RawManifest)
    requires CheckName(raw.projectName) == [] && CheckStack(raw.stack) == [] && CheckFiles(raw.files) == []
    requires CheckCommand(AuditCommand, raw.auditCommand) == [] && CheckCommand(RunCommand, raw.runCommand) == []
    ensures Validate(raw) == Ok(GantryManifest(Strip(raw.projectName.value), ParseStack(raw.stack.value).value,
                                               raw.files.value, Strip(raw.auditCommand.value),
                                               Strip(raw.runCommand.value)))
  {
    var errors := CheckName(raw.projectName) + CheckStack(raw.stack) + CheckFiles(raw.files)
                   + CheckCommand(AuditCommand, raw.auditCommand)
                   + CheckCommand(RunCommand, raw.runCommand);
    assert errors == [];
  }

  /** Every stack's string value parses back to that stack. */
  lemma {:induction false} ParseStackValue(s: StackType)
    ensures ParseStack(StackValue(s)) == Some(s)
  {
    match s
    case Python =>
    case Node => assert StackValue(s) != "python";
    case Rust => assert StackValue(s) != "python" && StackValue(s) != "node";
  }

  /** A whitespace-only name or command is rejected: stripping precedes the
      length and pattern checks. */
  lemma {:induction false} WhitespaceOnlyRejected(raw: RawManifest)
    requires || (raw.projectName.Some? && forall i :: 0 <= i < |raw.projectName.value| ==> IsSpace(raw.projectName.value[i]))
             || (raw.auditCommand.Some? && forall i :: 0 <= i < |raw.auditCommand.value| ==> IsSpace(raw.auditCommand.value[i]))
             || (raw.runCommand.Some? && forall i :: 0 <= i < |raw.runCommand.value| ==> IsSpace(raw.runCommand.value[i]))
    ensures Validate(raw).Err?
  {
    if raw.projectName.Some? && forall i :: 0 <= i < |raw.projectName.value| ==> IsSpace(raw.projectName.value[i]) {
      AllSpaceStripsEmpty(raw.projectName.value);
    } else if raw.auditCommand.Some? && forall i :: 0 <= i < |raw.auditCommand.value| ==> IsSpace(raw.auditCommand.value[i]) {
      AllSpaceStripsEmpty(raw.auditCommand.value);
    } else {
      AllSpaceStripsEmpty(raw.runCommand.value);
    }
  }

  lemma {:induction false} AllSpaceStripsEmpty(s: string)
    requires forall i :: 0 <= i < |s| ==> IsSpace(s[i])
    ensures Strip(s) == []
  {
    var l := TrimLeft(s);
  }

  /** The schema places no uniqueness or count limit on file paths: repeating
      a file of a valid manifest keeps it valid. */
  lemma {:induction false} DuplicatePathsAccepted(m: GantryManifest, f: FileSpec)
    requires ValidManifest(m)
    ensures ValidManifest(m.(files := m.files + [f, f]))
    ensures Validate(Dump(m.(files := m.files + [f, f]))).Ok?
  {
    DumpValidateRoundTrip(m.(files := m.files + [f, f]));
  }
}

=== FILE: mission.dfy ===
/** The mission status values the orchestrators write to the status store and
    broadcast to subscribers. */
module Mission {

  datatype Status =
    | Pending
    | Architecting
    | Validating
    | Building
    | Healing
    | Publishing
    | Deployed
    | PrOpened
    | Success
    | Failed
    | Blocked
    | Timeout
    | CriticalFailure
    | PublishFailed

  /** The string stored in the `status` column. */
  function Name(s: Status): string {
    match s
    case Pending => "PENDING"
    case Architecting => "ARCHITECTING"
    case Validating => "VALIDATING"
    case Building => "BUILDING"
    case Healing => "HEALING"
    case Publishing => "PUBLISHING"
    case Deployed => "DEPLOYED"
    case PrOpened => "PR_OPENED"
    case Success => "SUCCESS"
    case Failed => "FAILED"
    case Blocked => "BLOCKED"
    case Timeout => "TIMEOUT"
    case CriticalFailure => "CRITICAL_FAILURE"
    case PublishFailed => "PUBLISH_FAILED"
  }

  /** Statuses after which an orchestrator writes nothing more. */
  predicate IsTerminal(s: Status) {
    s in {Deployed, PrOpened, Success, Failed, Blocked, Timeout, CriticalFailure, PublishFailed}
  }

  /** A status update or a call to a collaborator, in the order it happened. */
  datatype Step<Call> = Update(status: Status) | Invoke(call: Call)

  /** The status updates of a trace, in order. */
  function Statuses<C>(trace: seq<Step<C>>): (r: seq<Status>)
    ensures |r| <= |trace|
  {
    if trace == [] then []
    else (if trace[0].Update? then [trace[0].status] else []) + Statuses(trace[1..])
  }

  lemma {:induction false} StatusesAppend<C>(a: seq<Step<C>>, b: seq<Step<C>>)
    ensures Statuses(a + b) == Statuses(a) + Statuses(b)
  {
    if a == [] {
      assert a + b == b;
    } else {
      var head := if a[0].Update? then [a[0].status] else [];
      assert (a + b)[0] == a[0];
      assert (a + b)[1..] == a[1..] + b;
      assert Statuses(a + b) == head + Statuses(a[1..] + b);
      StatusesAppend(a[1..], b);
      assert Statuses(a) == head + Statuses(a[1..]);
      assert head + (Statuses(a[1..]) + Statuses(b)) == (head + Statuses(a[1..])) + Statuses(b);
    }
  }

  /** Exactly one terminal status is written, and it is the last one. */
  predicate EndsInOneTerminal(statuses: seq<Status>) {
    && |statuses| > 0
    && IsTerminal(statuses[|statuses| - 1])
    && forall i :: 0 <= i < |statuses| - 1 ==> !IsTerminal(statuses[i])
  }

  /** No status in the sequence is terminal. */
  predicate NoTerminal(statuses: seq<Status>) {
    forall i :: 0 <= i < |statuses| ==> !IsTerminal(statuses[i])
  }

  /** A run of non-terminal statuses followed by a sequence that ends in one
      terminal status ends in one terminal status. */
  lemma {:induction false} EndsInOneTerminalAfter(a: seq<Status>, b: seq<Status>)
    requires NoTerminal(a) && EndsInOneTerminal(b)
    ensures EndsInOneTerminal(a + b)
  {
    var s := a + b;
    forall i | 0 <= i < |s| - 1 ensures !IsTerminal(s[i]) {
      if i >= |a| { assert s[i] == b[i - |a|]; }
    }
  }

  /** A status update followed by one call. */
  lemma {:induction false} StatusesOfPair<C>(s: Status, k: C)
    ensures Statuses([Update(s), Invoke(k)]) == [s]
  {
    var t: seq<Step<C>> := [Update(s), Invoke(k)];
    assert t[1..] == [Invoke(k)];
    assert t[1..][1..] == [];
  }

  /** A lone status update. */
  lemma {:induction false} StatusesOfNote<C>(s: Status)
    ensures Statuses<C>([Update(s)]) == [s]
  {
    var t: seq<Step<C>> := [Update(s)];
    assert t[1..] == [];
  }

  /** The number of collaborator calls in a trace that satisfy `p`. */
  function CountCalls<C>(trace: seq<Step<C>>, p: C -> bool): (n: nat)
    ensures n <= |trace|
  {
    if trace == [] then 0
    else (if trace[0].Invoke? && p(trace[0].call) then 1 else 0) + CountCalls(trace[1..], p)
  }

  lemma {:induction false} CountCallsAppend<C>(a: seq<Step<C>>, b: seq<Step<C>>, p: C -> bool)
    ensures CountCalls(a + b, p) == CountCalls(a, p) + CountCalls(b, p)
  {
    if a == [] {
      assert a + b == b;
    } else {
      assert (a + b)[0] == a[0];
      assert (a + b)[1..] == a[1..] + b;
      CountCallsAppend(a[1..], b, p);
    }
  }

  lemma {:induction false} CountCallsOfPair<C>(s: Status, k: C, p: C -> bool)
    ensures CountCalls([Update(s), Invoke(k)], p) == (if p(k) then 1 else 0)
  {
    var t: seq<Step<C>> := [Update(s), Invoke(k)];
    assert t[1..] == [Invoke(k)];
    assert t[1..][1..] == [];
  }

  lemma {:induction false} CountCallsOfNote<C>(s: Status, p: C -> bool)
    ensures CountCalls<C>([Update(s)], p) == 0
  {
    var t: seq<Step<C>> := [Update(s)];
    assert t[1..] == [];
  }

  /** A trace with no call satisfying `p` has no such call at any index. */
  lemma {:induction false} CountCallsZero<C>(trace: seq<Step<C>>, p: C -> bool)
    requires CountCalls(trace, p) == 0
    ensures forall i :: 0 <= i < |trace| && trace[i].Invoke? ==> !p(trace[i].call)
  {
    if trace != [] {
      CountCallsZero(trace[1..], p);
      forall i | 1 <= i < |trace| ensures trace[i] == trace[1..][i - 1] { }
    }
  }
}

=== FILE: policy.dfy ===
/** The policy gate: stack allow-list, file-count cap and forbidden-pattern
    scan, applied in that order to a parsed manifest. Regular-expression
    search is the abstract predicate `matches(pattern, content)` (case
    insensitive in the source). */
module Policy {
  import opened Wrappers
  import opened Text
  import opened Manifest

  datatype PolicyConfig = PolicyConfig(
    allowedStacks: seq<string>,
    forbiddenPatterns: seq<string>,
    maxFiles: int)

  /** The contents of a policy file; `max_files` may be omitted. */
  datatype PolicyFile = PolicyFile(
    allowedStacks: seq<string>,
    forbiddenPatterns: seq<string>,
    maxFiles: Option<int>)

  const DefaultMaxFiles := 10

  /** `_load_policy`: the file's settings, or the built-in defaults when
      there is no policy file. */
  function LoadPolicy(file: Option<PolicyFile>): (c: PolicyConfig)
    ensures file.None? ==>
      && c.allowedStacks == ["python", "node", "rust"]
      && c.forbiddenPatterns == ["rm -rf", "mkfs", ":\\(\\)\\{ :\\|:& \\};:"]
      && c.maxFiles == 10
    ensures file.Some? ==>
      && c.allowedStacks == file.value.allowedStacks
      && c.forbiddenPatterns == file.value.forbiddenPatterns
      && c.maxFiles == file.value.maxFiles.GetOr(10)
  {
    match file
    case None =>
      PolicyConfig(["python", "node", "rust"],
                   ["rm -rf", "mkfs", ":\\(\\)\\{ :\\|:& \\};:"],
                   DefaultMaxFiles)
    case Some(f) =>
      PolicyConfig(f.allowedStacks, f.forbiddenPatterns, f.maxFiles.GetOr(DefaultMaxFiles))
  }

  /** A `SecurityViolation`, one constructor per rule. */
  datatype Violation =
    | StackNotAllowed(stack: string)
    | TooManyFiles(count: nat, maxFiles: int)
    | ForbiddenPattern(path: string, pattern: string)
  {
    /** The violation's `rule` attribute. */
    function Rule(): string {
      match this
      case StackNotAllowed(_) => "allowed_stacks"
      case TooManyFiles(_, _) => "max_files"
      case ForbiddenPattern(_, _) => "forbidden_patterns"
    }
  }

  /** The stack's value appears in the allow-list, ignoring case. */
  predicate StackAllowed(config: PolicyConfig, stack: StackType) {
    exists k | 0 <= k < |config.allowedStacks| ::
      Lower(config.allowedStacks[k]) == Lower(StackValue(stack))
  }

  /** Some pattern matches some file's content. */
  predicate AnyForbidden(files: seq<FileSpec>, patterns: seq<string>,
                         matches: (string, string) -> bool) {
    exists i, k | 0 <= i < |files| && 0 <= k < |patterns| ::
      matches(patterns[k], files[i].content)
  }

  /** `_check_stack`. */
  function CheckStack(config: PolicyConfig, m: GantryManifest): (r: Option<Violation>)
    ensures r.None? <==> StackAllowed(config, m.stack)
    ensures r.Some? ==> r.value == StackNotAllowed(StackValue(m.stack))
  {
    var value := Lower(StackValue(m.stack));
    if exists k | 0 <= k < |config.allowedStacks| :: Lower(config.allowedStacks[k]) == value
    then None
    else Some(StackNotAllowed(StackValue(m.stack)))
  }

  /** `_check_file_count`: exactly `max_files` files still pass. */
  function CheckFileCount(config: PolicyConfig, m: GantryManifest): (r: Option<Violation>)
    ensures r.None? <==> |m.files| <= config.maxFiles
    ensures r.Some? ==> r.value == TooManyFiles(|m.files|, config.maxFiles)
  {
    if |m.files| > config.maxFiles then Some(TooManyFiles(|m.files|, config.maxFiles)) else None
  }

  /** The first pattern, in configuration order, that matches `content`. */
  function FirstMatchingPattern(patterns: seq<string>, content: string,
                                matches: (string, string) -> bool): (r: Option<nat>)
    ensures r.Some? ==> r.value < |patterns| && matches(patterns[r.value], content)
    ensures r.Some? ==> forall k :: 0 <= k < r.value ==> !matches(patterns[k], content)
    ensures r.None? ==> forall k :: 0 <= k < |patterns| ==> !matches(patterns[k], content)
  {
    if patterns == [] then None
    else if matches(patterns[0], content) then Some(0)
    else match FirstMatchingPattern(patterns[1..], content, matches)
         case None => None
         case Some(k) => Some(k + 1)
  }

  /** The first (file, pattern) hit at or after file `from`: files in
      manifest order, then patterns in configuration order. */
  function FirstHit(files: seq<FileSpec>, patterns: seq<string>,
                    matches: (string, string) -> bool, from: nat): (r: Option<(nat, nat)>)
    requires from <= |files|
    ensures r.Some? ==>
      && from <= r.value.0 < |files| && r.value.1 < |patterns|
      && matches(patterns[r.value.1], files[r.value.0].content)
      && (forall j, q :: from <= j < r.value.0 && 0 <= q < |patterns| ==> !matches(patterns[q], files[j].content))
      && (forall q :: 0 <= q < r.value.1 ==> !matches(patterns[q], files[r.value.0].content))
    ensures r.None? ==>
      forall j, q :: from <= j < |files| && 0 <= q < |patterns| ==> !matches(patterns[q], files[j].content)
    decreases |files| - from
  {
    if from == |files| then None
    else match FirstMatchingPattern(patterns, files[from].content, matches)
      case Some(k) => Some((from, k))
      case None => FirstHit(files, patterns, matches, from + 1)
  }

  /** `_check_forbidden_patterns`: the first hit, reported with the file's
      path and the pattern. */
  function ScanFiles(files: seq<FileSpec>, patterns: seq<string>,
                     matches: (string, string) -> bool): (r: Option<Violation>)
    ensures r.None? <==> !AnyForbidden(files, patterns, matches)
  {
    match FirstHit(files, patterns, matches, 0)
    case None => None
    case Some((i, k)) => Some(ForbiddenPattern(files[i].path, patterns[k]))
  }

  /** `PolicyGate.validate`: `Ok(true)` when every rule passes, otherwise the
      violation of the first failing rule; later rules are not evaluated. */
  function Validate(config: PolicyConfig, m: GantryManifest,
                    matches: (string, string) -> bool): (r: Result<bool, Violation>)
    ensures r.Ok? ==> r.value
    ensures r.Ok? <==> && StackAllowed(config, m.stack)
                       && |m.files| <= config.maxFiles
                       && !AnyForbidden(m.files, config.forbiddenPatterns, matches)
    ensures r.Err? && r.error.Rule() == "allowed_stacks" <==> !StackAllowed(config, m.stack)
    ensures r.Err? && r.error.Rule() == "max_files" <==>
              StackAllowed(config, m.stack) && |m.files| > config.maxFiles
    ensures r.Err? && r.error.Rule() == "forbidden_patterns" <==>
              && StackAllowed(config, m.stack) && |m.files| <= config.maxFiles
              && AnyForbidden(m.files, config.forbiddenPatterns, matches)
  {
    match CheckStack(config, m)
    case Some(v) => Err(v)
    case None =>
      match CheckFileCount(config, m)
      case Some(v) => Err(v)
      case None =>
        match ScanFiles(m.files, config.forbiddenPatterns, matches)
        case Some(v) => Err(v)
        case None => Ok(true)
  }

  /** A forbidden-pattern violation names the first file, in manifest order,
      whose content matches any pattern, and the first pattern that matches it. */
  lemma {:induction false} ViolationNamesFirstMatchingFile(config: PolicyConfig, m: GantryManifest,
                                        matches: (string, string) -> bool, i: nat, k: nat)
    requires StackAllowed(config, m.stack) && |m.files| <= config.maxFiles
    requires i < |m.files| && k < |config.forbiddenPatterns|
    requires matches(config.forbiddenPatterns[k], m.files[i].content)
    requires forall j, q :: 0 <= j < i && 0 <= q < |config.forbiddenPatterns| ==>
               !matches(config.forbiddenPatterns[q], m.files[j].content)
    requires forall q :: 0 <= q < k ==> !matches(config.forbiddenPatterns[q], m.files[i].content)
    ensures Validate(config, m, matches) ==
              Err(ForbiddenPattern(m.files[i].path, config.forbiddenPatterns[k]))
  {
    var hit := FirstHit(m.files, config.forbiddenPatterns, matches, 0);
    assert hit.Some?;
  }

  /** Under the default configuration every stack of the closed enumeration is
      allowed, and a manifest is accepted iff it has at most 10 files and no
      file matches one of the three default patterns. */
  lemma {:induction false} DefaultConfigAllowsEveryStack(m: GantryManifest, matches: (string, string) -> bool)
    ensures var c := LoadPolicy(None);
      Validate(c, m, matches).Ok? <==>
        |m.files| <= 10 && !AnyForbidden(m.files, c.forbiddenPatterns, matches)
  {
    var c := LoadPolicy(None);
    match m.stack
    case Python => assert Lower(c.allowedStacks[0]) == Lower(StackValue(m.stack));
    case Node => assert Lower(c.allowedStacks[1]) == Lower(StackValue(m.stack));
    case Rust => assert Lower(c.allowedStacks[2]) == Lower(StackValue(m.stack));
  }
}

=== FILE: publisher.dfy ===
/** The green-only publisher: it reads the audit verdict from the mission's
    evidence folder, refuses to publish a failed mission, and otherwise pushes
    the manifest's files to GitHub through the git client. File writes are
    not modelled; git commands are the collaborator `git`. */
module Publisher {
  import opened Wrappers
  import opened Text
  import opened Manifest
  import Evidence
  import Foundry
  import opened GitClient

  datatype Credentials = Credentials(token: Option<string>, username: Option<string>)

  /** `is_configured`: both the token and the user name are set. */
  predicate IsConfigured(c: Credentials) {
    IsSet(c.token) && IsSet(c.username)
  }

  /** A JSON evidence file as the publisher finds it: missing, unreadable
      (invalid JSON or an I/O error), or parsed, with its `verdict` and
      `status` fields when present. */
  datatype EvidenceFile = Absent | Unreadable | Parsed(verdict: Option<string>, status: Option<string>)

  datatype EvidenceView = EvidenceView(auditPass: EvidenceFile, auditFail: EvidenceFile, auditReport: EvidenceFile)

  datatype PublishFailure =
    | SecurityBlock
    | NoEvidence
    | EvidenceUnreadable(file: string)
    | NotConfigured
    | GitFailed(message: string)

  /** audit_pass.json exists, reads, and says PASS. */
  predicate PassVerdict(e: EvidenceView) {
    e.auditPass.Parsed? && e.auditPass.verdict == Some("PASS")
  }

  /** `_check_audit_status`: an audit_pass.json with verdict PASS wins; an
      unreadable audit_pass.json is an error; otherwise an existing
      audit_fail.json means failed; otherwise the legacy report decides by
      its upper-cased status; with no evidence at all, an error. */
  function CheckAuditStatus(e: EvidenceView): (r: Result<bool, PublishFailure>)
    ensures r == Ok(true) <==>
              || PassVerdict(e)
              || (&& !e.auditPass.Unreadable? && e.auditFail.Absent?
                  && e.auditReport.Parsed? && Upper(e.auditReport.status.GetOr("")) == "PASS")
    ensures r == Ok(false) <==>
              && !PassVerdict(e) && !e.auditPass.Unreadable?
              && (!e.auditFail.Absent? ||
                  (e.auditReport.Parsed? && Upper(e.auditReport.status.GetOr("")) != "PASS"))
    ensures e.auditPass.Unreadable? ==> r == Err(EvidenceUnreadable("audit_pass.json"))
  {
    if e.auditPass.Unreadable? then Err(EvidenceUnreadable("audit_pass.json"))
    else if PassVerdict(e) then Ok(true)
    else if !e.auditFail.Absent? then Ok(false)
    else match e.auditReport
      case Absent => Err(NoEvidence)
      case Unreadable => Err(EvidenceUnreadable("audit_report.json"))
      case Parsed(_, status) => Ok(Upper(status.GetOr("")) == "PASS")
  }

  /** An audit_pass.json whose verdict is not PASS does not count: the
      decision is the one the remaining files give. */
  lemma {:induction false} NonPassVerdictFallsThrough(e: EvidenceView, v: Option<string>, status: Option<string>)
    requires v != Some("PASS")
    ensures CheckAuditStatus(e.(auditPass := Parsed(v, status))) ==
            CheckAuditStatus(e.(auditPass := Absent))
  {
  }

  /** How the publisher sees a folder the build wrote: audit_pass.json
      carries verdict PASS; no build writes the legacy report. */
  function ViewOf(f: Evidence.Folder): (e: EvidenceView)
    ensures f.auditPass.Some? <==> PassVerdict(e)
    ensures e.auditReport.Absent?
  {
    EvidenceView(
      if f.auditPass.Some? then Parsed(Some("PASS"), None) else Absent,
      if f.auditFail.Some? then Parsed(Some("FAIL"), None) else Absent,
      Absent)
  }

  /** For folders the build writes, the gate passes iff audit_pass.json was
      written, blocks iff only audit_fail.json was, and finds no evidence
      otherwise. */
  lemma {:induction false} GateOnBuildEvidence(f: Evidence.Folder)
    ensures CheckAuditStatus(ViewOf(f)) == Ok(true) <==> f.auditPass.Some?
    ensures CheckAuditStatus(ViewOf(f)) == Ok(false) <==> f.auditPass.None? && f.auditFail.Some?
    ensures CheckAuditStatus(ViewOf(f)) == Err(NoEvidence) <==> f.auditPass.None? && f.auditFail.None?
  {
  }

  /** A build that passed its audit but failed the structure check leaves
      both verdict files, and the gate reads the pair as a pass: only the
      orchestrator's refusal to publish after `AuditFailedError` keeps such
      a build unpublished. */
  lemma {:induction false} StructureFailureLooksGreen(m: GantryManifest, deploy: bool, env: Foundry.BuildEnv, folder: Evidence.Folder)
    requires env.fault.None? && env.audit.0 == 0
    requires Foundry.ChecksStructure(m.stack) && !Foundry.VerifyStructure(m.stack, env.structure)
    ensures var r := Foundry.Build(m, deploy, env, folder);
      r.outcome.AuditFailed? && CheckAuditStatus(ViewOf(r.box.folder)) == Ok(true)
  {
    Foundry.StructureFailurePath(m, deploy, env, folder);
  }

  /** `repo_name or manifest.project_name`. */
  function TargetRepo(m: GantryManifest, repoName: Option<string>): (t: string)
    ensures IsSet(repoName) ==> t == repoName.value
    ensures !IsSet(repoName) ==> t == m.projectName
  {
    if IsSet(repoName) then repoName.value else m.projectName
  }

  datatype Publication = Publication(commands: seq<Command>, result: Result<string, PublishFailure>)

  /** The git session of a publication: init, rename the branch to main
      (unchecked), configure the committer, replace the remote (removal
      unchecked), then commit and push to main. */
  function GitSession(c: Credentials, m: GantryManifest, target: string, git: Command -> Outcome): (s: Session)
    requires IsConfigured(c)
  {
    var before := Provider(None, None, None);
    var after := Provider(c.token, c.username, Some(target));
    Then(before, git, ["init"], true, _ =>
      Then(before, git, ["branch", "-M", "main"], false, _ =>
        Then(before, git, ["config", "user.name", "Gantry Bot"], true, _ =>
          Then(before, git, ["config", "user.email", "gantry@auto-deploy.local"], true, _ =>
            Then(after, git, ["remote", "remove", "origin"], false, _ =>
              Then(after, git, ["remote", "add", "origin", RemoteUrl(c.token.value, c.username.value, target)], true, _ =>
                CommitAndPush(after, git, "main", "Gantry Auto-Deploy: " + m.projectName)))))))
  }

  /** `publish_mission`: the audit gate first, then the credentials, then
      the git session; a git error becomes a publish error. */
  function PublishMission(c: Credentials, m: GantryManifest, evidence: EvidenceView,
                          repoName: Option<string>, git: Command -> Outcome): (p: Publication)
    // green-only: nothing is pushed, and nothing succeeds, unless the audit passed
    ensures p.result.Ok? || p.commands != [] ==> CheckAuditStatus(evidence) == Ok(true) && IsConfigured(c)
    ensures CheckAuditStatus(evidence) == Ok(false) <==> p == Publication([], Err(SecurityBlock))
    ensures CheckAuditStatus(evidence).Err? ==> p == Publication([], Err(CheckAuditStatus(evidence).error))
    ensures CheckAuditStatus(evidence) == Ok(true) && !IsConfigured(c) ==> p == Publication([], Err(NotConfigured))
    ensures p.result.Ok? ==>
              p.result.value == "https://github.com/" + c.username.value + "/" + TargetRepo(m, repoName)
              || (TargetRepo(m, repoName) == "" && p.result.value == "https://github.com")
    // past the gate and the credentials, the publication is the git session: its commands, and
    // success exactly when the session succeeds, a git error coming back as a publish error
    ensures CheckAuditStatus(evidence) == Ok(true) && IsConfigured(c) ==>
              var s := GitSession(c, m, TargetRepo(m, repoName), git);
              && p.commands == s.commands
              && (p.result.Ok? <==> s.result.Ok?)
              && (s.result.Ok? ==> p.result.value == s.result.value)
              && (s.result.Err? ==> p.result == Err(GitFailed("Git operation failed: " + s.result.error)))
  {
    match CheckAuditStatus(evidence)
    case Err(e) => Publication([], Err(e))
    case Ok(passed) =>
      if !passed then Publication([], Err(SecurityBlock))
      else if !IsConfigured(c) then Publication([], Err(NotConfigured))
      else
        var s := GitSession(c, m, TargetRepo(m, repoName), git);
        match s.result
        case Ok(url) => Publication(s.commands, Ok(url))
        case Err(e) => Publication(s.commands, Err(GitFailed("Git operation failed: " + e)))
  }

  /** A successful publication configured the remote for the target
      repository (the given name, else the project name) with the token as
      credential, and its commands end with the push of main unless there was
      nothing to commit. */
  lemma {:induction false} PublishedToTarget(c: Credentials, m: GantryManifest, evidence: EvidenceView,
                          repoName: Option<string>, git: Command -> Outcome)
    requires PublishMission(c, m, evidence, repoName, git).result.Ok?
    ensures var p := PublishMission(c, m, evidence, repoName, git);
      && |p.commands| >= 8
      && p.commands[5] == ["remote", "add", "origin", RemoteUrl(c.token.value, c.username.value, TargetRepo(m, repoName))]
      && (p.commands[|p.commands| - 1] == PushCommand("main") || p.commands[6..] == [AddAll, Status])
  {
    var p := PublishMission(c, m, evidence, repoName, git);
    var target := TargetRepo(m, repoName);
    var after := Provider(c.token, c.username, Some(target));
    var cp := CommitAndPush(after, git, "main", "Gantry Auto-Deploy: " + m.projectName);
    assert p.commands[6..] == cp.commands;
  }
}

=== FILE: skills.dfy ===
/**
 * The skill registry: a name-keyed table that keeps the order in which
 * names were first registered (Python dicts keep insertion order), and the
 * start-up scan that registers the skill exported by each eligible folder.
 * Importing a handler module is an abstract outcome per folder.
 */
module Skills {
  import opened Wrappers
  import opened Text

  /** A skill as the registry sees it; `execute` is not modelled. */
  datatype Skill = Skill(name: string, description: string)

  /** `SkillRegistry._skills`: the keys in insertion order and the table itself. */
  datatype Registry = Registry(names: seq<string>, skills: map<string, Skill>)

  /** The order list names every key exactly once. */
  predicate Valid(r: Registry) {
    && (forall i, j | 0 <= i < j < |r.names| :: r.names[i] != r.names[j])
    && (forall i | 0 <= i < |r.names| :: r.names[i] in r.skills)
    && (forall n | n in r.skills :: n in r.names)
  }

  const Empty := Registry([], map[])

  lemma {:induction false} EmptyValid()
    ensures Valid(Empty) && Empty.names == []
  {
  }

  /** `register(skill)`: a new name is appended, a known one keeps its place and gets the new skill. */
  function Register(r: Registry, s: Skill): (r': Registry)
    requires Valid(r)
    ensures Valid(r')
    ensures r'.skills == r.skills[s.name := s]
    ensures s.name in r.skills ==> r'.names == r.names
    ensures s.name !in r.skills ==> r'.names == r.names + [s.name]
  {
    if s.name in r.skills then Registry(r.names, r.skills[s.name := s])
    else Registry(r.names + [s.name], r.skills[s.name := s])
  }

  /** `get(name)`. */
  function Get(r: Registry, name: string): (o: Option<Skill>)
    ensures o.Some? <==> name in r.skills
    ensures o.Some? ==> o.value == r.skills[name]
  {
    if name in r.skills then Some(r.skills[name]) else None
  }

  /** `list_skills()`. */
  function ListSkills(r: Registry): seq<string> {
    r.names
  }

  /** A registered skill is what `get` returns for its name, and every other name is unaffected. */
  lemma {:induction false} GetAfterRegister(r: Registry, s: Skill, name: string)
    requires Valid(r)
    ensures Get(Register(r, s), s.name) == Some(s)
    ensures name != s.name ==> Get(Register(r, s), name) == Get(r, name)
  {
  }

  /** Registering the same name twice keeps the later skill and lists the name once. */
  lemma {:induction false} ReRegisterReplaces(r: Registry, s1: Skill, s2: Skill)
    requires Valid(r) && s1.name == s2.name
    ensures var r2 := Register(Register(r, s1), s2);
            && Get(r2, s1.name) == Some(s2)
            && ListSkills(r2) == ListSkills(Register(r, s1))
            && multiset(ListSkills(r2))[s1.name] == 1
  {
    var r1 := Register(r, s1);
    var r2 := Register(r1, s2);
    assert s1.name in r2.names;
    var i :| 0 <= i < |r2.names| && r2.names[i] == s1.name;
    OnlyOnce(r2.names, i);
  }

  /** An entry of a duplicate-free sequence occurs in it exactly once. */
  lemma {:induction false} OnlyOnce(s: seq<string>, i: nat)
    requires i < |s|
    requires forall a, b | 0 <= a < b < |s| :: s[a] != s[b]
    ensures multiset(s)[s[i]] == 1
  {
    var x := s[i];
    assert s == s[..i] + [x] + s[i + 1..];
    var before, after := s[..i], s[i + 1..];
    assert x !in before by {
      forall a | 0 <= a < |before| ensures before[a] != x { }
    }
    assert x !in after by {
      forall a | 0 <= a < |after| ensures after[a] != x {
        assert after[a] == s[i + 1 + a];
      }
    }
    assert multiset(s) == multiset(before) + multiset([x]) + multiset(after);
  }

  /** What importing a folder's `handler.py` yields. */
  datatype Import = Exports(skill: Skill) | NoSkillObject | ImportFailed

  /** A directory entry of the skills folder; `handler` is None when there is no handler.py. */
  datatype DirEntry = DirEntry(name: string, isDir: bool, handler: Option<Import>)

  /** The folders `load_all` considers: directories whose name does not start with "_". */
  predicate Considered(e: DirEntry) {
    e.isDir && !StartsWith(e.name, "_")
  }

  /** The entry contributes a skill: considered, with a handler that exports one. */
  predicate Contributes(e: DirEntry) {
    Considered(e) && e.handler.Some? && e.handler.value.Exports?
  }

  /** `_load_skill` on one folder. */
  function LoadSkill(r: Registry, e: DirEntry): (r': Registry)
    requires Valid(r)
    ensures Valid(r')
  {
    match e.handler
    case None => r
    case Some(Exports(s)) => Register(r, s)
    case Some(_) => r
  }

  /** `load_all`, visiting the entries in the order the directory listing gives them. */
  function LoadAll(r: Registry, entries: seq<DirEntry>): (r': Registry)
    requires Valid(r)
    ensures Valid(r')
    decreases |entries|
  {
    if entries == [] then r
    else LoadAll(if Considered(entries[0]) then LoadSkill(r, entries[0]) else r, entries[1..])
  }

  /**
   * After the scan a name is registered iff it was before or some
   * contributing folder exports a skill of that name; folders starting with
   * "_", plain files and folders without an exported skill add nothing.
   */
  lemma {:induction false} LoadAllNames(r: Registry, entries: seq<DirEntry>, name: string)
    requires Valid(r)
    ensures name in LoadAll(r, entries).skills <==>
              name in r.skills ||
              exists k | 0 <= k < |entries| :: Contributes(entries[k]) && entries[k].handler.value.skill.name == name
    decreases |entries|
  {
    if entries != [] {
      var e := entries[0];
      var r1 := if Considered(e) then LoadSkill(r, e) else r;
      LoadAllNames(r1, entries[1..], name);
      assert name in r1.skills <==> name in r.skills || (Contributes(e) && e.handler.value.skill.name == name);
      if exists k | 0 <= k < |entries| :: Contributes(entries[k]) && entries[k].handler.value.skill.name == name {
        var k :| 0 <= k < |entries| && Contributes(entries[k]) && entries[k].handler.value.skill.name == name;
        if k > 0 {
          assert entries[1..][k - 1] == entries[k];
        }
      }
    }
  }
}

=== FILE: text.dfy ===
/** String helpers with the meaning of the Python `str` methods the source
    calls: `lower`, `upper`, `strip`, `split`, `find`, `rfind`, `replace`,
    `startswith`, `in` and slicing. Case mapping is ASCII-only. */
module Text {
  import opened Wrappers

  /** Python truthiness of an optional string: present and non-empty. */
  predicate IsSet(v: Option<string>) {
    v.Some? && v.value != ""
  }

  /** Python's `str.isspace()`: the characters `strip()` and `split()` drop
      and the regex class `\s` matches. */
  predicate IsSpace(c: char) {
    || ('\t' <= c <= '\r')                  // \t \n \v \f \r
    || ('\U{001C}' <= c <= ' ')              // the four separators and the space
    || c == '\U{0085}' || c == '\U{00A0}' || c == '\U{1680}'
    || ('\U{2000}' <= c <= '\U{200A}')
    || c == '\U{2028}' || c == '\U{2029}' || c == '\U{202F}' || c == '\U{205F}' || c == '\U{3000}'
  }

  predicate IsUpper(c: char) { 'A' <= c <= 'Z' }
  predicate IsLower(c: char) { 'a' <= c <= 'z' }
  predicate IsLetter(c: char) { IsUpper(c) || IsLower(c) }
  predicate IsDigit(c: char) { '0' <= c <= '9' }

  const LowerLetters := "abcdefghijklmnopqrstuvwxyz"
  const UpperLetters := "ABCDEFGHIJKLMNOPQRSTUVWXYZ"

  function LowerChar(c: char): (r: char)
    ensures IsUpper(c) ==> IsLower(r)
    ensures !IsUpper(c) ==> r == c
  {
    if IsUpper(c) then LowerLetters[c as int - 'A' as int] else c
  }

  function UpperChar(c: char): (r: char)
    ensures IsLower(c) ==> IsUpper(r)
    ensures !IsLower(c) ==> r == c
  {
    if IsLower(c) then UpperLetters[c as int - 'a' as int] else c
  }

  /** `s.lower()` on ASCII letters. */
  function Lower(s: string): (r: string)
    ensures |r| == |s|
    ensures forall i :: 0 <= i < |s| ==> r[i] == LowerChar(s[i])
  {
    seq(|s|, i requires 0 <= i < |s| => LowerChar(s[i]))
  }

  /** `s.upper()` on ASCII letters. */
  function Upper(s: string): (r: string)
    ensures |r| == |s|
    ensures forall i :: 0 <= i < |s| ==> r[i] == UpperChar(s[i])
  {
    seq(|s|, i requires 0 <= i < |s| => UpperChar(s[i]))
  }

  predicate StartsWith(s: string, prefix: string) {
    |prefix| <= |s| && s[..|prefix|] == prefix
  }

  /** `t` occurs in `s` starting at index `i`. */
  predicate OccursAt(s: string, t: string, i: int) {
    0 <= i && i + |t| <= |s| && s[i..i + |t|] == t
  }

  /** Python's `t in s`. */
  predicate Contains(s: string, t: string) {
    exists i | 0 <= i <= |s| - |t| :: OccursAt(s, t, i)
  }

  /** Python's `any(kw in s for kw in keywords)`. */
  predicate ContainsAny(s: string, keywords: seq<string>) {
    exists k | 0 <= k < |keywords| :: Contains(s, keywords[k])
  }

  /** `s.lstrip()`. */
  function TrimLeft(s: string): (r: string)
    ensures |r| <= |s| && r == s[|s| - |r|..]
    ensures r == [] || !IsSpace(r[0])
    ensures forall i :: 0 <= i < |s| - |r| ==> IsSpace(s[i])
  {
    if s == [] || !IsSpace(s[0]) then s else TrimLeft(s[1..])
  }

  /** `s.rstrip()`. */
  function TrimRight(s: string): (r: string)
    ensures |r| <= |s| && r == s[..|r|]
    ensures r == [] || !IsSpace(r[|r| - 1])
    ensures forall i :: |r| <= i < |s| ==> IsSpace(s[i])
  {
    if s == [] || !IsSpace(s[|s| - 1]) then s else TrimRight(s[..|s| - 1])
  }

  /** `s.strip()`. */
  function Strip(s: string): string {
    TrimRight(TrimLeft(s))
  }

  /** The result of `strip()` has no whitespace at either end. */
  lemma {:induction false} StripEnds(s: string)
    ensures var r := Strip(s); r == [] || (!IsSpace(r[0]) && !IsSpace(r[|r| - 1]))
  {
    var l := TrimLeft(s);
    var r := TrimRight(l);
    if r != [] {
      assert r[0] == l[0];
    }
  }

  /** A string with no whitespace at either end is its own `strip()`. */
  lemma {:induction false} StripFixed(s: string)
    requires s == [] || (!IsSpace(s[0]) && !IsSpace(s[|s| - 1]))
    ensures Strip(s) == s
  {
  }

  /** `strip()` is idempotent. */
  lemma {:induction false} StripIdempotent(s: string)
    ensures Strip(Strip(s)) == Strip(s)
  {
    StripEnds(s);
    StripFixed(Strip(s));
  }

  /** `s[:n]`. */
  function Prefix(s: string, n: nat): (r: string)
    ensures |r| == if n < |s| then n else |s|
    ensures StartsWith(s, r)
  {
    if n < |s| then s[..n] else s
  }

  /** `s.find(c)`: the first index of `c`, or None for Python's -1. */
  function Find(s: string, c: char): (r: Option<nat>)
    ensures r.Some? ==> r.value < |s| && s[r.value] == c
                        && forall i :: 0 <= i < r.value ==> s[i] != c
    ensures r.None? ==> forall i :: 0 <= i < |s| ==> s[i] != c
  {
    if s == [] then None
    else if s[0] == c then Some(0)
    else match Find(s[1..], c)
         case None => None
         case Some(k) => Some(k + 1)
  }

  /** `s.rfind(c)`: the last index of `c`, or None for Python's -1. */
  function RFind(s: string, c: char): (r: Option<nat>)
    ensures r.Some? ==> r.value < |s| && s[r.value] == c
                        && forall i :: r.value < i < |s| ==> s[i] != c
    ensures r.None? ==> forall i :: 0 <= i < |s| ==> s[i] != c
  {
    if s == [] then None
    else if s[|s| - 1] == c then Some(|s| - 1)
    else RFind(s[..|s| - 1], c)
  }

  /** `s.replace(t, r)` for a non-empty `t`: a left-to-right scan replacing
      non-overlapping occurrences. */
  function ReplaceAll(s: string, t: string, r: string): string
    requires |t| > 0
    decreases |s|
  {
    if |s| < |t| then s
    else if s[..|t|] == t then r + ReplaceAll(s[|t|..], t, r)
    else [s[0]] + ReplaceAll(s[1..], t, r)
  }

  /** `sep.join(parts)`. */
  function Join(sep: string, parts: seq<string>): string {
    if parts == [] then []
    else if |parts| == 1 then parts[0]
    else parts[0] + sep + Join(sep, parts[1..])
  }

  /** The leading run of non-whitespace characters of `s`. */
  function TakeWord(s: string): (w: string)
    ensures |w| <= |s| && w == s[..|w|]
    ensures forall i :: 0 <= i < |w| ==> !IsSpace(w[i])
    ensures |w| < |s| ==> IsSpace(s[|w|])
    ensures s != [] && !IsSpace(s[0]) ==> |w| >= 1
  {
    if s == [] || IsSpace(s[0]) then [] else [s[0]] + TakeWord(s[1..])
  }

  /** `s.split()`: the maximal runs of non-whitespace characters, in order. */
  function Split(s: string): (words: seq<string>)
    ensures forall k :: 0 <= k < |words| ==> words[k] != []
    ensures s == [] ==> words == []
    decreases |s|
  {
    if s == [] then []
    else if IsSpace(s[0]) then Split(s[1..])
    else
      var w := TakeWord(s);
      [w] + Split(s[|w|..])
  }

  function DigitChar(d: nat): (c: char)
    requires d < 10
    ensures IsDigit(c)
  {
    "0123456789"[d]
  }

  /** `str(n)` for a natural number: its decimal digits, no leading zero. */
  function NatToString(n: nat): (r: string)
    ensures |r| >= 1 && forall i :: 0 <= i < |r| ==> IsDigit(r[i])
    ensures |r| > 1 ==> r[0] != '0'
  {
    if n < 10 then [DigitChar(n)] else NatToString(n / 10) + [DigitChar(n % 10)]
  }

  /** `str(i)` for an integer: a leading '-' for negative values. */
  function IntToString(i: int): (r: string)
    ensures |r| >= 1
    ensures (r[0] == '-') <==> i < 0
  {
    if i < 0 then "-" + NatToString(-i) else NatToString(i)
  }
}

=== FILE: wrappers.dfy ===
/** Option and Result, the two failure-carrying types the model uses in place
    of Python's None returns and raised exceptions. */
module Wrappers {

  /** A value that may be absent: Python's `X | None`. */
  datatype Option<+T> = None | Some(value: T) {

    /** The wrapped value, or `default` when absent. */
    function GetOr(default: T): T {
      match this
      case Some(v) => v
      case None => default
    }
  }

  /** The outcome of an operation that either returns a value or raises. */
  datatype Result<+R, +E> = Ok(value: R) | Err(error: E) {

    predicate IsFailure() {
      Err?
    }

    function PropagateFailure<U>(): Result<U, E>
      requires Err?
    {
      Err(error)
    }

    function Extract(): R
      requires Ok?
    {
      value
    }
  }
}
